=== FILE: README.md ===
# Play Feature Delivery samples in Dafny

This project models the decision logic of the Android app-bundle samples.
The samples show how an app installs feature modules, languages and asset packs on demand.

- **PlayCoreKtx.** Two `InstallViewModel` variants project split-install session reports onto a `ModuleStatus`. Two `UpdateViewModel` variants decide between immediate and flexible in-app updates. `ReviewViewModel` pre-warms an in-app review. `ColorViewModel` tracks whether the background colour was picked. `MainFragment` renders all of this, and `PaletteFragment` labels the swatches of a picture.
- **DynamicFeatures.** `MainActivity` is the split-install listener, and it also loads, installs and uninstalls modules and languages.
- **DynamicCodeLoadingKotlin.** `AbstractMainViewModel` keeps a counter in an on-demand storage module. The Dagger `BaseModule` caches that module once it is found.
- **PlayAssetDelivery native Teapot.** `TexturedTeapotRender` chooses a texture per asset pack. The Java activity posts button codes to it through a one-slot mailbox.
- **DynamicFeatureNavigation.** The custom-monitor fragment maps buttons to destinations and shows install progress until a terminal status. Its build script registers the `buildApks…` and `installApkSplitsForTest…` tasks per variant.

Everything is pure functions over immutable datatypes:

- Platform calls become returned effect values.
- Listener callbacks become functions from a state and a report to a new state and effects.
- Flows become sequences of reports.

`KotlinNumbers` models the JVM arithmetic the samples depend on:

- `Int` and `Long` wrap-around.
- Division that truncates toward zero.
- `Long.toDouble() / Long`, where a zero divisor gives NaN or an infinity instead of an error.
- Saturating `Double.toInt()`.

`SplitInstall` holds the Play Core session-status codes (UNKNOWN 0 … CANCELING 9) and the session report.

## Model

| member | source | states |
|---|---|---|
| KotlinNumbers.WrapInt | DynamicCodeLoadingKotlin/app/src/main/java/com/google/android/samples/dynamiccodeloading/AbstractMainViewModel.kt:76 | the `Int` result is in 32-bit range, congruent to the exact value mod 2^32, and equal to it when it fits |
| KotlinNumbers.WrapLong | PlayCoreKtx/app/src/main/java/com/google/android/samples/dynamicfeatures/ui/MainFragment.kt:212-214 | the `Long` result is in 64-bit range, congruent to the exact value mod 2^64, and equal to it when it fits |
| KotlinNumbers.TruncDiv | PlayCoreKtx/app/src/main/java/com/google/android/samples/dynamicfeatures/ui/MainFragment.kt:212-214 | JVM `/`: \|q\|·\|b\| ≤ \|a\| < (\|q\|+1)·\|b\|, and a non-zero quotient is positive iff the operands have the same sign |
| KotlinNumbers.DivideToDouble | PlayCoreKtx/app/src/main/java/com/google/android/samples/dynamicfeatures/state/InstallViewModel.kt:70-72 | `bytes.toDouble() / total` is finite iff total ≠ 0, and then times total gives bytes back; 0/0 is NaN; positive/0 is +Infinity |
| KotlinNumbers.Truncate | PlayCoreKtx/app/src/main/java/com/google/android/samples/dynamicfeatures/ui/MainFragment.kt:176 | rounds toward zero: within 1 of the value, never larger in magnitude |
| KotlinNumbers.DoubleToInt | PlayCoreKtx/app/src/main/java/com/google/android/samples/dynamicfeatures/ui/MainFragment.kt:176 | `toInt()`: in Int range; NaN is 0; infinities and out-of-range values saturate at INT_MAX / INT_MIN; otherwise the truncation |
| InstallViewModel.Project | PlayCoreKtx/app/src/main/java/com/google/android/samples/dynamicfeatures/state/InstallViewModel.kt:64-92 | each status code maps to its `ModuleStatus`, with an iff per class: Installed iff INSTALLED; Available iff CANCELED or FAILED; Unavailable iff the code is not in the table; NeedsConfirmation iff REQUIRES_USER_CONFIRMATION, carrying the report; PENDING and CANCELING give 0; DOWNLOADED and INSTALLING give 1; DOWNLOADING gives bytes/total. A toast is raised iff FAILED, carrying the error code and module names |
| InstallViewModel.DownloadProgressInUnitInterval | PlayCoreKtx/app/src/main/java/com/google/android/samples/dynamicfeatures/state/InstallViewModel.kt:70-72 | a DOWNLOADING report with 0 ≤ bytes ≤ total > 0 projects to a finite progress in [0, 1] |
| InstallViewModel.DownloadWithZeroTotalIsNotFinite | PlayCoreKtx/app/src/main/java/com/google/android/samples/dynamicfeatures/state/InstallViewModel.kt:70-72 | with total 0 the progress is NaN (nothing downloaded) or +Infinity (something downloaded), never 0 |
| InstallViewModel.ModuleStatusFlow | PlayCoreKtx/app/src/main/java/com/google/android/samples/dynamicfeatures/state/InstallViewModel.kt:60-99 | an upstream failure ends the output with the generic toast followed by `Unavailable`; reports that never name the module produce nothing |
| InstallViewModel.FlowStatusesAreProjectedTrackedStates | PlayCoreKtx/app/src/main/java/com/google/android/samples/dynamicfeatures/state/InstallViewModel.kt:60-99 | the statuses emitted are exactly the projections of the reports naming the module, in order, plus `Unavailable` after an upstream failure |
| InstallViewModel.FlowToastsAreFailures | PlayCoreKtx/app/src/main/java/com/google/android/samples/dynamicfeatures/state/InstallViewModel.kt:73-98 | the toasts shown are exactly one error toast per tracked FAILED report, in order, plus the generic toast after an upstream failure |
| InstallViewModel.PaletteFlowStatuses | PlayCoreKtx/app/src/main/java/com/google/android/samples/dynamicfeatures/InstallViewModel.kt:51-77 | the older variant filters on `palette` and emits the projections of exactly those reports (plus `Unavailable` on failure) |
| InstallViewModel.PaletteFlowToasts | PlayCoreKtx/app/src/main/java/com/google/android/samples/dynamicfeatures/InstallViewModel.kt:62-77 | the older variant toasts once per tracked FAILED report and once for a stream error |
| InstallViewModel.InvokeModule | PlayCoreKtx/app/src/main/java/com/google/android/samples/dynamicfeatures/state/InstallViewModel.kt:101-130 | an install is requested iff the module is not installed and the status does not await confirmation; the request is for exactly that module; a rejected request toasts "Failed starting installation of …" |
| InstallViewModel.InvokeRandomColor | PlayCoreKtx/app/src/main/java/com/google/android/samples/dynamicfeatures/state/InstallViewModel.kt:101-130 | the RandomColorActivity launches iff `randomcolor` is installed, with the "Invoked" toast; otherwise the `InvokeModule` rule applies to `[randomcolor]`; no action means no toast |
| InstallViewModel.InvokePalettePlaceholder | PlayCoreKtx/app/src/main/java/com/google/android/samples/dynamicfeatures/state/InstallViewModel.kt:132-135 | no action, only the "Not implemented yet" toast |
| InstallViewModel.InvokePalette | PlayCoreKtx/app/src/main/java/com/google/android/samples/dynamicfeatures/InstallViewModel.kt:80-97 | an installed `palette` only toasts "Invoked Palette!"; otherwise `palette` is requested iff no confirmation is pending, with a toast if the request throws; nothing is ever launched |
| InstallViewModel.ClickFollowsShownStatus | PlayCoreKtx/app/src/main/java/com/google/android/samples/dynamicfeatures/state/InstallViewModel.kt:60-130 | a click on a missing module does nothing while its latest report asks for confirmation, and requests the module once the stream has failed and shows Unavailable |
| InstallViewModel.RandomColorClickWaitsForConfirmation | PlayCoreKtx/app/src/main/java/com/google/android/samples/dynamicfeatures/state/InstallViewModel.kt:116-119 | while `randomcolor` is shown awaiting confirmation, a click neither requests nor toasts |
| InstallViewModel.PaletteClickAfterStreamFailureRequests | PlayCoreKtx/app/src/main/java/com/google/android/samples/dynamicfeatures/InstallViewModel.kt:80-97 | after the older variant's stream has failed, a click on a missing `palette` requests it |
| UpdateViewModel.ShouldLaunchImmediateUpdate | PlayCoreKtx/app/src/main/java/com/google/android/samples/dynamicfeatures/state/UpdateViewModel.kt:55-62 | true iff immediate updates are allowed and (staleness, with a missing value counting as 0, exceeds 30 days, or priority exceeds 4) |
| UpdateViewModel.MissingStalenessCountsAsZero | PlayCoreKtx/app/src/main/java/com/google/android/samples/dynamicfeatures/state/UpdateViewModel.kt:59 | with no staleness value, only the priority rule can trigger an immediate update |
| UpdateViewModel.InvokeUpdate | PlayCoreKtx/app/src/main/java/com/google/android/samples/dynamicfeatures/state/UpdateViewModel.kt:64-96 | no status does nothing. NotAvailable and InProgress send their toast events. Downloaded completes the update. Available sends one StartUpdateEvent, immediate iff the immediate rule holds. It throws IllegalStateException iff neither immediate nor flexible is allowed. At most one event is sent |
| UpdateViewModel.StartUpdateImmediateOnlyIfAllowed | PlayCoreKtx/app/src/main/java/com/google/android/samples/dynamicfeatures/state/UpdateViewModel.kt:72-82 | an immediate StartUpdateEvent is only ever sent for info that allows immediate updates |
| UpdateViewModel.Deliver | PlayCoreKtx/app/src/main/java/com/google/android/samples/dynamicfeatures/state/UpdateViewModel.kt:46-50 | delivering results one by one leaves the toasts alone and makes the last one delivered the current value |
| UpdateViewModel.CollectUpdateFlow | PlayCoreKtx/app/src/main/java/com/google/android/samples/dynamicfeatures/state/UpdateViewModel.kt:46-50 | the current status is the last result delivered (none if none); an upstream failure adds exactly one "Update info not available" toast |
| UpdateViewModel.FailureBeforeAnyResult | PlayCoreKtx/app/src/main/java/com/google/android/samples/dynamicfeatures/state/UpdateViewModel.kt:46-50 | a failure before any result shows only the "Update info not available" toast, and a click then does nothing, in this variant and in the older one alike |
| UpdateViewModel.FailureKeepsLatestResult | PlayCoreKtx/app/src/main/java/com/google/android/samples/dynamicfeatures/state/UpdateViewModel.kt:46-50 | a failure after some results keeps the last one, and a click acts on it exactly as without the failure |
| UpdateViewModel.LegacyInvokeUpdate | PlayCoreKtx/app/src/main/java/com/google/android/samples/dynamicfeatures/UpdateViewModel.kt:45-62 | toasts iff NotAvailable or InProgress, with the matching text; completes iff Downloaded; takes an update branch iff Available |
| UpdateViewModel.LegacyBranchFor | PlayCoreKtx/app/src/main/java/com/google/android/samples/dynamicfeatures/UpdateViewModel.kt:48-56 | an immediate branch iff immediate updates are allowed and staleness (missing counts as 0) exceeds 7 days or priority exceeds 4, the stale branch first; else the flexible branch iff flexible updates are allowed; else none |
| UpdateViewModel.LegacyImmediateCoversImmediate | PlayCoreKtx/app/src/main/java/com/google/android/samples/dynamicfeatures/UpdateViewModel.kt:50-53 | whenever the newer rule launches an immediate update, the older code is in one of its immediate branches |
| UpdateViewModel.LegacyStalenessThresholdIsLower | PlayCoreKtx/app/src/main/java/com/google/android/samples/dynamicfeatures/UpdateViewModel.kt:50 | the older threshold is 7 days: ten stale days take its immediate branch but not the newer rule |
| ReviewViewModel.Initial | PlayCoreKtx/app/src/main/java/com/google/android/samples/dynamicfeatures/state/ReviewViewModel.kt:41-42 | not yet asked, no request pending |
| ReviewViewModel.PreWarmReview | PlayCoreKtx/app/src/main/java/com/google/android/samples/dynamicfeatures/state/ReviewViewModel.kt:48-51 | a request starts iff not yet asked and none is held; otherwise the state is unchanged |
| ReviewViewModel.ObtainReviewInfo | PlayCoreKtx/app/src/main/java/com/google/android/samples/dynamicfeatures/state/ReviewViewModel.kt:59-65 | info is returned iff the held request completed successfully; returning it clears the request; otherwise the state is unchanged |
| ReviewViewModel.NotifyAskedForReview | PlayCoreKtx/app/src/main/java/com/google/android/samples/dynamicfeatures/state/ReviewViewModel.kt:75-77 | sets the asked flag and leaves the request alone |
| ReviewViewModel.Settle | PlayCoreKtx/app/src/main/java/com/google/android/samples/dynamicfeatures/state/ReviewViewModel.kt:50 | only an active request settles, into its outcome; any other state is unchanged |
| ReviewViewModel.PreWarmIsIdempotent | PlayCoreKtx/app/src/main/java/com/google/android/samples/dynamicfeatures/state/ReviewViewModel.kt:48-51 | pre-warming twice is the same as pre-warming once |
| ReviewViewModel.ObtainHandsOutOnce | PlayCoreKtx/app/src/main/java/com/google/android/samples/dynamicfeatures/state/ReviewViewModel.kt:59-65 | a completed review info is handed out once; the next call returns nothing |
| ReviewViewModel.NotifyIsIdempotent | PlayCoreKtx/app/src/main/java/com/google/android/samples/dynamicfeatures/state/ReviewViewModel.kt:75-77 | notifying twice is the same as notifying once |
| ReviewViewModel.AskedNeverStartsRequest | PlayCoreKtx/app/src/main/java/com/google/android/samples/dynamicfeatures/state/ReviewViewModel.kt:41-51 | once asked, no sequence of calls starts another request, and the flag stays set |
| ReviewViewModel.CancelledRequestIsNeverRetried | PlayCoreKtx/app/src/main/java/com/google/android/samples/dynamicfeatures/state/ReviewViewModel.kt:49-65 | a cancelled request is kept forever: no call starts a new one or hands out info |
| ColorViewModel.Initial | PlayCoreKtx/app/src/main/java/com/google/android/samples/dynamicfeatures/state/ColorViewModel.kt:31-37 | lights off, background `Color.YELLOW`, not picked |
| ColorViewModel.SetBackgroundColor | PlayCoreKtx/app/src/main/java/com/google/android/samples/dynamicfeatures/state/ColorViewModel.kt:39-44 | the background becomes the colour; the picked flag is set iff it was set or the colour differs (equal values are conflated) |
| ColorViewModel.SetLightsOn | PlayCoreKtx/app/src/main/java/com/google/android/samples/dynamicfeatures/state/ColorViewModel.kt:31 | only the light changes |
| ColorViewModel.NotifyPickedColorConsumed | PlayCoreKtx/app/src/main/java/com/google/android/samples/dynamicfeatures/state/ColorViewModel.kt:47-49 | clears the flag, nothing else changes |
| ColorViewModel.PickedIffUnconsumedChange | PlayCoreKtx/app/src/main/java/com/google/android/samples/dynamicfeatures/state/ColorViewModel.kt:39-49 | after any sequence of operations from an unpicked state, the flag is up iff some operation changed the background and no consume came after it |
| ColorViewModel.InitialColorIsNotAPick | PlayCoreKtx/app/src/main/java/com/google/android/samples/dynamicfeatures/state/ColorViewModel.kt:40-41 | setting the initial yellow again is not a pick |
| MainFragmentView.InstallingPercent | PlayCoreKtx/app/src/main/java/com/google/android/samples/dynamicfeatures/ui/MainFragment.kt:174-177 | `(progress * 100).toInt()`: a finite progress gives `100 * progress` truncated toward zero, clamped to the `Int` range; NaN gives 0; ±Infinity give `Int.MAX_VALUE` / `Int.MIN_VALUE` |
| MainFragmentView.UpdateModuleButton | PlayCoreKtx/app/src/main/java/com/google/android/samples/dynamicfeatures/ui/MainFragment.kt:166-195 | enabled iff not Unavailable; text per status (install / installing n% / not available / start); SplitCompat is installed iff Installed; a confirmation dialog with code 2 iff NeedsConfirmation, text untouched then |
| MainFragmentView.InstallingPercentOfUnitProgress | PlayCoreKtx/app/src/main/java/com/google/android/samples/dynamicfeatures/ui/MainFragment.kt:176 | a progress in [0, 1] shows the floor of progress·100, between 0 and 100 |
| MainFragmentView.ProjectedPercentIsBounded | PlayCoreKtx/app/src/main/java/com/google/android/samples/dynamicfeatures/ui/MainFragment.kt:173-177 | every Installing status projected from a sane report (0 ≤ bytes ≤ total > 0) shows 0..100 |
| MainFragmentView.DownloadingPercentIsBounded | PlayCoreKtx/app/src/main/java/com/google/android/samples/dynamicfeatures/ui/MainFragment.kt:173-177 | a sane DOWNLOADING report is Installing and shows a percentage in 0..100 |
| MainFragmentView.FixedProgressPercent | PlayCoreKtx/app/src/main/java/com/google/android/samples/dynamicfeatures/ui/MainFragment.kt:173-177 | any other in-progress report shows exactly 0 (PENDING, CANCELING) or 100 (DOWNLOADED, INSTALLING), whatever its byte counts |
| MainFragmentView.ZeroTotalPercent | PlayCoreKtx/app/src/main/java/com/google/android/samples/dynamicfeatures/ui/MainFragment.kt:173-177 | a DOWNLOADING report with total 0 shows 0 (nothing downloaded) or `Int.MAX_VALUE` |
| MainFragmentView.DownloadPercent | PlayCoreKtx/app/src/main/java/com/google/android/samples/dynamicfeatures/ui/MainFragment.kt:212-214 | `bytes * 100 / total` in `Long`: ArithmeticException iff total is 0, otherwise a `Long` |
| MainFragmentView.DownloadPercentBounds | PlayCoreKtx/app/src/main/java/com/google/android/samples/dynamicfeatures/ui/MainFragment.kt:212-214 | when bytes·100 fits in a `Long` and 0 ≤ bytes ≤ total, the percentage is 0..100 and is the exact floor quotient |
| MainFragmentView.HugeDownloadPercentWraps | PlayCoreKtx/app/src/main/java/com/google/android/samples/dynamicfeatures/ui/MainFragment.kt:212-214 | 2^62 of 2^62 bytes shows 0%, because bytes·100 wraps |
| MainFragmentView.UpdateUpdateButton | PlayCoreKtx/app/src/main/java/com/google/android/samples/dynamicfeatures/ui/MainFragment.kt:197-227 | NotAvailable hides the button; Available shows it enabled with `start_update`; Downloaded shows it enabled with `press_to_complete_update`; InProgress shows it disabled with `DownloadPercent`, and is an error iff the total is 0 |
| MainFragmentView.DispatchInstallEvent | PlayCoreKtx/app/src/main/java/com/google/android/samples/dynamicfeatures/ui/MainFragment.kt:108-123 | toast, navigation and confirmation (request code 1) are handled; an update event throws IllegalStateException |
| MainFragmentView.DispatchUpdateEvent | PlayCoreKtx/app/src/main/java/com/google/android/samples/dynamicfeatures/ui/MainFragment.kt:148-162 | toasts are shown; an update event starts the flow with request code 2, IMMEDIATE iff the event is immediate; navigation and confirmation events throw |
| MainFragmentView.CollectorsSplitEventTypes | PlayCoreKtx/app/src/main/java/com/google/android/samples/dynamicfeatures/ui/MainFragment.kt:108-162 | every event is handled by at least one of the two collectors, and only a toast by both, the same way |
| MainFragmentView.InvokeUpdateEventsAreDispatched | PlayCoreKtx/app/src/main/java/com/google/android/samples/dynamicfeatures/ui/MainFragment.kt:148-162 | every event `invokeUpdate` sends is handled, and its update type is IMMEDIATE iff the immediate rule holds |
| DynamicFeaturesActivity.Join | DynamicFeatures/app/src/main/java/com/google/android/samples/dynamicfeatures/MainActivity.kt:48 | `joinToString`: empty for no elements; otherwise its length is the elements' total length plus one separator between each neighbouring pair, it starts with the first element and ends with the last |
| DynamicFeaturesActivity.JoinAppend | DynamicFeatures/app/src/main/java/com/google/android/samples/dynamicfeatures/MainActivity.kt:48 | building from the other end: appending an element to a non-empty list appends the separator and that element to the text |
| DynamicFeaturesActivity.ListText | DynamicFeatures/app/src/main/java/com/google/android/samples/dynamicfeatures/MainActivity.kt:262-283 | the list as Kotlin prints it in the toasts: "[" then the elements joined by ", " then "]"; "[]" for none and "[x]" for one |
| DynamicFeaturesActivity.DisplayName | DynamicFeatures/app/src/main/java/com/google/android/samples/dynamicfeatures/MainActivity.kt:42-48 | the first language if any, else the module names joined with " - "; so one module is its own name and two are "a - b" |
| DynamicFeaturesActivity.LaunchFor | DynamicFeatures/app/src/main/java/com/google/android/samples/dynamicfeatures/MainActivity.kt:293-303 | the first matching branch decides: kotlin, java, initial, maxSdk and native launch their activity classes, assets displays the assets, instant launches the instant activity; any other name launches nothing |
| DynamicFeaturesActivity.InstallableModules | DynamicFeatures/app/src/main/java/com/google/android/samples/dynamicfeatures/MainActivity.kt:107-110 | the install-all list holds exactly the Kotlin, Java, native and assets modules, Kotlin first and assets last |
| DynamicFeaturesActivity.InstallAllLeavesOtherModules | DynamicFeatures/app/src/main/java/com/google/android/samples/dynamicfeatures/MainActivity.kt:107-110 | the install-time, max-SDK and instant modules are not on the install-all list unless they share a name with one that is |
| DynamicFeaturesActivity.OnSuccessfulLoad | DynamicFeatures/app/src/main/java/com/google/android/samples/dynamicfeatures/MainActivity.kt:293-307 | ends by showing the buttons; everything before that is exactly the launch for the module when `launch` is set, and nothing otherwise; launches something iff `launch` and the module is known; never requests an install |
| DynamicFeaturesActivity.Listener | DynamicFeatures/app/src/main/java/com/google/android/samples/dynamicfeatures/MainActivity.kt:41-81 | DOWNLOADING and INSTALLING show progress with the display name. REQUIRES_USER_CONFIRMATION opens the dialog with code 1. INSTALLED switches language or loads (launching iff single-module). FAILED toasts. Other codes do nothing |
| DynamicFeaturesActivity.LoadingState | DynamicFeatures/app/src/main/java/com/google/android/samples/dynamicfeatures/MainActivity.kt:321-328 | the progress bar and then the message; the bar's maximum and progress are the byte counts cut to `Int` (equal when they fit, congruent mod 2^32 always) |
| DynamicFeaturesActivity.LargeDownloadWrapsProgressBar | DynamicFeatures/app/src/main/java/com/google/android/samples/dynamicfeatures/MainActivity.kt:324 | a total of 2^32 + 5 bytes shows a bar maximum of 5 |
| DynamicFeaturesActivity.MultiModuleSessionNeverLaunches | DynamicFeatures/app/src/main/java/com/google/android/samples/dynamicfeatures/MainActivity.kt:42-68 | a multi-module session never launches anything |
| DynamicFeaturesActivity.ListenerLaunchesOnlySingleModules | DynamicFeatures/app/src/main/java/com/google/android/samples/dynamicfeatures/MainActivity.kt:42-68 | the listener launches iff the report is INSTALLED with no languages and at most one module, whose display name launches something |
| DynamicFeaturesActivity.ListenerNeverRequests | DynamicFeatures/app/src/main/java/com/google/android/samples/dynamicfeatures/MainActivity.kt:41-81 | the listener never starts an install |
| DynamicFeaturesActivity.OnActivityResult | DynamicFeatures/app/src/main/java/com/google/android/samples/dynamicfeatures/MainActivity.kt:86-96 | other request codes go to the superclass; for code 1, the "user cancelled" toast iff the result is RESULT_CANCELED, and no effect at all for any other result |
| DynamicFeaturesActivity.ConfirmationDialogIsHandledHere | DynamicFeatures/app/src/main/java/com/google/android/samples/dynamicfeatures/MainActivity.kt:55-62 | the dialog the listener starts for REQUIRES_USER_CONFIRMATION reports back with a code `onActivityResult` handles itself (never passed to the superclass), toasting iff cancelled |
| DynamicFeaturesActivity.LoadAndLaunchModule | DynamicFeatures/app/src/main/java/com/google/android/samples/dynamicfeatures/MainActivity.kt:178-196 | an installed module gives "loading", "already installed", then the successful load with launch; a missing one gives "loading", one request for exactly `[name]`, then "starting install for" the name |
| DynamicFeaturesActivity.InstalledModuleActsLikeCompletedSession | DynamicFeatures/app/src/main/java/com/google/android/samples/dynamicfeatures/MainActivity.kt:64-69 | loading an installed module does, after its two progress messages, what an INSTALLED single-module report does |
| DynamicFeaturesActivity.LoadAndSwitchLanguage | DynamicFeatures/app/src/main/java/com/google/android/samples/dynamicfeatures/MainActivity.kt:202-220 | an installed language gives "loading", "already installed", then the switch to it; a missing one gives "loading", one request for exactly that language, then "starting install for" it |
| DynamicFeaturesActivity.InstalledLanguageActsLikeCompletedSession | DynamicFeatures/app/src/main/java/com/google/android/samples/dynamicfeatures/MainActivity.kt:202-220 | loading an installed language ends with exactly what the listener does for a completed session of that language |
| DynamicFeaturesActivity.MissingMembers | DynamicFeatures/app/src/main/java/com/google/android/samples/dynamicfeatures/MainActivity.kt:253-257 | the filtered list holds exactly the listed names that are not installed |
| DynamicFeaturesActivity.MissingAppend | DynamicFeatures/app/src/main/java/com/google/android/samples/dynamicfeatures/MainActivity.kt:253-257 | filtering distributes over concatenation (order is kept) |
| DynamicFeaturesActivity.Missing | DynamicFeatures/app/src/main/java/com/google/android/samples/dynamicfeatures/MainActivity.kt:253-257 | the filtered list is no longer than the list and holds no installed name |
| DynamicFeaturesActivity.NothingInstalledMissesAll | DynamicFeatures/app/src/main/java/com/google/android/samples/dynamicfeatures/MainActivity.kt:253-257 | with none of the names installed, the filter keeps the whole list in order |
| DynamicFeaturesActivity.AllInstalledMissesNothing | DynamicFeatures/app/src/main/java/com/google/android/samples/dynamicfeatures/MainActivity.kt:253-257 | with every name installed, the filter keeps nothing |
| DynamicFeaturesActivity.InstallAllFeaturesNow | DynamicFeatures/app/src/main/java/com/google/android/samples/dynamicfeatures/MainActivity.kt:249-266 | one request holding exactly the installable modules that are not installed, in list order, and no languages; that is the deferred list less the installed modules; then "Loading …" or "Failed loading …" |
| DynamicFeaturesActivity.StartInstallAndToast | DynamicFeatures/app/src/main/java/com/google/android/samples/dynamicfeatures/MainActivity.kt:259-266 | the install is started with exactly that one request, and the listener then toasts "Loading " or "Failed loading " followed by the requested module names |
| DynamicFeaturesActivity.InstallAllFeaturesDeferred | DynamicFeatures/app/src/main/java/com/google/android/samples/dynamicfeatures/MainActivity.kt:269-273 | a deferred install of the whole installable list, then on success only the "Deferred installation of …" toast naming that list |
| DynamicFeaturesActivity.DeferredListCoversImmediateRequest | DynamicFeatures/app/src/main/java/com/google/android/samples/dynamicfeatures/MainActivity.kt:249-273 | the immediate request holds exactly the deferred list's names that are not installed: all of them on a fresh device, none once all are installed |
| DynamicFeaturesActivity.RequestUninstall | DynamicFeatures/app/src/main/java/com/google/android/samples/dynamicfeatures/MainActivity.kt:276-286 | the notice, then a deferred uninstall of every installed module exactly once, then the success or failure toast naming them |
| CodeLoading.Initial | DynamicCodeLoadingKotlin/app/src/main/java/com/google/android/samples/dynamiccodeloading/AbstractMainViewModel.kt:43-48 | session 0, no counter value, no storage module |
| CodeLoading.IncrementCounter | DynamicCodeLoadingKotlin/app/src/main/java/com/google/android/samples/dynamiccodeloading/AbstractMainViewModel.kt:75-77 | a missing counter counts as 0; the result is old + 1, wrapping from INT_MAX to INT_MIN; nothing else changes |
| CodeLoading.IsStorageInstalled | DynamicCodeLoadingKotlin/app/src/main/java/com/google/android/samples/dynamiccodeloading/AbstractMainViewModel.kt:102-103 | always true in debug builds, else iff `storage` is installed |
| CodeLoading.InitializeStorageFeature | DynamicCodeLoadingKotlin/app/src/reflect/java/com/google/android/samples/dynamiccodeloading/MainViewModel.kt:26-38 | a successful lookup sets the storage module; a failed one leaves the field as it was, so a held module is kept; nothing else changes |
| CodeLoading.StoredCounter | DynamicCodeLoadingKotlin/storage/src/serviceLoader/java/com/google/android/samples/storage/StorageFeatureImpl.kt:35 | the value stored under "COUNTER", or 0 when there is none |
| CodeLoading.LoadCounter | DynamicCodeLoadingKotlin/app/src/main/java/com/google/android/samples/dynamiccodeloading/AbstractMainViewModel.kt:79-84 | a module is held afterwards iff it was held before or it is installed and the lookup succeeds; the counter becomes the stored value (0 if unset) when a module is held, else 0 |
| CodeLoading.RequestStorageInstall | DynamicCodeLoadingKotlin/app/src/main/java/com/google/android/samples/dynamiccodeloading/AbstractMainViewModel.kt:105-120 | the "Requesting storage module install" toast first, then one request for exactly the storage module, and no other request |
| CodeLoading.SaveCounter | DynamicCodeLoadingKotlin/app/src/main/java/com/google/android/samples/dynamiccodeloading/AbstractMainViewModel.kt:86-98 | the effects are exactly one of three: the install request (toast and request) iff the module is neither loaded nor installed, the "Counter saved" toast iff a module is held afterwards, or nothing; when held, the counter (0 if unset) is written |
| CodeLoading.SaveThenLoadRestoresCounter | DynamicCodeLoadingKotlin/app/src/main/java/com/google/android/samples/dynamiccodeloading/AbstractMainViewModel.kt:79-98 | a successful save followed by a load gives back the saved counter |
| CodeLoading.OnInstallRequestResult | DynamicCodeLoadingKotlin/app/src/main/java/com/google/android/samples/dynamiccodeloading/AbstractMainViewModel.kt:113-119 | success records the session id; failure toasts and changes nothing |
| CodeLoading.Listener | DynamicCodeLoadingKotlin/app/src/main/java/com/google/android/samples/dynamiccodeloading/AbstractMainViewModel.kt:50-64 | other sessions are ignored; FAILED toasts the code; INSTALLED toasts and then saves; other statuses do nothing |
| CodeLoading.InstallThenSavePersistsCounter | DynamicCodeLoadingKotlin/app/src/main/java/com/google/android/samples/dynamiccodeloading/AbstractMainViewModel.kt:50-120 | save without the module requests it; the recorded session's INSTALLED report saves the counter |
| FeatureCache.StorageFeatureProvider | DynamicCodeLoadingKotlin/app/src/dagger/java/com/google/android/samples/dynamiccodeloading/di/BaseDagger.kt:55-69 | a cached instance is returned without lookup; otherwise the lookup's feature (or null on ClassNotFound) is returned and cached |
| FeatureCache.Calls | DynamicCodeLoadingKotlin/app/src/dagger/java/com/google/android/samples/dynamiccodeloading/di/BaseDagger.kt:47-69 | one result per call; the first call looks the class up iff nothing is cached; a null result only ever comes straight from a lookup that found no class |
| FeatureCache.CachedInstanceIsStable | DynamicCodeLoadingKotlin/app/src/dagger/java/com/google/android/samples/dynamiccodeloading/di/BaseDagger.kt:56-58 | once cached, every call returns the same instance without a lookup |
| FeatureCache.CallsReturnFirstSuccess | DynamicCodeLoadingKotlin/app/src/dagger/java/com/google/android/samples/dynamiccodeloading/di/BaseDagger.kt:47-69 | call i returns the first feature found by lookups 0..i, or null |
| FeatureCache.LookupsStopAtFirstSuccess | DynamicCodeLoadingKotlin/app/src/dagger/java/com/google/android/samples/dynamiccodeloading/di/BaseDagger.kt:49-64 | call i looks the class up iff no earlier lookup succeeded |
| TeapotRender.NewRenderer | PlayAssetDelivery/NativeSample/Teapot/src/main/cpp/TexturedTeapotRender.cpp:38-52 | index 1 of 3, pack `install_time_pack`, and the ten-entry texture table |
| TeapotRender.PackOffset | PlayAssetDelivery/NativeSample/Teapot/src/main/cpp/TexturedTeapotRender.cpp:108-116 | 3 iff on-demand pack, 6 iff fast-follow pack, 0 otherwise |
| TeapotRender.Init | PlayAssetDelivery/NativeSample/Teapot/src/main/cpp/TexturedTeapotRender.cpp:108-124 | slot 0 takes the texture at index + pack offset; the index advances and wraps from max to 1; the info text is "Texture::pack/texture"; the APK flag is set iff the pack is install-time |
| TeapotRender.InitCyclesEveryThreeCalls | PlayAssetDelivery/NativeSample/Teapot/src/main/cpp/TexturedTeapotRender.cpp:118-121 | three `Init`s bring the index back |
| TeapotRender.InitChoosesFromOriginalTable | PlayAssetDelivery/NativeSample/Teapot/src/main/cpp/TexturedTeapotRender.cpp:117 | only slot 0 is overwritten, so the choice always comes from the original table |
| TeapotRender.FirstTextureOfEachPack | PlayAssetDelivery/NativeSample/Teapot/src/main/cpp/TexturedTeapotRender.cpp:42-52 | the first textures of the three packs are 1.jpeg, /4.jpeg and /7.jpeg |
| TeapotRender.Dispatch | PlayAssetDelivery/NativeSample/Teapot/src/main/cpp/TexturedTeapotRender.cpp:179-203 | 0 does nothing; 1-3 select the install-time, on-demand and fast-follow packs; 4-9 request info, download, pause, resume, print the location and show the cellular-data confirmation; codes outside 0-9 only warn |
| TeapotRender.DispatchIsOneToOne | PlayAssetDelivery/NativeSample/Teapot/src/main/cpp/TexturedTeapotRender.cpp:179-203 | no two codes 0-9 trigger the same action |
| TeapotRender.UpdateButton | PlayAssetDelivery/NativeSample/Teapot/src/main/cpp/TexturedTeapotRender.cpp:169-211 | dispatch the code; the render pack switches to the selected pack iff its download is complete or it is the install-time pack; nothing else in the renderer changes |
| TeapotRender.RenderPackStaysKnown | PlayAssetDelivery/NativeSample/Teapot/src/main/cpp/TexturedTeapotRender.cpp:205-208 | the render pack stays one of the three, and changes only to a completed or install-time pack |
| TeapotActivity.InitialMailbox | PlayAssetDelivery/NativeSample/Teapot/src/main/java/com/google/android/samples/playassetdeliverynative/TeapotNativeActivity.java:160 | the code starts at 0 |
| TeapotActivity.CodeOf | PlayAssetDelivery/NativeSample/Teapot/src/main/java/com/google/android/samples/playassetdeliverynative/TeapotNativeActivity.java:162-196 | each button's code is in 1..9 |
| TeapotActivity.ButtonsDispatchTheirActions | PlayAssetDelivery/NativeSample/Teapot/src/main/java/com/google/android/samples/playassetdeliverynative/TeapotNativeActivity.java:162-196 | each of the nine buttons makes the native side do what its label says: the three packs select the install-time, on-demand and fast-follow packs, and the others request info, download, pause, resume, print the location and show the cellular-data dialog |
| TeapotActivity.OnClick | PlayAssetDelivery/NativeSample/Teapot/src/main/java/com/google/android/samples/playassetdeliverynative/TeapotNativeActivity.java:162-196 | a click stores its button's code |
| TeapotActivity.UpdateButtons | PlayAssetDelivery/NativeSample/Teapot/src/main/java/com/google/android/samples/playassetdeliverynative/TeapotNativeActivity.java:154-158 | returns the stored code and resets it to 0 |
| TeapotActivity.SecondReadIsZero | PlayAssetDelivery/NativeSample/Teapot/src/main/java/com/google/android/samples/playassetdeliverynative/TeapotNativeActivity.java:154-158 | a second read without a click returns 0 |
| TeapotActivity.HandlerCodesAreDistinctAndHandled | PlayAssetDelivery/NativeSample/Teapot/src/main/java/com/google/android/samples/playassetdeliverynative/TeapotNativeActivity.java:162-196 | the nine buttons have distinct codes, each of which the native switch handles |
| TeapotActivity.LastClickWins | PlayAssetDelivery/NativeSample/Teapot/src/main/java/com/google/android/samples/playassetdeliverynative/TeapotNativeActivity.java:154-196 | clicks between two frames collapse to the last one |
| TeapotActivity.RenderFrame | PlayAssetDelivery/NativeSample/Teapot/src/main/cpp/TexturedTeapotRender.cpp:169-179 | a frame reads and clears the mailbox and hands the code it read to `UpdateButton`, so only the render pack of the renderer can change |
| TeapotActivity.ClickIsHandledOnce | PlayAssetDelivery/NativeSample/Teapot/src/main/cpp/TexturedTeapotRender.cpp:169-203 | a click is dispatched by the next frame and the frame after it sees no action |
| DynamicNavigation.DestinationsAreOneToOne | DynamicFeatureNavigation/XML/app/src/main/java/com/google/android/samples/dynamicnavigator/CustomMonitorDynamicNavigationFragment.kt:42-47 | the button-to-destination map is a bijection |
| DynamicNavigation.DestinationOf | DynamicFeatureNavigation/XML/app/src/main/java/com/google/android/samples/dynamicnavigator/CustomMonitorDynamicNavigationFragment.kt:42-47 | each button leads to the destination whose button it is |
| DynamicNavigation.OnButtonClick | DynamicFeatureNavigation/XML/app/src/main/java/com/google/android/samples/dynamicnavigator/CustomMonitorDynamicNavigationFragment.kt:48-57 | navigates to the button's destination and observes iff an install is required |
| DynamicNavigation.TextFor | DynamicFeatureNavigation/XML/app/src/main/java/com/google/android/samples/dynamicnavigator/CustomMonitorDynamicNavigationFragment.kt:67-73 | "launch" iff INSTALLED, "installation failed" iff FAILED, "installing" otherwise |
| DynamicNavigation.Observe | DynamicFeatureNavigation/XML/app/src/main/java/com/google/android/samples/dynamicnavigator/CustomMonitorDynamicNavigationFragment.kt:62-79 | the observer stays attached iff no report it saw is terminal; with no report the text is unchanged, otherwise it is the label of one of the reports |
| DynamicNavigation.FirstTerminalStateIsFinal | DynamicFeatureNavigation/XML/app/src/main/java/com/google/android/samples/dynamicnavigator/CustomMonitorDynamicNavigationFragment.kt:62-79 | the text is that of the first terminal report and the observer is then detached; later reports are ignored |
| DynamicNavigation.ObservingWithoutTerminalState | DynamicFeatureNavigation/app/src/main/java/com/google/android/samples/dynamicnavigator/CustomMonitorDynamicNavigationFragment.kt:58-75 | with no terminal report the observer stays attached and shows the last report's text |
| DynamicNavigation.ClickAndObserve | DynamicFeatureNavigation/app/src/main/java/com/google/android/samples/dynamicnavigator/CustomMonitorDynamicNavigationFragment.kt:44-54 | without a required install nothing is observed; otherwise the reports are observed from a blank text |
| BundlePaths.LastIndexOf | DynamicFeatureNavigation/XML/app/build.gradle.kts:68 | none iff the character is absent; otherwise an occurrence with none after it |
| BundlePaths.ReplaceAfterLast | DynamicFeatureNavigation/XML/app/build.gradle.kts:68 | `replaceAfterLast`: unchanged without the delimiter, else the prefix through its last occurrence plus the replacement |
| BundlePaths.ReplaceAll | DynamicFeatureNavigation/XML/app/build.gradle.kts:69-70 | `replace`: replacing a pattern by itself changes nothing, a same-length replacement keeps the length, and text shorter than the pattern is unchanged |
| BundlePaths.ReplaceAllWithoutLastChar | DynamicFeatureNavigation/XML/app/build.gradle.kts:69 | `replace` leaves text alone that lacks the pattern's last character |
| BundlePaths.ReplaceAllAppend | DynamicFeatureNavigation/XML/app/build.gradle.kts:69-70 | such a tail passes through a replacement unchanged |
| BundlePaths.Capitalize | DynamicFeatureNavigation/XML/app/build.gradle.kts:73 | same length and tail; a lower-case ASCII first letter is upper-cased, anything else is unchanged |
| BundlePaths.ReplaceExtension | DynamicFeatureNavigation/XML/app/build.gradle.kts:68 | `stem.ext` with a dot-free extension becomes `stem.replacement` |
| BundlePaths.BundlePath | DynamicFeatureNavigation/XML/app/build.gradle.kts:67-69 | for a path with a dot: the part before the last dot with `build/outputs/apk/` replaced by `build/outputs/bundle/`, plus `.aab`; without a dot only the directory is replaced |
| BundlePaths.ApksPath | DynamicFeatureNavigation/XML/app/build.gradle.kts:67-71 | for a path with a dot: the part before the last dot with `…/apk/` replaced by `…/bundle/` and then by `…/apks/`, plus `.apks` |
| BundlePaths.BundlePathOfDottedApk | DynamicFeatureNavigation/XML/app/build.gradle.kts:67-69 | the bundle path is the stem with `build/outputs/apk/` replaced by `build/outputs/bundle/`, plus `.aab` |
| BundlePaths.ApksPathOfDottedApk | DynamicFeatureNavigation/XML/app/build.gradle.kts:67-71 | the output path is the stem with `…/apk/` replaced by `…/bundle/` and then by `…/apks/`, plus `.apks` |
| BundlePaths.TasksFor | DynamicFeatureNavigation/XML/app/build.gradle.kts:65-91 | nothing for non-APK outputs; else `buildApks<Variant>` with the bundletool arguments, depending on `bundle<Variant>`, and `installApkSplitsForTest<Variant>`, depending on it |
| BundlePaths.Register | DynamicFeatureNavigation/XML/app/build.gradle.kts:73-91 | fails with a duplicate-name error iff some task's name is already registered or taken by an earlier task; on success the registry holds its old entries plus exactly each task under its name |
| BundlePaths.ConfigureVariant | DynamicFeatureNavigation/XML/app/build.gradle.kts:63-95 | registering the outputs one by one is registering all their tasks at once: it fails (with the duplicate-task error) iff some name clashes, and on success the registry holds exactly the old entries plus every output's tasks under their names |
| BundlePaths.RegisterAppend | DynamicFeatureNavigation/XML/app/build.gradle.kts:73-91 | registering two task lists in a row is registering their concatenation |
| BundlePaths.TaskNamesDifferAcrossVariants | DynamicFeatureNavigation/XML/app/build.gradle.kts:73-91 | variants whose capitalised names differ get four different task names |
| BundlePaths.TwoVariantsRegisterSideBySide | DynamicFeatureNavigation/XML/app/build.gradle.kts:63-95 | two such variants, each with one APK output, both register |
| BundlePaths.OneApkOutputRegistersTwoTasks | DynamicFeatureNavigation/XML/app/build.gradle.kts:63-95 | a variant with one APK output registers exactly its two tasks |
| BundlePaths.OtherOutputsRegisterNothing | DynamicFeatureNavigation/XML/app/build.gradle.kts:65-66 | outputs that are not APK outputs leave the registry unchanged |
| BundlePaths.SecondApkOutputCollides | DynamicFeatureNavigation/XML/app/build.gradle.kts:73 | two APK outputs of one variant try to register the same task name, which fails |
| Palette.ToHexString | PlayCoreKtx/features/picture/src/main/java/com/google/android/samples/dynamicfeatures/ondemand/PaletteFragment.kt:144 | `Integer.toHexString`: 1 to 8 lower-case hex digits, no leading zero unless the text is "0", reading back as the colour's unsigned 32-bit value |
| Palette.CanonicalHexIsUnique | PlayCoreKtx/features/picture/src/main/java/com/google/android/samples/dynamicfeatures/ondemand/PaletteFragment.kt:144 | a canonical hex text is the printing of its own value, so the text is determined by the number |
| Palette.HexStringIsDetermined | PlayCoreKtx/features/picture/src/main/java/com/google/android/samples/dynamicfeatures/ondemand/PaletteFragment.kt:144 | any canonical hex text with the colour's unsigned value is exactly `ToHexString` of it |
| Palette.HexRoundTrip | PlayCoreKtx/features/picture/src/main/java/com/google/android/samples/dynamicfeatures/ondemand/PaletteFragment.kt:144 | reading the hex text back gives the number |
| Palette.HexSplit | PlayCoreKtx/features/picture/src/main/java/com/google/android/samples/dynamicfeatures/ondemand/PaletteFragment.kt:144 | a high part followed by k low digits prints as the high part's digits followed by k zero-padded digits |
| Palette.SwatchLabel | PlayCoreKtx/features/picture/src/main/java/com/google/android/samples/dynamicfeatures/ondemand/PaletteFragment.kt:144 | `substring(2)` throws iff the hex text is shorter than 2, i.e. iff 0 ≤ rgb < 16; otherwise the label is "#" followed by the hex text without its first two characters |
| Palette.OpaqueLabelIsRgb | PlayCoreKtx/features/picture/src/main/java/com/google/android/samples/dynamicfeatures/ondemand/PaletteFragment.kt:140-144 | for an opaque colour the label is "#" and six digits that read back as the colour's low 24 bits |
| Palette.NewAdapter | PlayCoreKtx/features/picture/src/main/java/com/google/android/samples/dynamicfeatures/ondemand/PaletteFragment.kt:128-135 | starts with no items |
| Palette.BindViewHolder | PlayCoreKtx/features/picture/src/main/java/com/google/android/samples/dynamicfeatures/ondemand/PaletteFragment.kt:138-150 | the row's background, text colour, text (the swatch label) and click colour come from that item; it fails exactly when the label does |
| Palette.OnColorSelected | PlayCoreKtx/features/picture/src/main/java/com/google/android/samples/dynamicfeatures/ondemand/PaletteFragment.kt:97-99 | the colour becomes the background, the light stays as it was, the picked flag is set iff it was set or the colour differs, and the list closes |
| Palette.ClickingSwatchPicksItsColor | PlayCoreKtx/features/picture/src/main/java/com/google/android/samples/dynamicfeatures/ondemand/PaletteFragment.kt:97-99 | clicking a row sets the background to that swatch, which counts as a pick iff it differs from the current one |
| Palette.OnPictureResult | PlayCoreKtx/features/picture/src/main/java/com/google/android/samples/dynamicfeatures/ondemand/PaletteFragment.kt:57-66 | no picture closes the screen, a picture requests its palette, and either way the result counts as handled |
| Palette.OnResume | PlayCoreKtx/features/picture/src/main/java/com/google/android/samples/dynamicfeatures/ondemand/PaletteFragment.kt:112-116 | always pre-warms the review; opens the camera iff no result was handled |
| Palette.OnSwatches | PlayCoreKtx/features/picture/src/main/java/com/google/android/samples/dynamicfeatures/ondemand/PaletteFragment.kt:86-108 | the adapter takes the list, and an empty list asks for a new picture |
| Palette.CameraNotRelaunchedAfterResult | PlayCoreKtx/features/picture/src/main/java/com/google/android/samples/dynamicfeatures/ondemand/PaletteFragment.kt:65-67 | after any picture result, no resume opens the camera again |
| Palette.EmptyPaletteRetakesPicture | PlayCoreKtx/features/picture/src/main/java/com/google/android/samples/dynamicfeatures/ondemand/PaletteFragment.kt:57-108 | after a picture result, resuming stays quiet, yet an empty palette for that picture still opens the camera |

## Left out

- Coroutines, `Flow`/`LiveData` delivery and threads are replaced by finite report sequences. The model assumes each report is delivered once, in order, and that the upstream may fail only at the end.
- Floating point is exact arithmetic over reals. Rounding of `bytes.toDouble() / total` and of `progress * 100` is not modelled, and neither is the sign of a negative zero.
- View wiring is not modelled: layouts, bindings, click-listener registration, `setContentView`, `recreate`, intents and `Toast` display. Resource strings are modelled as symbolic labels.
- Play Core, the Review API, Dagger and the NDK asset-pack library are outside the model. Their results are parameters: installed modules, task outcomes, lookups, download states and the completed review request.
- The PlayAssetDeliveryUtil.cpp helpers are not part of this model: `RequestInfo`, `RequestDownload`, `PauseDownload`, `PrintLocation` and the others. Only the code each button dispatches is modelled. The GL and texture-loading parts of `TexturedTeapotRender::Init` are not modelled either.
- The DynamicFeatures click listener (`MainActivity.kt` lines 112-145) is not modelled: it only maps view ids to the modelled operations. The maxSdk toast, `openUrl` and `displayAssets` file reading are not modelled either.
- `MainFragment.onResume` is left out. It reads `colorViewModel.shouldLaunchReview` and calls `reviewViewModel.getReviewInfo()`, and neither is declared in the `ColorViewModel.kt` and `ReviewViewModel.kt` that are modelled.
- `MainFragment` also uses install-side `events`, `pictureModuleStatus` and `invokePictureSelection`, which the modelled `InstallViewModel.kt` does not declare. The model dispatches every `Event` constructor instead of the stream those would produce.
- `TeapotRender.UpdateButton`: when no pack has been selected yet, the source compares a null pack name, which is undefined behaviour in C++. The model leaves the render pack unchanged in that case.
- `InstallViewModel.Project`: a zero total yields NaN or +Infinity as the source computes it, not a 0 progress. `MainFragmentView.ZeroTotalPercent` states what the UI then shows.
- `CodeLoading.InitializeStorageFeature`: when the provider lookup fails, the reflection and `ServiceLoader` flavours throw (`ClassNotFoundException`, `NoSuchElementException`) out of `loadCounter`/`saveCounter`, and Dagger's provider yields null. The model does not raise that exception; it leaves the held module as it was and lets the caller go on without one.
- `DynamicFeaturesActivity.RequestUninstall` leaves the iteration order of `installedModules.toList()` open, because a set has no order the model can know.
- `BundlePaths.ApksPath`: a path without a dot is not characterised; an APK output file always ends in `.apk`.
- `BundlePaths.Capitalize` upper-cases ASCII letters only; Kotlin's `capitalize` also title-cases other scripts.
- `Palette.BindViewHolder` requires an in-range position; a `RecyclerView` never binds any other.

=== FILE: app_update.dfy ===
/**
 * The in-app update library's results as the samples see them: an
 * `AppUpdateInfo` record and the `AppUpdateResult` sum type. The library is
 * not modelled; these are plain inputs.
 */
module AppUpdate {
  import opened Wrappers

  /** The fields of `AppUpdateInfo` the samples read. */
  datatype AppUpdateInfo = AppUpdateInfo(
    isImmediateUpdateAllowed: bool,
    isFlexibleUpdateAllowed: bool,
    clientVersionStalenessDays: Option<int>,
    updatePriority: int)

  /** Download progress of an update in flight. */
  datatype InstallState = InstallState(bytesDownloaded: int, totalBytesToDownload: int)

  datatype AppUpdateResult =
    | NotAvailable
    | Available(updateInfo: AppUpdateInfo)
    | InProgress(installState: InstallState)
    | Downloaded
}

/** The one-shot UI events of the PlayCoreKtx `ui` package. */
module UiEvents {
  import opened SplitInstall
  import opened AppUpdate

  datatype Event =
    | ToastEvent(message: string)
    | NavigationEvent(fragmentClass: string)
    | InstallConfirmationEvent(status: SessionState)
    | StartUpdateEvent(updateInfo: AppUpdateInfo, immediate: bool)
}

=== FILE: base_dagger.dfy ===
/**
 * `BaseModule.storageFeatureProvider` of the Dagger flavour: a provider that
 * looks the storage module's provider class up by name and caches the first
 * instance it obtains. A feature instance is identified by a number; what
 * the class loader does at each call is an input.
 */
module FeatureCache {
  import opened Wrappers

  /** The class-name lookup at one call: the class is missing, or its provider yields `feature`. */
  datatype Lookup = ClassNotFound | Provides(feature: int)

  /** One call: what it returned, the cache afterwards, and whether it looked the class up. */
  datatype Provided = Provided(result: Option<int>, cache: Option<int>, lookedUp: bool)

  /** `storageFeatureProvider`: a cached instance is returned as is; otherwise the lookup decides. */
  function StorageFeatureProvider(cache: Option<int>, lookup: Lookup): (r: Provided)
    ensures cache.Some? ==> r == Provided(cache, cache, false)
    ensures cache.None? ==> r.lookedUp && r.cache == r.result
    ensures cache.None? ==> (r.result.Some? <==> lookup.Provides?)
    ensures cache.None? && lookup.Provides? ==> r.result == Some(lookup.feature)
  {
    if cache.Some? then Provided(cache, cache, false)
    else match lookup
      case ClassNotFound => Provided(None, None, true)
      case Provides(f) => Provided(Some(f), Some(f), true)
  }

  /** What a caller sees of one call. */
  datatype Call = Call(result: Option<int>, lookedUp: bool)

  /** A series of calls; call `i` meets lookup outcome `lookups[i]` if it looks the class up. */
  function Calls(cache: Option<int>, lookups: seq<Lookup>): (calls: seq<Call>)
    ensures |calls| == |lookups|
    ensures |lookups| > 0 ==> (calls[0].lookedUp <==> cache.None?)
    ensures forall i :: 0 <= i < |calls| && calls[i].result.None? ==> calls[i].lookedUp && lookups[i] == ClassNotFound
    decreases |lookups|
  {
    if |lookups| == 0 then []
    else
      var p := StorageFeatureProvider(cache, lookups[0]);
      [Call(p.result, p.lookedUp)] + Calls(p.cache, lookups[1..])
  }

  /** The instance of the first lookup in `lookups` that succeeds, if any. */
  function FirstSuccess(lookups: seq<Lookup>): Option<int>
    decreases |lookups|
  {
    if |lookups| == 0 then None
    else if lookups[0].Provides? then Some(lookups[0].feature)
    else FirstSuccess(lookups[1..])
  }

  /** Once something is cached, every later call returns it and no call looks the class up again. */
  lemma {:induction false} CachedInstanceIsStable(f: int, lookups: seq<Lookup>)
    ensures forall i :: 0 <= i < |lookups| ==> Calls(Some(f), lookups)[i] == Call(Some(f), false)
    decreases |lookups|
  {
    if |lookups| > 0 {
      CachedInstanceIsStable(f, lookups[1..]);
      var calls := Calls(Some(f), lookups);
      assert calls == [Call(Some(f), false)] + Calls(Some(f), lookups[1..]);
    }
  }

  /**
   * From an empty cache, call `i` returns the instance of the first lookup
   * among calls `0..i` that succeeded, or null if none has: failed lookups
   * leave the cache empty, so a later call tries again.
   */
  lemma {:induction false} CallsReturnFirstSuccess(lookups: seq<Lookup>)
    ensures forall i :: 0 <= i < |lookups| ==> Calls(None, lookups)[i].result == FirstSuccess(lookups[..i + 1])
    decreases |lookups|
  {
    if |lookups| > 0 {
      var calls := Calls(None, lookups);
      var rest := lookups[1..];
      match lookups[0]
      case ClassNotFound =>
        assert calls == [Call(None, true)] + Calls(None, rest);
        CallsReturnFirstSuccess(rest);
        forall i | 0 <= i < |lookups|
          ensures calls[i].result == FirstSuccess(lookups[..i + 1])
        {
          if i > 0 {
            assert lookups[..i + 1][1..] == rest[..i];
          }
        }
      case Provides(f) =>
        assert calls == [Call(Some(f), true)] + Calls(Some(f), rest);
        CachedInstanceIsStable(f, rest);
    }
  }

  /** The class is looked up at every call up to and including the first that succeeds, and never after. */
  lemma {:induction false} LookupsStopAtFirstSuccess(lookups: seq<Lookup>)
    ensures forall i :: 0 <= i < |lookups| ==>
      (Calls(None, lookups)[i].lookedUp <==> FirstSuccess(lookups[..i]).None?)
    decreases |lookups|
  {
    if |lookups| > 0 {
      var calls := Calls(None, lookups);
      var rest := lookups[1..];
      match lookups[0]
      case ClassNotFound =>
        assert calls == [Call(None, true)] + Calls(None, rest);
        LookupsStopAtFirstSuccess(rest);
        forall i | 0 < i < |lookups|
          ensures calls[i].lookedUp <==> FirstSuccess(lookups[..i]).None?
        {
          assert lookups[..i][1..] == rest[..i - 1];
        }
      case Provides(f) =>
        assert calls == [Call(Some(f), true)] + Calls(Some(f), rest);
        CachedInstanceIsStable(f, rest);
        forall i | 0 < i < |lookups|
          ensures FirstSuccess(lookups[..i]) == Some(f)
        {
          assert lookups[..i][0] == lookups[0];
        }
    }
  }
}

=== FILE: bundle_paths.dfy ===
/**
 * The `applicationVariants.all` block of the dynamic navigation sample's
 * build script: for every APK output it derives the bundle (`.aab`) and
 * APK-set (`.apks`) paths from the APK path and registers two bundletool
 * tasks. Gradle's registry is a map from task name to task; registering a
 * name twice fails as Gradle does.
 */
module BundlePaths {
  import opened Wrappers

  const APK_DIR: string := "build/outputs/apk/"
  const BUNDLE_DIR: string := "build/outputs/bundle/"
  const APKS_DIR: string := "build/outputs/apks/"

  // ---------------------------------------------------------------- Kotlin string functions

  /** The index of the last `c` in `s`, if any. */
  function LastIndexOf(s: string, c: char): (r: Option<nat>)
    ensures r.None? <==> c !in s
    ensures r.Some? ==> r.value < |s| && s[r.value] == c
    ensures r.Some? ==> forall j :: r.value < j < |s| ==> s[j] != c
    decreases |s|
  {
    if |s| == 0 then None
    else if s[|s| - 1] == c then Some(|s| - 1)
    else LastIndexOf(s[..|s| - 1], c)
  }

  /** `replaceAfterLast(delimiter, replacement)`: without the delimiter the string is returned unchanged. */
  function ReplaceAfterLast(s: string, c: char, replacement: string): (r: string)
    ensures c !in s ==> r == s
    ensures c in s ==> r == s[..LastIndexOf(s, c).value + 1] + replacement
  {
    match LastIndexOf(s, c)
    case None => s
    case Some(i) => s[..i + 1] + replacement
  }

  /** `replace(pattern, replacement)`: every occurrence, found left to right without overlap. */
  function ReplaceAll(s: string, pattern: string, replacement: string): (r: string)
    requires |pattern| > 0
    ensures replacement == pattern ==> r == s
    ensures |replacement| == |pattern| ==> |r| == |s|
    ensures |s| < |pattern| ==> r == s
    decreases |s|
  {
    if |s| < |pattern| then s
    else if s[..|pattern|] == pattern then replacement + ReplaceAll(s[|pattern|..], pattern, replacement)
    else [s[0]] + ReplaceAll(s[1..], pattern, replacement)
  }

  /** A text without the pattern's last character holds no occurrence and is left alone. */
  lemma {:induction false} ReplaceAllWithoutLastChar(t: string, pattern: string, replacement: string)
    requires |pattern| > 0 && pattern[|pattern| - 1] !in t
    ensures ReplaceAll(t, pattern, replacement) == t
    decreases |t|
  {
    if |t| >= |pattern| {
      if t[..|pattern|] == pattern {
        assert false;
      } else {
        ReplaceAllWithoutLastChar(t[1..], pattern, replacement);
        assert t == [t[0]] + t[1..];
      }
    }
  }

  /**
   * No occurrence can straddle `x` and a suffix that lacks the pattern's last
   * character, so replacing in `x + t` replaces in `x` alone.
   */
  lemma {:induction false} ReplaceAllAppend(x: string, t: string, pattern: string, replacement: string)
    requires |pattern| > 0 && pattern[|pattern| - 1] !in t
    ensures ReplaceAll(x + t, pattern, replacement) == ReplaceAll(x, pattern, replacement) + t
    decreases |x|
  {
    var s := x + t;
    if |x| == 0 {
      assert s == t;
      ReplaceAllWithoutLastChar(t, pattern, replacement);
    } else if |s| < |pattern| {
    } else if s[..|pattern|] == pattern {
      if |x| < |pattern| {
        assert false;
      }
      assert x[..|pattern|] == pattern;
      assert s[|pattern|..] == x[|pattern|..] + t;
      ReplaceAllAppend(x[|pattern|..], t, pattern, replacement);
    } else {
      assert s[1..] == x[1..] + t;
      ReplaceAllAppend(x[1..], t, pattern, replacement);
      if |x| < |pattern| {
        assert ReplaceAll(x[1..], pattern, replacement) == x[1..];
        assert x == [x[0]] + x[1..];
      } else {
        assert x[..|pattern|] == s[..|pattern|];
      }
    }
  }

  /** `capitalize()` on ASCII: a leading lower-case letter becomes upper case. */
  function Capitalize(s: string): (r: string)
    ensures |r| == |s| && (|s| > 0 ==> r[1..] == s[1..])
    ensures |s| > 0 && 'a' <= s[0] <= 'z' ==> r[0] == (s[0] as int - 32) as char
    ensures |s| > 0 && !('a' <= s[0] <= 'z') ==> r == s
  {
    if |s| > 0 && 'a' <= s[0] <= 'z' then [(s[0] as int - 32) as char] + s[1..] else s
  }

  // ---------------------------------------------------------------- paths

  /** The bundle path: `.aab` after the last dot, and the `apk` output directory renamed to `bundle`. */
  function BundlePath(apkPath: string): (r: string)
    ensures '.' !in apkPath ==> r == ReplaceAll(apkPath, APK_DIR, BUNDLE_DIR)
    ensures '.' in apkPath ==>
      r == ReplaceAll(apkPath[..LastIndexOf(apkPath, '.').value], APK_DIR, BUNDLE_DIR) + ".aab"
  {
    if '.' in apkPath then
      var i := LastIndexOf(apkPath, '.').value;
      var stem, ext := apkPath[..i], apkPath[i + 1..];
      assert apkPath == stem + "." + ext;
      assert '.' !in ext by {
        assert forall j :: 0 <= j < |ext| ==> ext[j] == apkPath[i + 1 + j];
      }
      ReplaceExtension(stem, ext, "aab");
      ReplaceKeepsDottedSuffix(stem, "aab", APK_DIR, BUNDLE_DIR);
      ReplaceAll(ReplaceAfterLast(apkPath, '.', "aab"), APK_DIR, BUNDLE_DIR)
    else
      ReplaceAll(ReplaceAfterLast(apkPath, '.', "aab"), APK_DIR, BUNDLE_DIR)
  }

  /** The APK-set path: the bundle path with the `bundle` directory renamed to `apks` and `.apks` after the last dot. */
  function ApksPath(apkPath: string): (r: string)
    ensures '.' in apkPath ==>
      r == ReplaceAll(ReplaceAll(apkPath[..LastIndexOf(apkPath, '.').value], APK_DIR, BUNDLE_DIR), BUNDLE_DIR, APKS_DIR)
           + ".apks"
  {
    if '.' in apkPath then
      ApksOfBundle(ReplaceAll(apkPath[..LastIndexOf(apkPath, '.').value], APK_DIR, BUNDLE_DIR));
      ReplaceAfterLast(ReplaceAll(BundlePath(apkPath), BUNDLE_DIR, APKS_DIR), '.', "apks")
    else
      ReplaceAfterLast(ReplaceAll(BundlePath(apkPath), BUNDLE_DIR, APKS_DIR), '.', "apks")
  }

  /** Replacing directories keeps a trailing `.` and everything after it that has no `/`. */
  lemma ReplaceKeepsDottedSuffix(x: string, ext: string, pattern: string, replacement: string)
    requires |pattern| > 0 && pattern[|pattern| - 1] == '/' && '/' !in ext
    ensures ReplaceAll(x + "." + ext, pattern, replacement) == ReplaceAll(x, pattern, replacement) + "." + ext
  {
    assert x + "." + ext == x + ("." + ext);
    ReplaceAllAppend(x, "." + ext, pattern, replacement);
  }

  /** The last dot of `s` is at `i`. */
  lemma {:induction false} LastDotAt(s: string, i: nat)
    requires i < |s| && s[i] == '.'
    requires forall j :: i < j < |s| ==> s[j] != '.'
    ensures LastIndexOf(s, '.') == Some(i)
    decreases |s|
  {
    if i < |s| - 1 {
      LastDotAt(s[..|s| - 1], i);
    }
  }

  /** Replacing after the last dot of `stem + "." + ext`, when `ext` has no dot. */
  lemma ReplaceExtension(stem: string, ext: string, replacement: string)
    requires '.' !in ext
    ensures ReplaceAfterLast(stem + "." + ext, '.', replacement) == stem + "." + replacement
  {
    var s := stem + "." + ext;
    LastDotAt(s, |stem|);
    assert s[..|stem| + 1] == stem + ".";
  }

  /**
   * For an APK path `stem.ext` whose extension has no dot, the bundle path is
   * the stem with the `apk` directory renamed, plus `.aab`.
   */
  lemma BundlePathOfDottedApk(stem: string, ext: string)
    requires '.' !in ext
    ensures BundlePath(stem + "." + ext) == ReplaceAll(stem, APK_DIR, BUNDLE_DIR) + ".aab"
  {
    ReplaceExtension(stem, ext, "aab");
    ReplaceKeepsDottedSuffix(stem, "aab", APK_DIR, BUNDLE_DIR);
  }

  /** Renaming the `bundle` directory leaves the `.aab` suffix in place. */
  lemma BundleDirRenamed(renamed: string)
    ensures ReplaceAll(renamed + ".aab", BUNDLE_DIR, APKS_DIR) == ReplaceAll(renamed, BUNDLE_DIR, APKS_DIR) + ".aab"
  {
    assert '/' !in ".aab";
    ReplaceAllAppend(renamed, ".aab", BUNDLE_DIR, APKS_DIR);
  }

  /** `.aab` becomes `.apks`. */
  lemma AabBecomesApks(x: string)
    ensures ReplaceAfterLast(x + ".aab", '.', "apks") == x + ".apks"
  {
    var t := x + ".aab";
    LastDotAt(t, |x|);
    assert t[..|x| + 1] == x + ".";
    assert x + "." + "apks" == x + ".apks";
  }

  /** From a bundle path `renamed.aab` to its APK-set path. */
  lemma ApksOfBundle(renamed: string)
    ensures ReplaceAfterLast(ReplaceAll(renamed + ".aab", BUNDLE_DIR, APKS_DIR), '.', "apks")
      == ReplaceAll(renamed, BUNDLE_DIR, APKS_DIR) + ".apks"
  {
    BundleDirRenamed(renamed);
    AabBecomesApks(ReplaceAll(renamed, BUNDLE_DIR, APKS_DIR));
  }

  /** The APK-set path renames the bundle stem's directory once more and ends in `.apks`. */
  lemma ApksPathOfDottedApk(stem: string, ext: string)
    requires '.' !in ext
    ensures ApksPath(stem + "." + ext)
      == ReplaceAll(ReplaceAll(stem, APK_DIR, BUNDLE_DIR), BUNDLE_DIR, APKS_DIR) + ".apks"
  {
    BundlePathOfDottedApk(stem, ext);
    ApksOfBundle(ReplaceAll(stem, APK_DIR, BUNDLE_DIR));
  }

  // ---------------------------------------------------------------- tasks

  datatype VariantOutput = ApkOutput(outputFile: string) | OtherOutput

  /** A registered `JavaExec` task running bundletool. */
  datatype JavaExecTask = JavaExecTask(name: string, args: seq<string>, dependsOn: string)

  function BuildApksName(variantName: string): string { "buildApks" + Capitalize(variantName) }
  function InstallName(variantName: string): string { "installApkSplitsForTest" + Capitalize(variantName) }

  /** The two tasks an output yields; outputs that are not APK outputs yield none. */
  function TasksFor(variantName: string, output: VariantOutput): (tasks: seq<JavaExecTask>)
    ensures output.OtherOutput? <==> tasks == []
    ensures output.ApkOutput? ==>
      && |tasks| == 2
      && tasks[0].name == BuildApksName(variantName)
      && tasks[0].args == ["build-apks", "--overwrite", "--local-testing",
                           "--bundle", BundlePath(output.outputFile), "--output", ApksPath(output.outputFile)]
      && tasks[0].dependsOn == "bundle" + Capitalize(variantName)
      && tasks[1].name == InstallName(variantName)
      && tasks[1].args == ["install-apks", "--apks", ApksPath(output.outputFile)]
      && tasks[1].dependsOn == tasks[0].name
  {
    match output
    case OtherOutput => []
    case ApkOutput(apk) =>
      var bundle := BundlePath(apk);
      var apks := ApksPath(apk);
      [JavaExecTask(BuildApksName(variantName),
                    ["build-apks", "--overwrite", "--local-testing", "--bundle", bundle, "--output", apks],
                    "bundle" + Capitalize(variantName)),
       JavaExecTask(InstallName(variantName), ["install-apks", "--apks", apks], BuildApksName(variantName))]
  }

  const DUPLICATE_TASK: string := "InvalidUserDataException"

  /** The name of `tasks[i]` is already registered, or taken by an earlier task of the list. */
  predicate Taken(registry: map<string, JavaExecTask>, tasks: seq<JavaExecTask>, i: int)
    requires 0 <= i < |tasks|
  {
    tasks[i].name in registry || exists j :: 0 <= j < i && tasks[j].name == tasks[i].name
  }

  /** Some task of the list cannot be registered. */
  predicate NamesClash(registry: map<string, JavaExecTask>, tasks: seq<JavaExecTask>) {
    exists i :: 0 <= i < |tasks| && Taken(registry, tasks, i)
  }

  /**
   * `tasks.register` for each task in turn; a name already taken fails.
   * On success the registry gains exactly the tasks, each under its name.
   */
  function Register(registry: map<string, JavaExecTask>, tasks: seq<JavaExecTask>): (r: Result<map<string, JavaExecTask>, string>)
    ensures r.Err? <==> NamesClash(registry, tasks)
    ensures r.Err? ==> r.error == DUPLICATE_TASK
    ensures r.Ok? ==> HoldsRegistration(registry, tasks, r.value)
    decreases |tasks|
  {
    if |tasks| == 0 then Ok(registry)
    else if tasks[0].name in registry then
      assert Taken(registry, tasks, 0);
      Err(DUPLICATE_TASK)
    else
      var next := registry[tasks[0].name := tasks[0]];
      ClashStep(registry, tasks);
      var r := Register(next, tasks[1..]);
      if r.Ok? then
        RegisteredStep(registry, tasks, r.value);
        r
      else r
  }

  /** The names of `tasks`. */
  function NamesOf(tasks: seq<JavaExecTask>): set<string> {
    if |tasks| == 0 then {} else {tasks[0].name} + NamesOf(tasks[1..])
  }

  /** What a registration holds: the old entries, and every task under its name. */
  predicate HoldsRegistration(registry: map<string, JavaExecTask>, tasks: seq<JavaExecTask>, m: map<string, JavaExecTask>) {
    && m.Keys == registry.Keys + NamesOf(tasks)
    && (forall k :: k in registry ==> m[k] == registry[k])
    && (forall i :: 0 <= i < |tasks| ==> tasks[i].name in m && m[tasks[i].name] == tasks[i])
  }

  /** Registering the rest after the first task is registering the whole list. */
  lemma RegisteredStep(registry: map<string, JavaExecTask>, tasks: seq<JavaExecTask>, m: map<string, JavaExecTask>)
    requires |tasks| > 0 && tasks[0].name !in registry
    requires HoldsRegistration(registry[tasks[0].name := tasks[0]], tasks[1..], m)
    ensures HoldsRegistration(registry, tasks, m)
  {
    assert forall i :: 1 <= i < |tasks| ==> tasks[i] == tasks[1..][i - 1];
  }

  /** Registering the first task of the list moves the clash question to the rest. */
  lemma ClashStep(registry: map<string, JavaExecTask>, tasks: seq<JavaExecTask>)
    requires |tasks| > 0 && tasks[0].name !in registry
    ensures NamesClash(registry, tasks) <==> NamesClash(registry[tasks[0].name := tasks[0]], tasks[1..])
  {
    var next := registry[tasks[0].name := tasks[0]];
    var rest := tasks[1..];
    forall i | 1 <= i < |tasks|
      ensures Taken(registry, tasks, i) <==> Taken(next, rest, i - 1)
    {
      if Taken(next, rest, i - 1) && rest[i - 1].name !in next {
        var j :| 0 <= j < i - 1 && rest[j].name == rest[i - 1].name;
        assert tasks[j + 1].name == tasks[i].name;
      }
      if Taken(registry, tasks, i) && tasks[i].name !in registry {
        var j :| 0 <= j < i && tasks[j].name == tasks[i].name;
        if j > 0 {
          assert rest[j - 1].name == rest[i - 1].name;
        }
      }
    }
    assert !Taken(registry, tasks, 0);
    if NamesClash(next, rest) {
      var i :| 0 <= i < |rest| && Taken(next, rest, i);
      assert Taken(registry, tasks, i + 1);
    }
  }

  /** Every task of `output` is registered in `m` under its own name. */
  predicate OutputRegistered(m: map<string, JavaExecTask>, variantName: string, output: VariantOutput) {
    var tasks := TasksFor(variantName, output);
    forall i :: 0 <= i < |tasks| ==> tasks[i].name in m && m[tasks[i].name] == tasks[i]
  }

  /** The tasks of all `outputs`, in order. */
  function AllTasks(variantName: string, outputs: seq<VariantOutput>): seq<JavaExecTask>
    decreases |outputs|
  {
    if |outputs| == 0 then [] else TasksFor(variantName, outputs[0]) + AllTasks(variantName, outputs[1..])
  }

  /** Registering `a + b` is registering `a`, then `b` into the result. */
  lemma {:induction false} RegisterAppend(registry: map<string, JavaExecTask>, a: seq<JavaExecTask>, b: seq<JavaExecTask>)
    ensures Register(registry, a + b) ==
      if Register(registry, a).Err? then Register(registry, a) else Register(Register(registry, a).value, b)
    decreases |a|
  {
    if |a| == 0 {
      assert a + b == b;
    } else if a[0].name !in registry {
      assert (a + b)[0] == a[0];
      assert (a + b)[1..] == a[1..] + b;
      RegisterAppend(registry[a[0].name := a[0]], a[1..], b);
    } else {
      assert (a + b)[0] == a[0];
    }
  }

  /**
   * The `variant.outputs.forEach` loop registers the tasks of every output in
   * turn: it fails iff some name clashes, and on success the registry holds
   * exactly the old entries and all the outputs' tasks.
   */
  function ConfigureVariant(registry: map<string, JavaExecTask>, variantName: string, outputs: seq<VariantOutput>)
    : (r: Result<map<string, JavaExecTask>, string>)
    ensures r == Register(registry, AllTasks(variantName, outputs))
    ensures r.Err? <==> NamesClash(registry, AllTasks(variantName, outputs))
    ensures r.Err? ==> r.error == DUPLICATE_TASK
    ensures r.Ok? ==> HoldsRegistration(registry, AllTasks(variantName, outputs), r.value)
    ensures r.Ok? ==> forall i :: 0 <= i < |outputs| ==> OutputRegistered(r.value, variantName, outputs[i])
    decreases |outputs|
  {
    if |outputs| == 0 then Ok(registry)
    else
      var first := TasksFor(variantName, outputs[0]);
      RegisterAppend(registry, first, AllTasks(variantName, outputs[1..]));
      match Register(registry, first)
      case Err(e) => Err(e)
      case Ok(next) =>
        var r := ConfigureVariant(next, variantName, outputs[1..]);
        if r.Ok? then
          KeptEntriesStayRegistered(next, r.value, variantName, outputs[0]);
          assert forall i :: 1 <= i < |outputs| ==> outputs[i] == outputs[1..][i - 1];
          r
        else r
  }

  /** An output registered in `next` stays registered in any map that keeps `next`'s entries. */
  lemma KeptEntriesStayRegistered(next: map<string, JavaExecTask>, m: map<string, JavaExecTask>,
                                  variantName: string, output: VariantOutput)
    requires OutputRegistered(next, variantName, output)
    requires forall k :: k in next ==> k in m && m[k] == next[k]
    ensures OutputRegistered(m, variantName, output)
  {
  }

  /** One APK output registers exactly its two tasks. */
  lemma OneApkOutputRegistersTwoTasks(variantName: string, apkPath: string)
    ensures var tasks := TasksFor(variantName, ApkOutput(apkPath));
      ConfigureVariant(map[], variantName, [ApkOutput(apkPath)])
        == Ok(map[tasks[0].name := tasks[0], tasks[1].name := tasks[1]])
  {
    var tasks := TasksFor(variantName, ApkOutput(apkPath));
    assert tasks[0].name != tasks[1].name by {
      assert tasks[0].name[0] == 'b' && tasks[1].name[0] == 'i';
    }
    var one := map[tasks[0].name := tasks[0]];
    var both := one[tasks[1].name := tasks[1]];
    assert tasks[1..] == [tasks[1]] && tasks[1..][1..] == [];
    assert Register(map[], tasks) == Register(one, [tasks[1]]) == Register(both, []);
    assert [ApkOutput(apkPath)][1..] == [];
  }

  /** Outputs that are not APK outputs leave the registry as it was. */
  lemma {:induction false} OtherOutputsRegisterNothing(registry: map<string, JavaExecTask>, variantName: string, outputs: seq<VariantOutput>)
    requires forall o :: o in outputs ==> o.OtherOutput?
    ensures ConfigureVariant(registry, variantName, outputs) == Ok(registry)
    decreases |outputs|
  {
    if |outputs| > 0 {
      assert outputs[0] in outputs;
      assert forall o :: o in outputs[1..] ==> o in outputs;
      OtherOutputsRegisterNothing(registry, variantName, outputs[1..]);
    }
  }

  /** Task names depend on the variant name only, so a second APK output of the same variant fails. */
  lemma SecondApkOutputCollides(variantName: string, p: string, q: string)
    ensures ConfigureVariant(map[], variantName, [ApkOutput(p), ApkOutput(q)]).Err?
  {
    var first := TasksFor(variantName, ApkOutput(p));
    assert first[0].name != first[1].name by {
      assert first[0].name[0] == 'b' && first[1].name[0] == 'i';
    }
    var next := map[first[0].name := first[0]][first[1].name := first[1]];
    assert first[1..] == [first[1]] && first[1..][1..] == [];
    assert Register(map[], first) == Register(map[first[0].name := first[0]], [first[1]]) == Ok(next);
    assert [ApkOutput(p), ApkOutput(q)][1..] == [ApkOutput(q)];
    assert TasksFor(variantName, ApkOutput(q))[0].name in next;
  }

  /** The task names carry the capitalised variant name after a fixed prefix, so they tell variants apart. */
  lemma TaskNamesDifferAcrossVariants(v: string, w: string)
    requires Capitalize(v) != Capitalize(w)
    ensures BuildApksName(v) != BuildApksName(w) && InstallName(v) != InstallName(w)
    ensures BuildApksName(v) != InstallName(w) && InstallName(v) != BuildApksName(w)
  {
    assert BuildApksName(v)[9..] == Capitalize(v) && BuildApksName(w)[9..] == Capitalize(w);
    assert InstallName(v)[23..] == Capitalize(v) && InstallName(w)[23..] == Capitalize(w);
    assert BuildApksName(v)[0] == 'b' && InstallName(w)[0] == 'i';
    assert InstallName(v)[0] == 'i' && BuildApksName(w)[0] == 'b';
  }

  /** A registry of two entries accepts two tasks whose names are new and distinct. */
  lemma TwoFreshNamesRegister(m: map<string, JavaExecTask>, a: string, b: string, theirs: seq<JavaExecTask>)
    requires m.Keys == {a, b} && |theirs| == 2
    requires theirs[0].name != theirs[1].name
    requires theirs[0].name !in {a, b} && theirs[1].name !in {a, b}
    ensures !NamesClash(m, theirs)
  {
    assert !Taken(m, theirs, 0);
    assert !Taken(m, theirs, 1);
  }

  /** The tasks of a single output are all the tasks of the one-output list. */
  lemma AllTasksOfOne(variantName: string, output: VariantOutput)
    ensures AllTasks(variantName, [output]) == TasksFor(variantName, output)
  {
    assert [output][1..] == [];
  }

  /** A debug and a release variant, each with one APK output, register side by side. */
  lemma TwoVariantsRegisterSideBySide(v: string, w: string, p: string, q: string)
    requires Capitalize(v) != Capitalize(w)
    ensures var first := ConfigureVariant(map[], v, [ApkOutput(p)]);
      first.Ok? && ConfigureVariant(first.value, w, [ApkOutput(q)]).Ok?
  {
    OneApkOutputRegistersTwoTasks(v, p);
    var mine := TasksFor(v, ApkOutput(p));
    var m := map[mine[0].name := mine[0], mine[1].name := mine[1]];
    var theirs := TasksFor(w, ApkOutput(q));
    AllTasksOfOne(w, ApkOutput(q));
    TaskNamesDifferAcrossVariants(v, w);
    assert theirs[0].name != theirs[1].name by {
      assert theirs[0].name[0] == 'b' && theirs[1].name[0] == 'i';
    }
    TwoFreshNamesRegister(m, mine[0].name, mine[1].name, theirs);
  }
}

=== FILE: code_loading.dfy ===
/**
 * `AbstractMainViewModel` of the dynamic-code-loading sample: a counter kept
 * in memory, saved to and loaded from an on-demand `storage` module, and a
 * split-install listener that follows only the session this view model
 * started. The storage module's shared preferences are a map from key to
 * `Int`; how a flavour obtains the module (reflection, `ServiceLoader`,
 * Dagger) is reduced to whether it yields one.
 */
module CodeLoading {
  import opened Wrappers
  import opened SplitInstall
  import opened KotlinNumbers

  const STORAGE_MODULE: string := "storage"
  /** The shared-preferences key the storage module keeps the counter under. */
  const PREF_COUNTER: string := "COUNTER"

  const INSTALLED_TEXT: string := "Storage module installed successfully"
  const SAVED_TEXT: string := "Counter saved to storage"
  const REQUESTING_TEXT: string := "Requesting storage module install"
  const REQUEST_ERROR_TEXT: string := "Error requesting module install"

  /** What the view model cannot see but depends on. */
  datatype Environment = Environment(
    debug: bool,                  // `BuildConfig.DEBUG`
    installedModules: set<string>,
    featureAvailable: bool)       // whether the flavour's lookup of the storage provider succeeds

  /**
   * The view model's fields (`storageModule` reduced to whether it is set)
   * together with the storage module's preferences.
   */
  datatype State = State(sessionId: int, counter: Option<int>, storageLoaded: bool, prefs: map<string, int>)

  datatype Toast = InstallFailed(errorCode: int) | Text(text: string)

  datatype Effect = ShowToast(toast: Toast) | StartInstall(modules: seq<string>)

  datatype Step = Step(state: State, effects: seq<Effect>)

  function Initial(prefs: map<string, int>): (s: State)
    ensures s.sessionId == 0 && s.counter.None? && !s.storageLoaded && s.prefs == prefs
  {
    State(0, None, false, prefs)
  }

  /** `(counter ?: 0) + 1` in `Int` arithmetic. */
  function IncrementCounter(s: State): (t: State)
    ensures t.counter.Some? && IsInt(t.counter.value)
    ensures IsInt(s.counter.GetOr(0)) && s.counter.GetOr(0) < INT_MAX ==> t.counter == Some(s.counter.GetOr(0) + 1)
    ensures s.counter == Some(INT_MAX) ==> t.counter == Some(INT_MIN)
    ensures t.(counter := s.counter) == s
  {
    s.(counter := Some(WrapInt(s.counter.GetOr(0) + 1)))
  }

  /** `isStorageInstalled`: always true in a debug build, otherwise whether `storage` is among the installed modules. */
  function IsStorageInstalled(env: Environment): (b: bool)
    ensures env.debug ==> b
    ensures !env.debug ==> (b <==> STORAGE_MODULE in env.installedModules)
  {
    if env.debug then true else STORAGE_MODULE in env.installedModules
  }

  /**
   * A flavour's `initializeStorageFeature`: a successful lookup sets the
   * module; a failed one leaves the field as it was (reflection and
   * `ServiceLoader` throw before assigning, Dagger's provider keeps the
   * first module it returned), so a held module is never dropped.
   */
  function InitializeStorageFeature(s: State, env: Environment): (t: State)
    ensures t.storageLoaded <==> s.storageLoaded || env.featureAvailable
    ensures s.storageLoaded ==> t == s
    ensures t.(storageLoaded := s.storageLoaded) == s
  {
    if env.featureAvailable then s.(storageLoaded := true) else s
  }

  /** `sharedPrefs.getInt(PREF_COUNTER, 0)` */
  function StoredCounter(prefs: map<string, int>): (n: int)
    ensures PREF_COUNTER in prefs ==> n == prefs[PREF_COUNTER]
    ensures PREF_COUNTER !in prefs ==> n == 0
  {
    if PREF_COUNTER in prefs then prefs[PREF_COUNTER] else 0
  }

  /** `loadCounter`: the stored value when a module is held after the install check, otherwise 0. */
  function LoadCounter(s: State, env: Environment): (t: State)
    ensures t.storageLoaded <==> s.storageLoaded || (IsStorageInstalled(env) && env.featureAvailable)
    ensures t.counter == Some(if t.storageLoaded then StoredCounter(s.prefs) else 0)
    ensures t.sessionId == s.sessionId && t.prefs == s.prefs
  {
    var u := if IsStorageInstalled(env) then InitializeStorageFeature(s, env) else s;
    u.(counter := Some(if u.storageLoaded then StoredCounter(u.prefs) else 0))
  }

  /** `requestStorageInstall`: a toast and one request for exactly the storage module. */
  function RequestStorageInstall(): (effects: seq<Effect>)
    ensures |effects| > 1 && effects[0] == ShowToast(Text(REQUESTING_TEXT))
    ensures effects[|effects| - 1] == StartInstall([STORAGE_MODULE])
    ensures forall i :: 0 <= i < |effects| - 1 ==> !effects[i].StartInstall?
  {
    [ShowToast(Text(REQUESTING_TEXT)), StartInstall([STORAGE_MODULE])]
  }

  /**
   * `saveCounter`: without a module, obtain one if installed or request the
   * install otherwise; then save only if a module is held.
   */
  function SaveCounter(s: State, env: Environment): (r: Step)
    ensures r.state.storageLoaded <==> s.storageLoaded || (IsStorageInstalled(env) && env.featureAvailable)
    ensures StartInstall([STORAGE_MODULE]) in r.effects <==> !s.storageLoaded && !IsStorageInstalled(env)
    ensures r.state.storageLoaded ==> r.state.prefs == s.prefs[PREF_COUNTER := s.counter.GetOr(0)]
    ensures !r.state.storageLoaded ==> r.state.prefs == s.prefs
    ensures ShowToast(Text(SAVED_TEXT)) in r.effects <==> r.state.storageLoaded
    ensures r.state.counter == s.counter && r.state.sessionId == s.sessionId
    ensures r.effects ==
      if !s.storageLoaded && !IsStorageInstalled(env) then RequestStorageInstall()
      else if r.state.storageLoaded then [ShowToast(Text(SAVED_TEXT))]
      else []
  {
    var (u, first) :=
      if s.storageLoaded then (s, [])
      else if IsStorageInstalled(env) then (InitializeStorageFeature(s, env), [])
      else (s, RequestStorageInstall());
    if u.storageLoaded then
      Step(u.(prefs := u.prefs[PREF_COUNTER := u.counter.GetOr(0)]), first + [ShowToast(Text(SAVED_TEXT))])
    else Step(u, first)
  }

  /**
   * What is saved is what is loaded back: once a save has written through a
   * module, the counter survives a following load.
   */
  lemma SaveThenLoadRestoresCounter(s: State, env: Environment)
    requires SaveCounter(s, env).state.storageLoaded
    ensures LoadCounter(SaveCounter(s, env).state, env).counter == Some(s.counter.GetOr(0))
  {
    var saved := SaveCounter(s, env).state;
    assert StoredCounter(saved.prefs) == s.counter.GetOr(0);
  }

  /** The completion of the install request: a success records the new session's id. */
  function OnInstallRequestResult(s: State, result: Result<int, string>): (r: Step)
    ensures result.Ok? ==> r.state == s.(sessionId := result.value) && r.effects == []
    ensures result.Err? ==> r.state == s && r.effects == [ShowToast(Text(REQUEST_ERROR_TEXT))]
  {
    match result
    case Ok(id) => Step(s.(sessionId := id), [])
    case Err(_) => Step(s, [ShowToast(Text(REQUEST_ERROR_TEXT))])
  }

  /**
   * The split-install listener: reports of other sessions are ignored; for the
   * tracked session FAILED toasts the error code and INSTALLED toasts and saves.
   */
  function Listener(s: State, env: Environment, report: SessionState): (r: Step)
    ensures report.sessionId != s.sessionId ==> r == Step(s, [])
    ensures report.sessionId == s.sessionId && report.status == FAILED ==>
      r == Step(s, [ShowToast(InstallFailed(report.errorCode))])
    ensures report.sessionId == s.sessionId && report.status == INSTALLED ==>
      var saved := SaveCounter(s, env);
      r == Step(saved.state, [ShowToast(Text(INSTALLED_TEXT))] + saved.effects)
    ensures report.status != FAILED && report.status != INSTALLED ==> r == Step(s, [])
  {
    if report.sessionId != s.sessionId then Step(s, [])
    else if report.status == FAILED then Step(s, [ShowToast(InstallFailed(report.errorCode))])
    else if report.status == INSTALLED then
      var saved := SaveCounter(s, env);
      Step(saved.state, [ShowToast(Text(INSTALLED_TEXT))] + saved.effects)
    else Step(s, [])
  }

  /**
   * The whole install path: a save without the module requests it, the request
   * records its session, and that session's INSTALLED report saves the counter
   * once the module is there.
   */
  lemma InstallThenSavePersistsCounter(s: State, before: Environment, after: Environment, id: int, report: SessionState)
    requires !s.storageLoaded && !IsStorageInstalled(before)
    requires IsStorageInstalled(after) && after.featureAvailable
    requires report.sessionId == id && report.status == INSTALLED
    ensures var requested := SaveCounter(s, before);
      var recorded := OnInstallRequestResult(requested.state, Ok(id)).state;
      var done := Listener(recorded, after, report);
      StartInstall([STORAGE_MODULE]) in requested.effects
      && done.state.prefs == s.prefs[PREF_COUNTER := s.counter.GetOr(0)]
      && ShowToast(Text(SAVED_TEXT)) in done.effects
  {
    var requested := SaveCounter(s, before);
    assert requested.state == s;
    var recorded := OnInstallRequestResult(requested.state, Ok(id)).state;
    assert recorded == s.(sessionId := id);
    var saved := SaveCounter(recorded, after);
    assert saved.state.storageLoaded;
    var done := Listener(recorded, after, report);
    assert done.effects == [ShowToast(Text(INSTALLED_TEXT))] + saved.effects;
    assert ShowToast(Text(SAVED_TEXT)) in saved.effects;
  }
}

=== FILE: color_view_model.dfy ===
/**
 * `ColorViewModel`: the background colour shared between screens and the
 * `colorWasPicked` flag. The flag is raised by every emission of the
 * background `StateFlow` after its initial value; a `StateFlow` does not emit
 * when it is set to the value it already holds.
 */
module ColorViewModel {

  /** `android.graphics.Color.YELLOW`, 0xFFFFFF00, as a signed `Int`. */
  const YELLOW: int := -256

  datatype ColorState = ColorState(lightsOn: bool, backgroundColor: int, colorWasPicked: bool)

  /** A fresh view model: lights off, yellow background, nothing picked. */
  function Initial(): (s: ColorState)
    ensures !s.lightsOn && s.backgroundColor == YELLOW && !s.colorWasPicked
  {
    ColorState(false, YELLOW, false)
  }

  /** `backgroundColor.value = color`: a change of value is emitted and raises the flag. */
  function SetBackgroundColor(s: ColorState, color: int): (t: ColorState)
    ensures t.backgroundColor == color && t.lightsOn == s.lightsOn
    ensures t.colorWasPicked <==> s.colorWasPicked || color != s.backgroundColor
  {
    if color == s.backgroundColor then s
    else s.(backgroundColor := color, colorWasPicked := true)
  }

  /** `lightsOn.value = on`: touches nothing else. */
  function SetLightsOn(s: ColorState, on: bool): (t: ColorState)
    ensures t.lightsOn == on
    ensures t.backgroundColor == s.backgroundColor && t.colorWasPicked == s.colorWasPicked
  {
    s.(lightsOn := on)
  }

  /** `notifyPickedColorConsumed`: lowers the flag and changes nothing else. */
  function NotifyPickedColorConsumed(s: ColorState): (t: ColorState)
    ensures !t.colorWasPicked
    ensures t.lightsOn == s.lightsOn && t.backgroundColor == s.backgroundColor
  {
    s.(colorWasPicked := false)
  }

  /** Everything that can be done to the view model from outside; the flag itself is not settable. */
  datatype ColorOp = SetBackground(color: int) | SetLights(on: bool) | ConsumePick

  function Apply(s: ColorState, op: ColorOp): ColorState {
    match op
    case SetBackground(c) => SetBackgroundColor(s, c)
    case SetLights(on) => SetLightsOn(s, on)
    case ConsumePick => NotifyPickedColorConsumed(s)
  }

  /** The state after applying `ops` in order. */
  function Run(s: ColorState, ops: seq<ColorOp>): ColorState
    decreases |ops|
  {
    if |ops| == 0 then s else Apply(Run(s, ops[..|ops| - 1]), ops[|ops| - 1])
  }

  /** `ops[i]` sets the background to a colour different from the current one, so it is emitted. */
  predicate EffectivePick(s: ColorState, ops: seq<ColorOp>, i: int)
    requires 0 <= i < |ops|
  {
    ops[i].SetBackground? && ops[i].color != Run(s, ops[..i]).backgroundColor
  }

  predicate ConsumedAfter(ops: seq<ColorOp>, i: nat) {
    exists j :: i < j < |ops| && ops[j].ConsumePick?
  }

  /**
   * Starting unpicked, the flag is up exactly when some operation changed the
   * background and no `notifyPickedColorConsumed` came after it.
   */
  lemma {:induction false} PickedIffUnconsumedChange(s: ColorState, ops: seq<ColorOp>)
    requires !s.colorWasPicked
    ensures Run(s, ops).colorWasPicked <==>
      exists i :: 0 <= i < |ops| && EffectivePick(s, ops, i) && !ConsumedAfter(ops, i)
    decreases |ops|
  {
    if |ops| > 0 {
      var n := |ops|;
      var p := ops[..n - 1];
      var last := ops[n - 1];
      PickedIffUnconsumedChange(s, p);
      assert Run(s, ops) == Apply(Run(s, p), last);
      forall i | 0 <= i < n - 1
        ensures EffectivePick(s, ops, i) == EffectivePick(s, p, i)
      {
        assert ops[..i] == p[..i];
      }
      match last
      case ConsumePick =>
        forall i | 0 <= i < n ensures ConsumedAfter(ops, i) || !EffectivePick(s, ops, i) {
          if i < n - 1 { assert ops[n - 1].ConsumePick?; }
        }
      case SetLights(_) =>
        forall i | 0 <= i < n - 1 ensures ConsumedAfter(ops, i) == ConsumedAfter(p, i) {
          if ConsumedAfter(ops, i) {
            var j :| i < j < n && ops[j].ConsumePick?;
            assert p[j] == ops[j];
          }
        }
      case SetBackground(c) =>
        assert ops[..n - 1] == p;
        forall i | 0 <= i < n - 1 ensures ConsumedAfter(ops, i) == ConsumedAfter(p, i) {
          if ConsumedAfter(ops, i) {
            var j :| i < j < n && ops[j].ConsumePick?;
            assert p[j] == ops[j];
          }
        }
        assert !ConsumedAfter(ops, n - 1);
    }
  }

  /** Setting the colour the flow already holds, such as the initial yellow, is not a pick. */
  lemma InitialColorIsNotAPick()
    ensures !Run(Initial(), [SetBackground(YELLOW)]).colorWasPicked
  {
    assert [SetBackground(YELLOW)][..0] == [];
  }
}

=== FILE: dynamic_features_activity.dfy ===
/**
 * The request composition and status listener of the DynamicFeatures sample's
 * `MainActivity`. The split-install manager is reduced to the sets of
 * installed modules and languages and to the outcome of the tasks it returns;
 * the views are reduced to the effects the activity asks for, in order.
 */
module DynamicFeaturesActivity {
  import opened SplitInstall
  import opened KotlinNumbers

  const PACKAGE_NAME: string := "com.google.android.samples.dynamicfeatures"
  const PACKAGE_NAME_ONDEMAND: string := PACKAGE_NAME + ".ondemand"
  const INSTANT_PACKAGE_NAME: string := "com.google.android.samples.instantdynamicfeatures"
  const KOTLIN_SAMPLE_CLASSNAME: string := PACKAGE_NAME_ONDEMAND + ".KotlinSampleActivity"
  const JAVA_SAMPLE_CLASSNAME: string := PACKAGE_NAME_ONDEMAND + ".JavaSampleActivity"
  const NATIVE_SAMPLE_CLASSNAME: string := PACKAGE_NAME_ONDEMAND + ".NativeSampleActivity"
  const INITIAL_INSTALL_CLASSNAME: string := PACKAGE_NAME + ".InitialInstallActivity"
  const MAX_SDK_CLASSNAME: string := PACKAGE_NAME + ".MaxSdkSampleActivity"
  const INSTANT_SAMPLE_CLASSNAME: string := INSTANT_PACKAGE_NAME + ".SplitInstallInstantActivity"
  const CONFIRMATION_REQUEST_CODE: int := 1

  /** `Activity.RESULT_CANCELED` */
  const RESULT_CANCELED: int := 0

  const UNINSTALL_NOTICE: string :=
    "Requesting uninstall of all modules." + "This will happen at some point in the future."

  /** The module names the activity reads from its string resources. */
  datatype ModuleNames = ModuleNames(
    kotlin: string, java: string, native: string, maxSdk: string,
    assets: string, initial: string, instant: string)

  /** The modules the install-all buttons work on, in this order. */
  function InstallableModules(m: ModuleNames): (r: seq<string>)
    ensures forall x :: x in r <==> x == m.kotlin || x == m.java || x == m.native || x == m.assets
    ensures |r| == 4 && r[0] == m.kotlin && r[3] == m.assets
  {
    [m.kotlin, m.java, m.native, m.assets]
  }

  /**
   * The install-all buttons never touch the install-time, max-SDK or instant
   * modules unless one of them shares a name with an installable module.
   */
  lemma InstallAllLeavesOtherModules(m: ModuleNames, x: string)
    requires x == m.initial || x == m.maxSdk || x == m.instant
    requires x !in {m.kotlin, m.java, m.native, m.assets}
    ensures x !in InstallableModules(m)
  {
  }

  // ---------------------------------------------------------------- strings

  /** The total length of the strings in `xs`. */
  function TotalLength(xs: seq<string>): nat {
    if |xs| == 0 then 0 else |xs[0]| + TotalLength(xs[1..])
  }

  /**
   * `joinToString(sep)`: every element once, in order, with `sep` between
   * neighbours and nowhere else.
   */
  function Join(xs: seq<string>, sep: string): (r: string)
    ensures |xs| == 0 ==> r == ""
    ensures |xs| > 0 ==> |r| == TotalLength(xs) + (|xs| - 1) * |sep|
    ensures |xs| > 0 ==> r[..|xs[0]|] == xs[0]
    ensures |xs| > 0 ==> |xs[|xs| - 1]| <= |r| && r[|r| - |xs[|xs| - 1]|..] == xs[|xs| - 1]
    decreases |xs|
  {
    if |xs| == 0 then ""
    else if |xs| == 1 then xs[0]
    else
      var rest := Join(xs[1..], sep);
      var r := xs[0] + sep + rest;
      assert r[|r| - |xs[|xs| - 1]|..] == rest[|rest| - |xs[|xs| - 1]|..];
      r
  }

  lemma {:induction false} TotalLengthAppend(xs: seq<string>, x: string)
    ensures TotalLength(xs + [x]) == TotalLength(xs) + |x|
    decreases |xs|
  {
    if |xs| > 0 {
      assert (xs + [x])[1..] == xs[1..] + [x];
      TotalLengthAppend(xs[1..], x);
    }
  }

  /** Joining builds the same string from the other end: appending an element appends `sep` and it. */
  lemma {:induction false} JoinAppend(xs: seq<string>, x: string, sep: string)
    requires |xs| > 0
    ensures Join(xs + [x], sep) == Join(xs, sep) + sep + x
    decreases |xs|
  {
    var ys := xs + [x];
    assert ys[0] == xs[0];
    if |xs| == 1 {
      assert ys[1..] == [x];
    } else {
      assert ys[1..] == xs[1..] + [x];
      JoinAppend(xs[1..], x, sep);
    }
  }

  /** `List<String>.toString()`: the elements between brackets, separated by ", ". */
  function ListText(xs: seq<string>): (r: string)
    ensures |r| >= 2 && r[0] == '[' && r[|r| - 1] == ']'
    ensures r[1..|r| - 1] == Join(xs, ", ")
    ensures |xs| == 0 ==> r == "[]"
    ensures |xs| == 1 ==> r == "[" + xs[0] + "]"
  {
    "[" + Join(xs, ", ") + "]"
  }

  /**
   * The name shown for a session: its first language for a language session,
   * otherwise its module names joined by " - ".
   */
  function DisplayName(s: SessionState): (name: string)
    ensures |s.languages| > 0 ==> name == s.languages[0]
    ensures |s.languages| == 0 && |s.moduleNames| == 1 ==> name == s.moduleNames[0]
    ensures |s.languages| == 0 && |s.moduleNames| == 0 ==> name == ""
    ensures |s.languages| == 0 ==> name == Join(s.moduleNames, " - ")
    ensures |s.languages| == 0 && |s.moduleNames| == 2 ==>
      name == s.moduleNames[0] + " - " + s.moduleNames[1]
  {
    if |s.languages| > 0 then s.languages[0] else Join(s.moduleNames, " - ")
  }

  // ---------------------------------------------------------------- effects

  /** The `progress_text` messages, each a string resource with its argument. */
  datatype ProgressMessage =
    | Downloading(names: string)
    | Installing(names: string)
    | LoadingModule(moduleName: string)
    | LoadingLanguage(lang: string)
    | AlreadyInstalled
    | StartingInstallFor(name: string)

  datatype Toast = ErrorForModule(errorCode: int, moduleNames: seq<string>) | UserCancelled | Text(text: string)

  /** A `SplitInstallRequest`. */
  datatype InstallRequest = InstallRequest(modules: seq<string>, languages: seq<string>)

  /** What the activity asks of the platform, in the order it asks. */
  datatype Effect =
    | ShowProgress(message: ProgressMessage)
    | SetProgressBar(max: int, progress: int)
    | StartConfirmationDialog(state: SessionState, requestCode: int)
    | SwitchLanguage(lang: string)
    | LaunchActivity(className: string)
    | DisplayAssets
    | DisplayButtons
    | ShowToast(toast: Toast)
    | StartInstall(request: InstallRequest)
    | DeferredInstall(modules: seq<string>)
    | DeferredUninstall(modules: seq<string>)
    | DelegateToSuper

  predicate IsLaunch(e: Effect) {
    e.LaunchActivity? || e.DisplayAssets?
  }

  /** The install requests among `effects`, in order. */
  function Requests(effects: seq<Effect>): seq<InstallRequest> {
    if |effects| == 0 then []
    else (if effects[0].StartInstall? then [effects[0].request] else []) + Requests(effects[1..])
  }

  lemma {:induction false} RequestsAppend(a: seq<Effect>, b: seq<Effect>)
    ensures Requests(a + b) == Requests(a) + Requests(b)
    decreases |a|
  {
    if |a| == 0 {
      assert a + b == b;
    } else {
      assert (a + b)[0] == a[0];
      assert (a + b)[1..] == a[1..] + b;
      RequestsAppend(a[1..], b);
    }
  }

  lemma {:induction false} NoRequests(effects: seq<Effect>)
    requires forall e :: e in effects ==> !e.StartInstall?
    ensures Requests(effects) == []
    decreases |effects|
  {
    if |effects| > 0 {
      assert effects[0] in effects;
      assert forall e :: e in effects[1..] ==> e in effects;
      NoRequests(effects[1..]);
    }
  }

  lemma RequestsOfOne(e: Effect)
    ensures Requests([e]) == if e.StartInstall? then [e.request] else []
  {
    assert [e][1..] == [];
  }

  // ---------------------------------------------------------------- onSuccessfulLoad

  /** The `when (moduleName)` of `onSuccessfulLoad`: the first branch whose name matches. */
  function LaunchFor(m: ModuleNames, moduleName: string): (r: seq<Effect>)
    ensures |r| <= 1
    ensures forall e :: e in r ==> IsLaunch(e)
    ensures r == [] <==> moduleName !in {m.kotlin, m.java, m.initial, m.maxSdk, m.native, m.assets, m.instant}
    ensures moduleName == m.kotlin ==> r == [LaunchActivity(KOTLIN_SAMPLE_CLASSNAME)]
    ensures moduleName != m.kotlin && moduleName == m.java ==> r == [LaunchActivity(JAVA_SAMPLE_CLASSNAME)]
    ensures moduleName !in {m.kotlin, m.java} && moduleName == m.initial ==>
      r == [LaunchActivity(INITIAL_INSTALL_CLASSNAME)]
    ensures moduleName !in {m.kotlin, m.java, m.initial} && moduleName == m.maxSdk ==>
      r == [LaunchActivity(MAX_SDK_CLASSNAME)]
    ensures moduleName !in {m.kotlin, m.java, m.initial, m.maxSdk} && moduleName == m.native ==>
      r == [LaunchActivity(NATIVE_SAMPLE_CLASSNAME)]
    ensures moduleName !in {m.kotlin, m.java, m.initial, m.maxSdk, m.native} && moduleName == m.assets ==>
      r == [DisplayAssets]
    ensures moduleName !in {m.kotlin, m.java, m.initial, m.maxSdk, m.native, m.assets} && moduleName == m.instant ==>
      r == [LaunchActivity(INSTANT_SAMPLE_CLASSNAME)]
  {
    if moduleName == m.kotlin then [LaunchActivity(KOTLIN_SAMPLE_CLASSNAME)]
    else if moduleName == m.java then [LaunchActivity(JAVA_SAMPLE_CLASSNAME)]
    else if moduleName == m.initial then [LaunchActivity(INITIAL_INSTALL_CLASSNAME)]
    else if moduleName == m.maxSdk then [LaunchActivity(MAX_SDK_CLASSNAME)]
    else if moduleName == m.native then [LaunchActivity(NATIVE_SAMPLE_CLASSNAME)]
    else if moduleName == m.assets then [DisplayAssets]
    else if moduleName == m.instant then [LaunchActivity(INSTANT_SAMPLE_CLASSNAME)]
    else []
  }

  /** Launch what belongs to `moduleName` if asked to, then always show the buttons again. */
  function OnSuccessfulLoad(m: ModuleNames, moduleName: string, launch: bool): (effects: seq<Effect>)
    ensures |effects| > 0 && effects[|effects| - 1] == DisplayButtons
    ensures (exists e :: e in effects && IsLaunch(e)) <==> launch && LaunchFor(m, moduleName) != []
    ensures Requests(effects) == []
    ensures effects[..|effects| - 1] == (if launch then LaunchFor(m, moduleName) else [])
  {
    var launched := if launch then LaunchFor(m, moduleName) else [];
    var effects := launched + [DisplayButtons];
    NoRequests(effects);
    assert launched != [] ==> launched[0] in effects;
    assert forall e :: e in effects ==> e in launched || e == DisplayButtons;
    effects
  }

  // ---------------------------------------------------------------- listener

  /** `displayLoadingState`: the progress group, the bar (its `Long` values cut to `Int`) and the message. */
  function LoadingState(s: SessionState, message: ProgressMessage): (effects: seq<Effect>)
    ensures |effects| == 2 && effects[0].SetProgressBar? && effects[1] == ShowProgress(message)
    ensures IsInt(effects[0].max) && IsInt(effects[0].progress)
    ensures IsInt(s.totalBytesToDownload) ==> effects[0].max == s.totalBytesToDownload
    ensures IsInt(s.bytesDownloaded) ==> effects[0].progress == s.bytesDownloaded
    ensures (s.totalBytesToDownload - effects[0].max) % 0x1_0000_0000 == 0
    ensures (s.bytesDownloaded - effects[0].progress) % 0x1_0000_0000 == 0
  {
    [SetProgressBar(WrapInt(s.totalBytesToDownload), WrapInt(s.bytesDownloaded)), ShowProgress(message)]
  }

  /** A download of more than 4 GiB shows a bar whose maximum has lost its high bits. */
  lemma LargeDownloadWrapsProgressBar(s: SessionState, message: ProgressMessage)
    requires s.totalBytesToDownload == 0x1_0000_0000 + 5
    ensures LoadingState(s, message)[0].max == 5
  {
  }

  /** The `SplitInstallStateUpdatedListener`. Codes it does not list do nothing. */
  function Listener(m: ModuleNames, s: SessionState): (effects: seq<Effect>)
    ensures s.status == DOWNLOADING ==> effects == LoadingState(s, Downloading(DisplayName(s)))
    ensures s.status == INSTALLING ==> effects == LoadingState(s, Installing(DisplayName(s)))
    ensures s.status == REQUIRES_USER_CONFIRMATION ==>
      effects == [StartConfirmationDialog(s, CONFIRMATION_REQUEST_CODE)]
    ensures s.status == INSTALLED && |s.languages| > 0 ==> effects == [SwitchLanguage(s.languages[0])]
    ensures s.status == INSTALLED && |s.languages| == 0 ==>
      effects == OnSuccessfulLoad(m, DisplayName(s), |s.moduleNames| <= 1)
    ensures s.status == FAILED ==> effects == [ShowToast(ErrorForModule(s.errorCode, s.moduleNames))]
    ensures s.status !in {DOWNLOADING, INSTALLING, REQUIRES_USER_CONFIRMATION, INSTALLED, FAILED} ==> effects == []
  {
    var names := DisplayName(s);
    if s.status == DOWNLOADING then LoadingState(s, Downloading(names))
    else if s.status == REQUIRES_USER_CONFIRMATION then [StartConfirmationDialog(s, CONFIRMATION_REQUEST_CODE)]
    else if s.status == INSTALLED then
      if |s.languages| > 0 then [SwitchLanguage(names)]
      else OnSuccessfulLoad(m, names, !(|s.moduleNames| > 1))
    else if s.status == INSTALLING then LoadingState(s, Installing(names))
    else if s.status == FAILED then [ShowToast(ErrorForModule(s.errorCode, s.moduleNames))]
    else []
  }

  /** A session of more than one module never launches anything when it completes. */
  lemma MultiModuleSessionNeverLaunches(m: ModuleNames, s: SessionState)
    requires |s.moduleNames| > 1
    ensures forall e :: e in Listener(m, s) ==> !IsLaunch(e)
  {
  }

  /** Only a completed single-module session can launch, and it launches what its module stands for. */
  lemma ListenerLaunchesOnlySingleModules(m: ModuleNames, s: SessionState)
    ensures (exists e :: e in Listener(m, s) && IsLaunch(e)) <==>
      s.status == INSTALLED && |s.languages| == 0 && |s.moduleNames| <= 1
      && LaunchFor(m, DisplayName(s)) != []
  {
    if s.status == INSTALLED && |s.languages| == 0 {
      assert Listener(m, s) == OnSuccessfulLoad(m, DisplayName(s), |s.moduleNames| <= 1);
    } else if s.status == DOWNLOADING || s.status == INSTALLING {
      assert forall e :: e in Listener(m, s) ==> e.SetProgressBar? || e.ShowProgress?;
    }
  }

  /** The listener itself never requests an install. */
  lemma ListenerNeverRequests(m: ModuleNames, s: SessionState)
    ensures Requests(Listener(m, s)) == []
  {
    NoRequests(Listener(m, s));
  }

  /** `onActivityResult`: a cancelled confirmation toasts; other request codes go to the superclass. */
  function OnActivityResult(requestCode: int, resultCode: int): (effects: seq<Effect>)
    ensures requestCode != CONFIRMATION_REQUEST_CODE <==> effects == [DelegateToSuper]
    ensures requestCode == CONFIRMATION_REQUEST_CODE ==>
      (effects == [ShowToast(UserCancelled)] <==> resultCode == RESULT_CANCELED)
    ensures requestCode == CONFIRMATION_REQUEST_CODE && resultCode != RESULT_CANCELED ==> effects == []
  {
    if requestCode == CONFIRMATION_REQUEST_CODE then
      if resultCode == RESULT_CANCELED then [ShowToast(UserCancelled)] else []
    else [DelegateToSuper]
  }

  /**
   * The confirmation dialog the listener starts reports back with a request
   * code `onActivityResult` handles itself: its answer is never passed on.
   */
  lemma ConfirmationDialogIsHandledHere(m: ModuleNames, s: SessionState, resultCode: int)
    requires s.status == REQUIRES_USER_CONFIRMATION
    ensures Listener(m, s)[0].StartConfirmationDialog?
    ensures OnActivityResult(Listener(m, s)[0].requestCode, resultCode) != [DelegateToSuper]
    ensures OnActivityResult(Listener(m, s)[0].requestCode, resultCode) == [ShowToast(UserCancelled)]
      <==> resultCode == RESULT_CANCELED
  {
  }

  // ---------------------------------------------------------------- load and launch

  /** `loadAndLaunchModule`: an installed module goes straight to success; otherwise exactly it is requested. */
  function LoadAndLaunchModule(m: ModuleNames, installedModules: set<string>, name: string): (effects: seq<Effect>)
    ensures |effects| > 0 && effects[0] == ShowProgress(LoadingModule(name))
    ensures Requests(effects) == if name in installedModules then [] else [InstallRequest([name], [])]
    ensures name in installedModules ==>
      effects == [ShowProgress(LoadingModule(name)), ShowProgress(AlreadyInstalled)] + OnSuccessfulLoad(m, name, true)
    ensures name !in installedModules ==>
      effects == [ShowProgress(LoadingModule(name)), StartInstall(InstallRequest([name], [])),
                  ShowProgress(StartingInstallFor(name))]
  {
    var head := [ShowProgress(LoadingModule(name))];
    if name in installedModules then
      var rest := OnSuccessfulLoad(m, name, true);
      AlreadyInstalledRequestsNothing(name, rest);
      head + [ShowProgress(AlreadyInstalled)] + rest
    else
      MissingModuleRequestsItself(name);
      head + [StartInstall(InstallRequest([name], [])), ShowProgress(StartingInstallFor(name))]
  }

  lemma AlreadyInstalledRequestsNothing(name: string, rest: seq<Effect>)
    requires Requests(rest) == []
    ensures Requests([ShowProgress(LoadingModule(name))] + [ShowProgress(AlreadyInstalled)] + rest) == []
  {
    var head, already := [ShowProgress(LoadingModule(name))], [ShowProgress(AlreadyInstalled)];
    RequestsOfOne(head[0]);
    RequestsOfOne(already[0]);
    RequestsAppend(head, already);
    RequestsAppend(head + already, rest);
  }

  lemma MissingModuleRequestsItself(name: string)
    ensures Requests([ShowProgress(LoadingModule(name))]
      + [StartInstall(InstallRequest([name], [])), ShowProgress(StartingInstallFor(name))])
      == [InstallRequest([name], [])]
  {
    var head := [ShowProgress(LoadingModule(name))];
    var tail := [StartInstall(InstallRequest([name], [])), ShowProgress(StartingInstallFor(name))];
    RequestsAppend([tail[0]], [tail[1]]);
    RequestsOfOne(head[0]);
    RequestsOfOne(tail[0]);
    RequestsOfOne(tail[1]);
    assert tail == [tail[0]] + [tail[1]];
    RequestsAppend(head, tail);
  }

  /**
   * When a module is already installed, loading it launches it just as the
   * listener does for a completed session of that one module.
   */
  lemma InstalledModuleActsLikeCompletedSession(m: ModuleNames, installedModules: set<string>, s: SessionState)
    requires s.status == INSTALLED && |s.languages| == 0 && |s.moduleNames| == 1
    requires s.moduleNames[0] in installedModules
    ensures LoadAndLaunchModule(m, installedModules, s.moduleNames[0])[2..] == Listener(m, s)
  {
    var name := s.moduleNames[0];
    var effects := LoadAndLaunchModule(m, installedModules, name);
    assert effects[2..] == OnSuccessfulLoad(m, name, true);
  }

  /** `loadAndSwitchLanguage`: an installed language is switched to at once; otherwise exactly it is requested. */
  function LoadAndSwitchLanguage(installedLanguages: set<string>, lang: string): (effects: seq<Effect>)
    ensures |effects| > 0 && effects[0] == ShowProgress(LoadingLanguage(lang))
    ensures Requests(effects) == if lang in installedLanguages then [] else [InstallRequest([], [lang])]
    ensures SwitchLanguage(lang) in effects <==> lang in installedLanguages
    ensures lang in installedLanguages ==>
      effects == [ShowProgress(LoadingLanguage(lang)), ShowProgress(AlreadyInstalled), SwitchLanguage(lang)]
    ensures lang !in installedLanguages ==>
      effects == [ShowProgress(LoadingLanguage(lang)), StartInstall(InstallRequest([], [lang])),
                  ShowProgress(StartingInstallFor(lang))]
  {
    var head := ShowProgress(LoadingLanguage(lang));
    if lang in installedLanguages then
      RequestsOfThree(head, ShowProgress(AlreadyInstalled), SwitchLanguage(lang));
      [head, ShowProgress(AlreadyInstalled), SwitchLanguage(lang)]
    else
      RequestsOfThree(head, StartInstall(InstallRequest([], [lang])), ShowProgress(StartingInstallFor(lang)));
      [head, StartInstall(InstallRequest([], [lang])), ShowProgress(StartingInstallFor(lang))]
  }

  /**
   * When a language is already installed, loading it switches to it just as
   * the listener does for a completed session of that language.
   */
  lemma InstalledLanguageActsLikeCompletedSession(m: ModuleNames, installedLanguages: set<string>, s: SessionState)
    requires s.status == INSTALLED && |s.languages| > 0
    requires s.languages[0] in installedLanguages
    ensures LoadAndSwitchLanguage(installedLanguages, s.languages[0])[2..] == Listener(m, s)
  {
    var effects := LoadAndSwitchLanguage(installedLanguages, s.languages[0]);
    assert effects[2..] == [SwitchLanguage(s.languages[0])];
  }

  lemma RequestsOfThree(a: Effect, b: Effect, c: Effect)
    ensures Requests([a, b, c]) == Requests([a]) + Requests([b]) + Requests([c])
  {
    RequestsAppend([a], [b]);
    RequestsAppend([a] + [b], [c]);
    assert [a, b, c] == [a] + [b] + [c];
  }

  // ---------------------------------------------------------------- install all / uninstall

  /** The modules of `xs` not in `installed`, in the order of `xs`. */
  function Missing(xs: seq<string>, installed: set<string>): (r: seq<string>)
    ensures |r| <= |xs|
    ensures forall i :: 0 <= i < |r| ==> r[i] !in installed
    decreases |xs|
  {
    if |xs| == 0 then []
    else
      var last := xs[|xs| - 1];
      Missing(xs[..|xs| - 1], installed) + (if last in installed then [] else [last])
  }

  /** Exactly the modules of `xs` that are not installed are missing. */
  lemma {:induction false} MissingMembers(xs: seq<string>, installed: set<string>)
    ensures forall x :: x in Missing(xs, installed) <==> x in xs && x !in installed
    decreases |xs|
  {
    if |xs| > 0 {
      var init := xs[..|xs| - 1];
      MissingMembers(init, installed);
      assert xs == init + [xs[|xs| - 1]];
    }
  }

  /** Filtering distributes over concatenation, so `Missing` keeps the relative order of `xs`. */
  lemma {:induction false} MissingAppend(xs: seq<string>, ys: seq<string>, installed: set<string>)
    ensures Missing(xs + ys, installed) == Missing(xs, installed) + Missing(ys, installed)
    decreases |ys|
  {
    if |ys| == 0 {
      assert xs + ys == xs;
    } else {
      var zs := xs + ys;
      var init := ys[..|ys| - 1];
      var last := ys[|ys| - 1];
      var keep := if last in installed then [] else [last];
      assert zs[..|zs| - 1] == xs + init;
      assert zs[|zs| - 1] == last;
      assert Missing(zs, installed) == Missing(xs + init, installed) + keep;
      assert Missing(ys, installed) == Missing(init, installed) + keep;
      MissingAppend(xs, init, installed);
    }
  }

  /** With none of `xs` installed, nothing is filtered out. */
  lemma {:induction false} NothingInstalledMissesAll(xs: seq<string>, installed: set<string>)
    requires forall i :: 0 <= i < |xs| ==> xs[i] !in installed
    ensures Missing(xs, installed) == xs
    decreases |xs|
  {
    if |xs| > 0 {
      var init := xs[..|xs| - 1];
      NothingInstalledMissesAll(init, installed);
      assert xs == init + [xs[|xs| - 1]];
    }
  }

  /** With all of `xs` installed, nothing is missing. */
  lemma {:induction false} AllInstalledMissesNothing(xs: seq<string>, installed: set<string>)
    requires forall i :: 0 <= i < |xs| ==> xs[i] in installed
    ensures Missing(xs, installed) == []
    decreases |xs|
  {
    if |xs| > 0 {
      AllInstalledMissesNothing(xs[..|xs| - 1], installed);
    }
  }

  /** The outcome of a request task: which listener ran. */
  datatype TaskOutcome = Succeeded | Failed

  /**
   * `installAllFeaturesNow`: one request for the installable modules that are
   * not installed yet, in list order, then the toast of the task's listener.
   */
  method InstallAllFeaturesNow(m: ModuleNames, installedModules: set<string>, outcome: TaskOutcome)
    returns (request: InstallRequest, effects: seq<Effect>)
    ensures request.languages == []
    ensures forall x :: x in request.modules <==> x in InstallableModules(m) && x !in installedModules
    ensures request.modules == Missing(InstallableModules(m), installedModules)
    ensures request.modules == Missing(InstallAllFeaturesDeferred(m, outcome)[0].modules, installedModules)
    ensures Requests(effects) == [request]
    ensures |effects| == 2 && effects[1] == ShowToast(Text(
      (if outcome.Succeeded? then "Loading " else "Failed loading ") + ListText(request.modules)))
  {
    var installable := InstallableModules(m);
    var modules: seq<string> := [];
    for i := 0 to |installable|
      invariant modules == Missing(installable[..i], installedModules)
    {
      assert installable[..i + 1][..i] == installable[..i];
      if installable[i] !in installedModules {
        modules := modules + [installable[i]];
      }
    }
    assert installable[..|installable|] == installable;
    MissingMembers(installable, installedModules);
    request := InstallRequest(modules, []);
    effects := StartInstallAndToast(request, outcome);
  }

  /** The request is started, then the task's listener toasts the requested modules. */
  function StartInstallAndToast(request: InstallRequest, outcome: TaskOutcome): (effects: seq<Effect>)
    ensures Requests(effects) == [request]
    ensures |effects| == 2 && effects[0] == StartInstall(request)
    ensures effects[1] == ShowToast(Text(
      (if outcome.Succeeded? then "Loading " else "Failed loading ") + ListText(request.modules)))
  {
    var text := if outcome.Succeeded? then "Loading " + ListText(request.modules)
      else "Failed loading " + ListText(request.modules);
    var effects := [StartInstall(request), ShowToast(Text(text))];
    RequestsAppend([effects[0]], [effects[1]]);
    RequestsOfOne(effects[0]);
    RequestsOfOne(effects[1]);
    assert effects == [effects[0]] + [effects[1]];
    effects
  }

  /** `installAllFeaturesDeferred`: the whole installable list, with a toast only on success. */
  function InstallAllFeaturesDeferred(m: ModuleNames, outcome: TaskOutcome): (effects: seq<Effect>)
    ensures |effects| > 0 && effects[0] == DeferredInstall(InstallableModules(m))
    ensures |effects| == 2 <==> outcome.Succeeded?
    ensures outcome.Succeeded? ==>
      effects[1] == ShowToast(Text("Deferred installation of " + ListText(InstallableModules(m))))
    ensures Requests(effects) == []
  {
    var head := DeferredInstall(InstallableModules(m));
    RequestsOfOne(head);
    if outcome.Succeeded? then
      var toast := ShowToast(Text("Deferred installation of " + ListText(InstallableModules(m))));
      RequestsOfOne(toast);
      RequestsAppend([head], [toast]);
      [head, toast]
    else [head]
  }

  /**
   * The deferred request and the immediate one work on the same list: the
   * immediate request is the deferred list less what is installed, so it is
   * the whole deferred list on a fresh device and empty once all is installed.
   */
  lemma DeferredListCoversImmediateRequest(m: ModuleNames, installedModules: set<string>, outcome: TaskOutcome)
    ensures var deferred := InstallAllFeaturesDeferred(m, outcome)[0].modules;
      (forall x :: x in Missing(deferred, installedModules) <==> x in deferred && x !in installedModules)
      && (installedModules == {} ==> Missing(deferred, installedModules) == deferred)
      && ((forall x :: x in deferred ==> x in installedModules) ==> Missing(deferred, installedModules) == [])
  {
    var deferred := InstallAllFeaturesDeferred(m, outcome)[0].modules;
    MissingMembers(deferred, installedModules);
    if installedModules == {} {
      NothingInstalledMissesAll(deferred, installedModules);
    }
    if forall x :: x in deferred ==> x in installedModules {
      assert forall i :: 0 <= i < |deferred| ==> deferred[i] in deferred;
      AllInstalledMissesNothing(deferred, installedModules);
    }
  }

  /**
   * `requestUninstall`: a notice, then a deferred uninstall of every installed
   * module, each once, in the set's iteration order (which the model leaves open).
   */
  method RequestUninstall(installedModules: set<string>, outcome: TaskOutcome)
    returns (modules: seq<string>, effects: seq<Effect>)
    ensures forall x :: x in modules <==> x in installedModules
    ensures |modules| == |installedModules|
    ensures |effects| == 3
    ensures effects[0] == ShowToast(Text(UNINSTALL_NOTICE))
    ensures effects[1] == DeferredUninstall(modules)
    ensures effects[2] == ShowToast(Text(
      (if outcome.Succeeded? then "Uninstalling " else "Failed installation of ") + ListText(modules)))
  {
    modules := [];
    var remaining := installedModules;
    while remaining != {}
      invariant remaining <= installedModules
      invariant forall x :: x in modules <==> x in installedModules && x !in remaining
      invariant |modules| + |remaining| == |installedModules|
      invariant forall i, j :: 0 <= i < j < |modules| ==> modules[i] != modules[j]
      decreases |remaining|
    {
      var x :| x in remaining;
      modules := modules + [x];
      remaining := remaining - {x};
    }
    var text := if outcome.Succeeded? then "Uninstalling " + ListText(modules) else "Failed installation of " + ListText(modules);
    effects := [ShowToast(Text(UNINSTALL_NOTICE)), DeferredUninstall(modules), ShowToast(Text(text))];
  }
}

=== FILE: install_view_model.dfy ===
/**
 * The two `InstallViewModel` variants of the PlayCoreKtx sample: the
 * projection of split-install session reports onto `ModuleStatus`, the
 * filter/map/catch pipeline that feeds it, and the "invoke module" decision.
 * The `state` variant tracks `randomcolor`, the older one tracks `palette`;
 * their status tables are identical and are defined once here.
 */
module InstallViewModel {
  import opened Wrappers
  import opened SplitInstall
  import opened KotlinNumbers

  const RANDOM_COLOR_MODULE: string := "randomcolor"
  const PALETTE_MODULE: string := "palette"
  const RANDOM_COLOR_ACTIVITY: string :=
    "com.google.android.samples.dynamicfeatures.ondemand.RandomColorActivity"
  const STREAM_ERROR_TEXT: string := "Something went wrong. No install progress will be reported."

  /** The client-facing state of one module. */
  datatype ModuleStatus =
    | Available
    | Installing(progress: Double)
    | Unavailable
    | Installed
    | NeedsConfirmation(state: SessionState)

  /** A toast: the `error_for_module` resource filled with code and module names, or a literal text. */
  datatype Message = ErrorForModule(errorCode: int, moduleNames: seq<string>) | Text(text: string)

  /** What one session report turns into: a status, preceded by an optional toast. */
  datatype Projected = Projected(status: ModuleStatus, toast: Option<Message>)

  /** The codes the projection names explicitly, other than UNKNOWN. */
  predicate IsHandledStatus(code: int) {
    code in {CANCELED, CANCELING, DOWNLOADED, DOWNLOADING, FAILED, INSTALLED,
             INSTALLING, PENDING, REQUIRES_USER_CONFIRMATION}
  }

  predicate IsInProgressStatus(code: int) {
    code in {PENDING, CANCELING, DOWNLOADING, DOWNLOADED, INSTALLING}
  }

  /** The `when (state.status)` table shared by both variants. */
  function Project(s: SessionState): (p: Projected)
    ensures p.status == Installed <==> s.status == INSTALLED
    ensures p.status == Available <==> s.status == CANCELED || s.status == FAILED
    ensures p.status == Unavailable <==> !IsHandledStatus(s.status)
    ensures p.status.NeedsConfirmation? <==> s.status == REQUIRES_USER_CONFIRMATION
    ensures p.status.NeedsConfirmation? ==> p.status.state == s
    ensures p.status.Installing? <==> IsInProgressStatus(s.status)
    ensures s.status == PENDING || s.status == CANCELING ==> p.status == Installing(Finite(0.0))
    ensures s.status == DOWNLOADED || s.status == INSTALLING ==> p.status == Installing(Finite(1.0))
    ensures s.status == DOWNLOADING ==>
      p.status == Installing(DivideToDouble(s.bytesDownloaded, s.totalBytesToDownload))
    ensures p.toast.Some? <==> s.status == FAILED
    ensures p.toast.Some? ==> p.toast.value == ErrorForModule(s.errorCode, s.moduleNames)
  {
    var code := s.status;
    if code == CANCELED then Projected(Available, None)
    else if code == CANCELING then Projected(Installing(Finite(0.0)), None)
    else if code == DOWNLOADED then Projected(Installing(Finite(1.0)), None)
    else if code == DOWNLOADING then
      Projected(Installing(DivideToDouble(s.bytesDownloaded, s.totalBytesToDownload)), None)
    else if code == FAILED then Projected(Available, Some(ErrorForModule(s.errorCode, s.moduleNames)))
    else if code == INSTALLED then Projected(Installed, None)
    else if code == INSTALLING then Projected(Installing(Finite(1.0)), None)
    else if code == PENDING then Projected(Installing(Finite(0.0)), None)
    else if code == REQUIRES_USER_CONFIRMATION then Projected(NeedsConfirmation(s), None)
    else Projected(Unavailable, None)
  }

  /** A well-formed download report projects to a progress between 0 and 1. */
  lemma DownloadProgressInUnitInterval(s: SessionState)
    requires s.status == DOWNLOADING
    requires 0 <= s.bytesDownloaded <= s.totalBytesToDownload && s.totalBytesToDownload > 0
    ensures Project(s).status.Installing? && Project(s).status.progress.Finite?
    ensures 0.0 <= Project(s).status.progress.value <= 1.0
  {
    var b, t := s.bytesDownloaded as real, s.totalBytesToDownload as real;
    assert b / t <= t / t;
  }

  /** There is no zero guard: a report with nothing to download projects to NaN or an infinity, not 0. */
  lemma DownloadWithZeroTotalIsNotFinite(s: SessionState)
    requires s.status == DOWNLOADING && s.totalBytesToDownload == 0
    ensures Project(s).status.Installing?
    ensures s.bytesDownloaded == 0 ==> Project(s).status.progress.NaN?
    ensures s.bytesDownloaded > 0 ==> Project(s).status.progress.PositiveInfinity?
  {
  }

  /** One observable step of the pipeline: a toast and/or a status. */
  datatype Emission = StatusEmitted(status: ModuleStatus) | ToastShown(message: Message)

  function Emissions(p: Projected): seq<Emission> {
    (if p.toast.Some? then [ToastShown(p.toast.value)] else []) + [StatusEmitted(p.status)]
  }

  /**
   * `requestProgressFlow().filter { moduleName in moduleNames }.map { ... }.catch { ... }`:
   * the upstream delivers `states` and then, if `upstreamFailed`, throws.
   */
  function ModuleStatusFlow(states: seq<SessionState>, upstreamFailed: bool, moduleName: string): (out: seq<Emission>)
    ensures upstreamFailed ==>
      |out| >= 2 && out[|out| - 1] == StatusEmitted(Unavailable)
      && out[|out| - 2] == ToastShown(Text(STREAM_ERROR_TEXT))
    ensures !upstreamFailed && (forall i :: 0 <= i < |states| ==> moduleName !in states[i].moduleNames) ==> out == []
    decreases |states|
  {
    if |states| == 0 then
      if upstreamFailed then [ToastShown(Text(STREAM_ERROR_TEXT)), StatusEmitted(Unavailable)] else []
    else
      var rest := ModuleStatusFlow(states[1..], upstreamFailed, moduleName);
      if moduleName in states[0].moduleNames then Emissions(Project(states[0])) + rest else rest
  }

  /** Reference definition: the reports that name `moduleName`, in order. */
  function Tracked(states: seq<SessionState>, moduleName: string): seq<SessionState>
    decreases |states|
  {
    if |states| == 0 then []
    else (if moduleName in states[0].moduleNames then [states[0]] else []) + Tracked(states[1..], moduleName)
  }

  function ProjectAll(states: seq<SessionState>): seq<ModuleStatus>
    decreases |states|
  {
    if |states| == 0 then [] else [Project(states[0]).status] + ProjectAll(states[1..])
  }

  /** The statuses among the emissions, in order. */
  function Statuses(out: seq<Emission>): seq<ModuleStatus>
    decreases |out|
  {
    if |out| == 0 then []
    else (if out[0].StatusEmitted? then [out[0].status] else []) + Statuses(out[1..])
  }

  /** The toasts among the emissions, in order. */
  function Toasts(out: seq<Emission>): seq<Message>
    decreases |out|
  {
    if |out| == 0 then []
    else (if out[0].ToastShown? then [out[0].message] else []) + Toasts(out[1..])
  }

  /** The failure toasts the reports call for: one per FAILED report, in order. */
  function FailureToasts(states: seq<SessionState>): seq<Message>
    decreases |states|
  {
    if |states| == 0 then []
    else
      var head := if states[0].status == FAILED
        then [ErrorForModule(states[0].errorCode, states[0].moduleNames)] else [];
      head + FailureToasts(states[1..])
  }

  lemma {:induction false} StatusesAppend(a: seq<Emission>, b: seq<Emission>)
    ensures Statuses(a + b) == Statuses(a) + Statuses(b)
    decreases |a|
  {
    if |a| == 0 {
      assert a + b == b;
    } else {
      assert (a + b)[0] == a[0];
      assert (a + b)[1..] == a[1..] + b;
      StatusesAppend(a[1..], b);
    }
  }

  lemma {:induction false} ToastsAppend(a: seq<Emission>, b: seq<Emission>)
    ensures Toasts(a + b) == Toasts(a) + Toasts(b)
    decreases |a|
  {
    if |a| == 0 {
      assert a + b == b;
    } else {
      assert (a + b)[0] == a[0];
      assert (a + b)[1..] == a[1..] + b;
      ToastsAppend(a[1..], b);
    }
  }

  lemma OneEmission(x: Emission)
    ensures Statuses([x]) == (if x.StatusEmitted? then [x.status] else [])
    ensures Toasts([x]) == (if x.ToastShown? then [x.message] else [])
  {
    assert [x][1..] == [];
  }

  lemma EmissionsOfOneReport(p: Projected)
    ensures Statuses(Emissions(p)) == [p.status]
    ensures Toasts(Emissions(p)) == (if p.toast.Some? then [p.toast.value] else [])
  {
    var last := StatusEmitted(p.status);
    OneEmission(last);
    if p.toast.Some? {
      var first := ToastShown(p.toast.value);
      OneEmission(first);
      StatusesAppend([first], [last]);
      ToastsAppend([first], [last]);
    } else {
      assert Emissions(p) == [last];
    }
  }

  lemma StreamErrorEmissions()
    ensures Statuses([ToastShown(Text(STREAM_ERROR_TEXT)), StatusEmitted(Unavailable)]) == [Unavailable]
    ensures Toasts([ToastShown(Text(STREAM_ERROR_TEXT)), StatusEmitted(Unavailable)]) == [Text(STREAM_ERROR_TEXT)]
  {
    var first, last := ToastShown(Text(STREAM_ERROR_TEXT)), StatusEmitted(Unavailable);
    OneEmission(first);
    OneEmission(last);
    assert [first, last] == [first] + [last];
    StatusesAppend([first], [last]);
    ToastsAppend([first], [last]);
  }

  lemma TrackedHead(states: seq<SessionState>, moduleName: string)
    requires |states| > 0
    ensures moduleName in states[0].moduleNames ==>
      Tracked(states, moduleName) == [states[0]] + Tracked(states[1..], moduleName)
    ensures moduleName !in states[0].moduleNames ==> Tracked(states, moduleName) == Tracked(states[1..], moduleName)
  {
  }

  lemma ConsReport(x: SessionState, rest: seq<SessionState>)
    ensures ProjectAll([x] + rest) == [Project(x).status] + ProjectAll(rest)
    ensures FailureToasts([x] + rest)
      == (if x.status == FAILED then [ErrorForModule(x.errorCode, x.moduleNames)] else []) + FailureToasts(rest)
  {
    var t := [x] + rest;
    assert t[0] == x;
    assert t[1..] == rest;
  }

  /** One step of the pipeline: a tracked report contributes its emissions ahead of the rest. */
  lemma FlowStep(states: seq<SessionState>, upstreamFailed: bool, moduleName: string)
    requires |states| > 0
    ensures ModuleStatusFlow(states, upstreamFailed, moduleName) ==
      if moduleName in states[0].moduleNames
      then Emissions(Project(states[0])) + ModuleStatusFlow(states[1..], upstreamFailed, moduleName)
      else ModuleStatusFlow(states[1..], upstreamFailed, moduleName)
  {
  }

  lemma StatusesOfReport(p: Projected, rest: seq<Emission>, later: seq<ModuleStatus>, extra: seq<ModuleStatus>)
    requires Statuses(rest) == later + extra
    ensures Statuses(Emissions(p) + rest) == ([p.status] + later) + extra
  {
    StatusesAppend(Emissions(p), rest);
    EmissionsOfOneReport(p);
  }

  lemma ToastsOfReport(p: Projected, rest: seq<Emission>, later: seq<Message>, extra: seq<Message>)
    requires Toasts(rest) == later + extra
    ensures Toasts(Emissions(p) + rest) == ((if p.toast.Some? then [p.toast.value] else []) + later) + extra
  {
    ToastsAppend(Emissions(p), rest);
    EmissionsOfOneReport(p);
  }

  /**
   * The pipeline emits exactly one status per report that names the module,
   * namely its projection, and a final `Unavailable` when the upstream fails.
   */
  lemma {:induction false} FlowStatusesAreProjectedTrackedStates(states: seq<SessionState>, upstreamFailed: bool, moduleName: string)
    ensures Statuses(ModuleStatusFlow(states, upstreamFailed, moduleName))
      == ProjectAll(Tracked(states, moduleName)) + (if upstreamFailed then [Unavailable] else [])
    decreases |states|
  {
    if |states| == 0 {
      StreamErrorEmissions();
    } else {
      FlowStatusesAreProjectedTrackedStates(states[1..], upstreamFailed, moduleName);
      FlowStep(states, upstreamFailed, moduleName);
      TrackedHead(states, moduleName);
      if moduleName in states[0].moduleNames {
        var tail := Tracked(states[1..], moduleName);
        ConsReport(states[0], tail);
        StatusesOfReport(Project(states[0]), ModuleStatusFlow(states[1..], upstreamFailed, moduleName),
                         ProjectAll(tail), if upstreamFailed then [Unavailable] else []);
      }
    }
  }

  /**
   * The pipeline shows exactly one failure toast per tracked FAILED report,
   * carrying its error code and module names, and one generic toast when the
   * upstream fails; nothing else is toasted.
   */
  lemma {:induction false} FlowToastsAreFailures(states: seq<SessionState>, upstreamFailed: bool, moduleName: string)
    ensures Toasts(ModuleStatusFlow(states, upstreamFailed, moduleName))
      == FailureToasts(Tracked(states, moduleName)) + (if upstreamFailed then [Text(STREAM_ERROR_TEXT)] else [])
    decreases |states|
  {
    if |states| == 0 {
      StreamErrorEmissions();
    } else {
      FlowToastsAreFailures(states[1..], upstreamFailed, moduleName);
      FlowStep(states, upstreamFailed, moduleName);
      TrackedHead(states, moduleName);
      if moduleName in states[0].moduleNames {
        var tail := Tracked(states[1..], moduleName);
        ConsReport(states[0], tail);
        ToastsOfReport(Project(states[0]), ModuleStatusFlow(states[1..], upstreamFailed, moduleName),
                       FailureToasts(tail), if upstreamFailed then [Text(STREAM_ERROR_TEXT)] else []);
      }
    }
  }

  /** The older variant: only `palette` reports reach the status, each projected by the shared table. */
  lemma PaletteFlowStatuses(states: seq<SessionState>, upstreamFailed: bool)
    ensures Statuses(ModuleStatusFlow(states, upstreamFailed, PALETTE_MODULE))
      == ProjectAll(Tracked(states, PALETTE_MODULE)) + (if upstreamFailed then [Unavailable] else [])
  {
    FlowStatusesAreProjectedTrackedStates(states, upstreamFailed, PALETTE_MODULE);
  }

  /** The older variant toasts once per tracked failure and once for a stream error. */
  lemma PaletteFlowToasts(states: seq<SessionState>, upstreamFailed: bool)
    ensures Toasts(ModuleStatusFlow(states, upstreamFailed, PALETTE_MODULE))
      == FailureToasts(Tracked(states, PALETTE_MODULE)) + (if upstreamFailed then [Text(STREAM_ERROR_TEXT)] else [])
  {
    FlowToastsAreFailures(states, upstreamFailed, PALETTE_MODULE);
  }

  /** What a click on the module button leads to. */
  datatype Action = NoAction | LaunchActivity(className: string) | RequestInstall(modules: seq<string>)

  datatype InvokeOutcome = InvokeOutcome(action: Action, toasts: seq<Message>)

  predicate AwaitsConfirmation(current: Option<ModuleStatus>) {
    current.Some? && current.value.NeedsConfirmation?
  }

  /**
   * The decision both variants share: an installed module gets `whenInstalled`;
   * otherwise nothing happens while the status awaits confirmation, and else
   * exactly this module is requested, a rejected request becoming a toast.
   */
  function InvokeModule(moduleName: string, installedModules: set<string>, current: Option<ModuleStatus>,
                        requestThrows: bool, whenInstalled: InvokeOutcome): (o: InvokeOutcome)
    requires !whenInstalled.action.RequestInstall?
    ensures o.action.RequestInstall? <==> moduleName !in installedModules && !AwaitsConfirmation(current)
    ensures o.action.RequestInstall? ==> o.action.modules == [moduleName]
    ensures o.action.RequestInstall? ==>
      o.toasts == (if requestThrows then [Text("Failed starting installation of " + moduleName)] else [])
    ensures moduleName in installedModules ==> o == whenInstalled
    ensures moduleName !in installedModules && AwaitsConfirmation(current) ==> o == InvokeOutcome(NoAction, [])
  {
    if moduleName in installedModules then whenInstalled
    else if AwaitsConfirmation(current) then InvokeOutcome(NoAction, [])
    else
      InvokeOutcome(RequestInstall([moduleName]),
                    if requestThrows then [Text("Failed starting installation of " + moduleName)] else [])
  }

  /** `invokeRandomColor`: launch when installed, hold while confirming, else request `[randomcolor]`. */
  function InvokeRandomColor(installedModules: set<string>, current: Option<ModuleStatus>, requestThrows: bool): (o: InvokeOutcome)
    ensures o.action.LaunchActivity? <==> RANDOM_COLOR_MODULE in installedModules
    ensures o.action.LaunchActivity? ==>
      o.action.className == RANDOM_COLOR_ACTIVITY && o.toasts == [Text("Invoked randomcolor!")]
    ensures o.action.RequestInstall? <==> RANDOM_COLOR_MODULE !in installedModules && !AwaitsConfirmation(current)
    ensures o.action.RequestInstall? ==> o.action.modules == [RANDOM_COLOR_MODULE]
    ensures o.action.RequestInstall? && requestThrows ==>
      o.toasts == [Text("Failed starting installation of " + RANDOM_COLOR_MODULE)]
    ensures o.action.NoAction? ==> o.toasts == []
  {
    InvokeModule(RANDOM_COLOR_MODULE, installedModules, current, requestThrows,
                 InvokeOutcome(LaunchActivity(RANDOM_COLOR_ACTIVITY), [Text("Invoked randomcolor!")]))
  }

  /** `invokePalette` of the `state` variant is a placeholder that only toasts. */
  function InvokePalettePlaceholder(): (o: InvokeOutcome)
    ensures o.action == NoAction && o.toasts == [Text("Not implemented yet")]
  {
    InvokeOutcome(NoAction, [Text("Not implemented yet")])
  }

  /** `invokePalette` of the older variant: an installed `palette` only toasts; else as `InvokeModule`. */
  function InvokePalette(installedModules: set<string>, current: Option<ModuleStatus>, requestThrows: bool): (o: InvokeOutcome)
    ensures PALETTE_MODULE in installedModules ==> o == InvokeOutcome(NoAction, [Text("Invoked Palette!")])
    ensures o.action.RequestInstall? <==> PALETTE_MODULE !in installedModules && !AwaitsConfirmation(current)
    ensures o.action.RequestInstall? ==> o.action.modules == [PALETTE_MODULE]
    ensures o.action.RequestInstall? && requestThrows ==> o.toasts == [Text("Failed starting installation of " + PALETTE_MODULE)]
    ensures !o.action.LaunchActivity?
  {
    InvokeModule(PALETTE_MODULE, installedModules, current, requestThrows,
                 InvokeOutcome(NoAction, [Text("Invoked Palette!")]))
  }

  /** The last status projected from a non-empty list of reports is the projection of the last report. */
  lemma {:induction false} ProjectAllLast(xs: seq<SessionState>)
    requires |xs| > 0
    ensures |ProjectAll(xs)| == |xs|
    ensures ProjectAll(xs)[|xs| - 1] == Project(xs[|xs| - 1]).status
    decreases |xs|
  {
    if |xs| > 1 {
      ProjectAllLast(xs[1..]);
    }
  }

  /** The status on screen after the flow: the last one it emitted. */
  function ShownStatus(states: seq<SessionState>, upstreamFailed: bool, moduleName: string): (shown: Option<ModuleStatus>)
    ensures shown.None? <==> Statuses(ModuleStatusFlow(states, upstreamFailed, moduleName)) == []
  {
    var all := Statuses(ModuleStatusFlow(states, upstreamFailed, moduleName));
    if |all| == 0 then None else Some(all[|all| - 1])
  }

  /**
   * A click acts on what the flow shows: while the module's latest report
   * asks for confirmation the click does nothing, and after the stream has
   * failed (showing `Unavailable`) a click on a missing module requests it.
   */
  lemma ClickFollowsShownStatus(states: seq<SessionState>, upstreamFailed: bool, moduleName: string,
                                installedModules: set<string>, requestThrows: bool, whenInstalled: InvokeOutcome)
    requires !whenInstalled.action.RequestInstall?
    requires moduleName !in installedModules
    ensures var t := Tracked(states, moduleName);
      !upstreamFailed && |t| > 0 && t[|t| - 1].status == REQUIRES_USER_CONFIRMATION ==>
        InvokeModule(moduleName, installedModules, ShownStatus(states, upstreamFailed, moduleName),
                     requestThrows, whenInstalled) == InvokeOutcome(NoAction, [])
    ensures upstreamFailed ==>
      InvokeModule(moduleName, installedModules, ShownStatus(states, upstreamFailed, moduleName),
                   requestThrows, whenInstalled).action == RequestInstall([moduleName])
  {
    FlowStatusesAreProjectedTrackedStates(states, upstreamFailed, moduleName);
    var t := Tracked(states, moduleName);
    if !upstreamFailed && |t| > 0 {
      ProjectAllLast(t);
    }
  }

  /** `randomcolor` shown as awaiting confirmation is never requested again by a click. */
  lemma RandomColorClickWaitsForConfirmation(states: seq<SessionState>, installedModules: set<string>, requestThrows: bool)
    requires RANDOM_COLOR_MODULE !in installedModules
    requires var t := Tracked(states, RANDOM_COLOR_MODULE); |t| > 0 && t[|t| - 1].status == REQUIRES_USER_CONFIRMATION
    ensures InvokeRandomColor(installedModules, ShownStatus(states, false, RANDOM_COLOR_MODULE), requestThrows)
      == InvokeOutcome(NoAction, [])
  {
    ClickFollowsShownStatus(states, false, RANDOM_COLOR_MODULE, installedModules, requestThrows,
                            InvokeOutcome(LaunchActivity(RANDOM_COLOR_ACTIVITY), [Text("Invoked randomcolor!")]));
  }

  /** After the older variant's stream has failed, a click on a missing `palette` requests it. */
  lemma PaletteClickAfterStreamFailureRequests(states: seq<SessionState>, installedModules: set<string>, requestThrows: bool)
    requires PALETTE_MODULE !in installedModules
    ensures InvokePalette(installedModules, ShownStatus(states, true, PALETTE_MODULE), requestThrows).action
      == RequestInstall([PALETTE_MODULE])
  {
    ClickFollowsShownStatus(states, true, PALETTE_MODULE, installedModules, requestThrows,
                            InvokeOutcome(NoAction, [Text("Invoked Palette!")]));
  }
}

=== FILE: kotlin_numbers.dfy ===
/**
 * The JVM number semantics the samples rely on: 32- and 64-bit wrap-around,
 * division truncating toward zero, IEEE division of a `Long` converted to
 * `Double`, and `Double.toInt()`. Doubles are exact reals here; rounding is
 * not modelled.
 */
module KotlinNumbers {

  const INT_MIN: int := -0x8000_0000
  const INT_MAX: int := 0x7FFF_FFFF
  const LONG_MIN: int := -0x8000_0000_0000_0000
  const LONG_MAX: int := 0x7FFF_FFFF_FFFF_FFFF

  predicate IsInt(x: int) { INT_MIN <= x <= INT_MAX }
  predicate IsLong(x: int) { LONG_MIN <= x <= LONG_MAX }

  /** The `Int` a 32-bit two's-complement operation produces from the exact result `x`. */
  function WrapInt(x: int): (r: int)
    ensures IsInt(r)
    ensures (x - r) % 0x1_0000_0000 == 0
    ensures IsInt(x) ==> r == x
  {
    (x - INT_MIN) % 0x1_0000_0000 + INT_MIN
  }

  /** The `Long` a 64-bit two's-complement operation produces from the exact result `x`. */
  function WrapLong(x: int): (r: int)
    ensures IsLong(r)
    ensures (x - r) % 0x1_0000_0000_0000_0000 == 0
    ensures IsLong(x) ==> r == x
  {
    (x - LONG_MIN) % 0x1_0000_0000_0000_0000 + LONG_MIN
  }

  function Abs(x: int): nat { if x < 0 then -x else x }

  /** JVM integer division: the quotient is truncated toward zero. */
  function TruncDiv(a: int, b: int): (q: int)
    requires b != 0
    ensures Abs(q) * Abs(b) <= Abs(a) < (Abs(q) + 1) * Abs(b)
    ensures q != 0 ==> ((q > 0) <==> ((a > 0) == (b > 0)))
  {
    var k := Abs(a) / Abs(b);
    var q: int := if (a >= 0) == (b > 0) then k else -(k as int);
    TruncatedQuotientBounds(a, b, q);
    q
  }

  /** A quotient whose magnitude is the floor of the magnitudes brackets the dividend. */
  lemma TruncatedQuotientBounds(a: int, b: int, q: int)
    requires b != 0 && Abs(q) == Abs(a) / Abs(b)
    ensures Abs(q) * Abs(b) <= Abs(a) < (Abs(q) + 1) * Abs(b)
  {
    DivisionBounds(Abs(a), Abs(b));
  }

  lemma DivisionBounds(n: nat, m: nat)
    requires m > 0
    ensures (n / m) * m <= n < (n / m + 1) * m
  {
    var k := n / m;
    assert n == k * m + n % m;
    assert (k + 1) * m == k * m + m;
  }

  /** A `Double`, with the IEEE special values the samples can produce. */
  datatype Double = Finite(value: real) | PositiveInfinity | NegativeInfinity | NaN

  /** `num.toDouble() / den` for `Long` operands: division by zero gives an infinity or NaN, never an error. */
  function DivideToDouble(num: int, den: int): (d: Double)
    ensures d.Finite? <==> den != 0
    ensures d.Finite? ==> d.value * den as real == num as real
    ensures d.NaN? <==> den == 0 && num == 0
    ensures d.PositiveInfinity? <==> den == 0 && num > 0
  {
    if den != 0 then Finite(num as real / den as real)
    else if num > 0 then PositiveInfinity
    else if num < 0 then NegativeInfinity
    else NaN
  }

  /** `d * 100` */
  function TimesHundred(d: Double): Double {
    match d
    case Finite(v) => Finite(v * 100.0)
    case _ => d
  }

  /** The integer part of `v`, truncated toward zero. */
  function Truncate(v: real): (t: int)
    ensures t as real <= v < t as real + 1.0 || t as real - 1.0 < v <= t as real
    ensures v >= 0.0 ==> t >= 0 && t as real <= v
    ensures v <= 0.0 ==> t <= 0 && v <= t as real
  {
    if v >= 0.0 then v.Floor else -((-v).Floor)
  }

  /** Kotlin `Double.toInt()`: NaN becomes 0, out-of-range values saturate, the rest truncate toward zero. */
  function DoubleToInt(d: Double): (i: int)
    ensures IsInt(i)
    ensures d.NaN? ==> i == 0
    ensures d.Finite? && IsInt(Truncate(d.value)) ==> i == Truncate(d.value)
    ensures d.PositiveInfinity? || (d.Finite? && Truncate(d.value) > INT_MAX) ==> i == INT_MAX
    ensures d.NegativeInfinity? || (d.Finite? && Truncate(d.value) < INT_MIN) ==> i == INT_MIN
  {
    match d
    case NaN => 0
    case PositiveInfinity => INT_MAX
    case NegativeInfinity => INT_MIN
    case Finite(v) =>
      var t := Truncate(v);
      if t > INT_MAX then INT_MAX else if t < INT_MIN then INT_MIN else t
  }
}

=== FILE: main_fragment.dfy ===
/**
 * The view-state mapping of the PlayCoreKtx `MainFragment`: how a module
 * status and an update result become button state, and how the one-shot
 * events of the install and update view models become platform calls. Views,
 * string resources and the managers are not modelled; a label is the resource
 * it shows together with its format argument.
 */
module MainFragmentView {
  import opened Wrappers
  import opened KotlinNumbers
  import opened SplitInstall
  import opened AppUpdate
  import opened UiEvents
  import InstallViewModel
  import UpdateViewModel

  const INSTALL_CONFIRMATION_REQ_CODE: int := 1
  const UPDATE_CONFIRMATION_REQ_CODE: int := 2

  /** `AppUpdateType` constants. */
  const FLEXIBLE: int := 0
  const IMMEDIATE: int := 1

  const ILLEGAL_STATE: string := "IllegalStateException"
  const ARITHMETIC: string := "ArithmeticException"

  // ---------------------------------------------------------------- module button

  /** The `moduleState` text: `install`, `installing` with a percentage, `feature_not_available` or `start`. */
  datatype ModuleLabel = InstallLabel | InstallingLabel(percent: int) | FeatureNotAvailableLabel | StartLabel

  /** `startConfirmationDialogForResult(state, fragment, requestCode)` */
  datatype Confirmation = Confirmation(state: SessionState, requestCode: int)

  /**
   * The result of `updateModuleButton`. `text` is `None` when the text is
   * left as it was; `splitCompatInstall` records `SplitCompat.installActivity`.
   */
  datatype ModuleButton = ModuleButton(
    enabled: bool,
    text: Option<ModuleLabel>,
    splitCompatInstall: bool,
    confirmation: Option<Confirmation>)

  /**
   * `(progress * 100).toInt()`: the hundredfold progress truncated toward
   * zero, with NaN shown as 0 and out-of-range values saturated.
   */
  function InstallingPercent(progress: Double): (percent: int)
    ensures IsInt(percent)
    ensures progress.NaN? ==> percent == 0
    ensures progress.PositiveInfinity? ==> percent == INT_MAX
    ensures progress.NegativeInfinity? ==> percent == INT_MIN
    ensures progress.Finite? ==>
      var t := Truncate(progress.value * 100.0);
      percent == (if t > INT_MAX then INT_MAX else if t < INT_MIN then INT_MIN else t)
  {
    DoubleToInt(TimesHundred(progress))
  }

  function UpdateModuleButton(status: InstallViewModel.ModuleStatus): (b: ModuleButton)
    ensures b.enabled <==> !status.Unavailable?
    ensures b.text.None? <==> status.NeedsConfirmation?
    ensures b.splitCompatInstall <==> status.Installed?
    ensures b.confirmation.Some? <==> status.NeedsConfirmation?
    ensures status.NeedsConfirmation? ==>
      b.confirmation == Some(Confirmation(status.state, UPDATE_CONFIRMATION_REQ_CODE))
    ensures status.Available? ==> b.text == Some(InstallLabel)
    ensures status.Installing? ==> b.text == Some(InstallingLabel(InstallingPercent(status.progress)))
    ensures status.Unavailable? ==> b.text == Some(FeatureNotAvailableLabel)
    ensures status.Installed? ==> b.text == Some(StartLabel)
  {
    var enabled := !status.Unavailable?;
    match status
    case Available => ModuleButton(enabled, Some(InstallLabel), false, None)
    case Installing(p) => ModuleButton(enabled, Some(InstallingLabel(InstallingPercent(p))), false, None)
    case Unavailable => ModuleButton(enabled, Some(FeatureNotAvailableLabel), false, None)
    case Installed => ModuleButton(enabled, Some(StartLabel), true, None)
    case NeedsConfirmation(state) =>
      ModuleButton(enabled, None, false, Some(Confirmation(state, UPDATE_CONFIRMATION_REQ_CODE)))
  }

  /** For a progress in the unit interval the shown percentage is the whole part of `100 * progress`. */
  lemma InstallingPercentOfUnitProgress(p: real)
    requires 0.0 <= p <= 1.0
    ensures 0 <= InstallingPercent(Finite(p)) <= 100
    ensures InstallingPercent(Finite(p)) == (p * 100.0).Floor
  {
    var v := p * 100.0;
    assert 0.0 <= v <= 100.0;
    assert Truncate(v) == v.Floor;
    assert 0 <= v.Floor <= 100;
  }

  /**
   * Every status the `moduleStatus` pipeline derives from a sane session report
   * (no more bytes than expected, a positive total) shows a percentage between 0 and 100.
   */
  lemma ProjectedPercentIsBounded(s: SessionState)
    requires 0 <= s.bytesDownloaded <= s.totalBytesToDownload && s.totalBytesToDownload > 0
    ensures var status := InstallViewModel.Project(s).status;
      status.Installing? ==> 0 <= InstallingPercent(status.progress) <= 100
  {
    if s.status == DOWNLOADING {
      DownloadingPercentIsBounded(s);
    } else {
      FixedProgressPercent(s);
    }
  }

  /** A sane DOWNLOADING report shows the whole part of its downloaded share, between 0 and 100. */
  lemma DownloadingPercentIsBounded(s: SessionState)
    requires s.status == DOWNLOADING
    requires 0 <= s.bytesDownloaded <= s.totalBytesToDownload && s.totalBytesToDownload > 0
    ensures var status := InstallViewModel.Project(s).status;
      status.Installing? && 0 <= InstallingPercent(status.progress) <= 100
  {
    InstallViewModel.DownloadProgressInUnitInterval(s);
    PercentOfUnitStatus(InstallViewModel.Project(s).status);
  }

  /** Every other in-progress report shows exactly 0 (pending, canceling) or 100 (downloaded, installing). */
  lemma FixedProgressPercent(s: SessionState)
    requires s.status != DOWNLOADING
    ensures var status := InstallViewModel.Project(s).status;
      status.Installing? ==>
        InstallingPercent(status.progress) == (if s.status == PENDING || s.status == CANCELING then 0 else 100)
  {
    var status := InstallViewModel.Project(s).status;
    if status.Installing? {
      PercentOfUnitStatus(status);
    }
  }

  lemma PercentOfUnitStatus(status: InstallViewModel.ModuleStatus)
    requires status.Installing? && status.progress.Finite?
    requires 0.0 <= status.progress.value <= 1.0
    ensures 0 <= InstallingPercent(status.progress) <= 100
  {
    InstallingPercentOfUnitProgress(status.progress.value);
  }

  /**
   * A DOWNLOADING report with a zero total shows 0 when nothing was downloaded
   * (NaN converts to 0) and `Int.MAX_VALUE` otherwise (+Infinity saturates).
   */
  lemma ZeroTotalPercent(s: SessionState)
    requires s.status == DOWNLOADING && s.totalBytesToDownload == 0 && s.bytesDownloaded >= 0
    ensures var b := UpdateModuleButton(InstallViewModel.Project(s).status);
      b.text == Some(InstallingLabel(if s.bytesDownloaded == 0 then 0 else INT_MAX))
  {
  }

  // ---------------------------------------------------------------- update button

  datatype Visibility = Visible | Gone

  /** The `btnUpdate` text: `start_update`, `downloading_update` with a percentage, or `press_to_complete_update`. */
  datatype UpdateLabel = StartUpdateLabel | DownloadingUpdateLabel(percent: int) | PressToCompleteLabel

  /** The result of `updateUpdateButton`; `None` fields are left as they were. */
  datatype UpdateButton = UpdateButton(visibility: Visibility, enabled: Option<bool>, text: Option<UpdateLabel>)

  /** `bytesDownloaded * 100 / totalBytesToDownload` in `Long` arithmetic; a zero total throws. */
  function DownloadPercent(st: InstallState): (r: Result<int, string>)
    ensures r.Err? <==> st.totalBytesToDownload == 0
    ensures r.Err? ==> r.error == ARITHMETIC
    ensures r.Ok? ==> IsLong(r.value)
  {
    if st.totalBytesToDownload == 0 then Err(ARITHMETIC)
    else Ok(WrapLong(TruncDiv(WrapLong(st.bytesDownloaded * 100), st.totalBytesToDownload)))
  }

  /** Without overflow the percentage is the floor of `100 * bytes / total`, between 0 and 100. */
  lemma DownloadPercentBounds(st: InstallState)
    requires 0 <= st.bytesDownloaded <= st.totalBytesToDownload && 0 < st.totalBytesToDownload
    requires st.bytesDownloaded * 100 <= LONG_MAX
    ensures DownloadPercent(st).Ok?
    ensures var p := DownloadPercent(st).value;
      0 <= p <= 100
      && p * st.totalBytesToDownload <= st.bytesDownloaded * 100 < (p + 1) * st.totalBytesToDownload
  {
    var b, t := st.bytesDownloaded, st.totalBytesToDownload;
    var a := b * 100;
    assert WrapLong(a) == a;
    var q := TruncDiv(a, t);
    assert q >= 0;
    assert q * t <= a < (q + 1) * t;
    assert a <= 100 * t;
    QuotientAtMost(q, t, 100);
  }

  lemma QuotientAtMost(q: int, t: int, k: int)
    requires t > 0 && q * t <= k * t
    ensures q <= k
  {
    if q > k {
      MultiplyAtLeastOne(q - k, t);
    }
  }

  lemma MultiplyAtLeastOne(n: int, t: int)
    requires n >= 1 && t > 0
    ensures n * t >= t
  {
  }

  /**
   * The `Long` product can wrap: with 2^62 of 2^62 bytes downloaded the
   * product is a multiple of 2^64 and the button shows 0 rather than 100.
   */
  lemma HugeDownloadPercentWraps()
    ensures DownloadPercent(InstallState(0x4000_0000_0000_0000, 0x4000_0000_0000_0000)) == Ok(0)
  {
  }

  function UpdateUpdateButton(result: AppUpdateResult): (r: Result<UpdateButton, string>)
    ensures r.Err? <==> result.InProgress? && result.installState.totalBytesToDownload == 0
    ensures r.Ok? ==> (r.value.visibility == Gone <==> result.NotAvailable?)
    ensures r.Ok? ==> (r.value.enabled == Some(true) <==> result.Available? || result.Downloaded?)
    ensures r.Ok? ==> (r.value.enabled == Some(false) <==> result.InProgress?)
    ensures result.NotAvailable? ==> r == Ok(UpdateButton(Gone, None, None))
    ensures result.Available? ==> r == Ok(UpdateButton(Visible, Some(true), Some(StartUpdateLabel)))
    ensures result.Downloaded? ==> r == Ok(UpdateButton(Visible, Some(true), Some(PressToCompleteLabel)))
    ensures result.InProgress? && r.Ok? ==> r.value.visibility == Visible && r.value.enabled == Some(false)
    ensures result.InProgress? && r.Ok? ==>
      r.value.text == Some(DownloadingUpdateLabel(DownloadPercent(result.installState).value))
  {
    match result
    case NotAvailable => Ok(UpdateButton(Gone, None, None))
    case Available(_) => Ok(UpdateButton(Visible, Some(true), Some(StartUpdateLabel)))
    case InProgress(st) =>
      var percent := DownloadPercent(st);
      if percent.Err? then Err(percent.error)
      else Ok(UpdateButton(Visible, Some(false), Some(DownloadingUpdateLabel(percent.value))))
    case Downloaded => Ok(UpdateButton(Visible, Some(true), Some(PressToCompleteLabel)))
  }

  // ---------------------------------------------------------------- event dispatch

  /** The platform call an event turns into. */
  datatype Effect =
    | ShowToast(text: string)
    | NavigateTo(fragmentClass: string)
    | StartConfirmationDialog(state: SessionState, requestCode: int)
    | StartUpdateFlow(updateInfo: AppUpdateInfo, updateType: int, requestCode: int)

  /** The collector on the install view model's events; an update event is not handled there and throws. */
  function DispatchInstallEvent(e: Event): (r: Result<Effect, string>)
    ensures r.Err? <==> e.StartUpdateEvent?
    ensures r.Err? ==> r.error == ILLEGAL_STATE
    ensures e.ToastEvent? ==> r == Ok(ShowToast(e.message))
    ensures e.NavigationEvent? ==> r == Ok(NavigateTo(e.fragmentClass))
    ensures e.InstallConfirmationEvent? ==>
      r == Ok(StartConfirmationDialog(e.status, INSTALL_CONFIRMATION_REQ_CODE))
  {
    match e
    case ToastEvent(m) => Ok(ShowToast(m))
    case NavigationEvent(c) => Ok(NavigateTo(c))
    case InstallConfirmationEvent(st) => Ok(StartConfirmationDialog(st, INSTALL_CONFIRMATION_REQ_CODE))
    case StartUpdateEvent(_, _) => Err(ILLEGAL_STATE)
  }

  /** The collector on the update view model's events; navigation and confirmation events throw. */
  function DispatchUpdateEvent(e: Event): (r: Result<Effect, string>)
    ensures r.Err? <==> e.NavigationEvent? || e.InstallConfirmationEvent?
    ensures r.Err? ==> r.error == ILLEGAL_STATE
    ensures e.ToastEvent? ==> r == Ok(ShowToast(e.message))
    ensures e.StartUpdateEvent? ==>
      && r.Ok? && r.value.StartUpdateFlow?
      && r.value.updateInfo == e.updateInfo
      && r.value.requestCode == UPDATE_CONFIRMATION_REQ_CODE
      && (r.value.updateType == IMMEDIATE <==> e.immediate)
      && (r.value.updateType == FLEXIBLE <==> !e.immediate)
  {
    match e
    case ToastEvent(m) => Ok(ShowToast(m))
    case StartUpdateEvent(info, immediate) =>
      Ok(StartUpdateFlow(info, if immediate then IMMEDIATE else FLEXIBLE, UPDATE_CONFIRMATION_REQ_CODE))
    case _ => Err(ILLEGAL_STATE)
  }

  /**
   * The two collectors split the event types between them: every event is
   * handled by at least one, and only a toast by both, in the same way.
   */
  lemma CollectorsSplitEventTypes(e: Event)
    ensures DispatchInstallEvent(e).Ok? || DispatchUpdateEvent(e).Ok?
    ensures DispatchInstallEvent(e).Ok? && DispatchUpdateEvent(e).Ok? <==> e.ToastEvent?
    ensures e.ToastEvent? ==> DispatchInstallEvent(e) == DispatchUpdateEvent(e)
  {
  }

  /**
   * Every event `invokeUpdate` sends is one the fragment handles, and an
   * update flow it starts is IMMEDIATE exactly when the immediate rule holds.
   */
  lemma InvokeUpdateEventsAreDispatched(updateStatus: Option<AppUpdateResult>)
    requires UpdateViewModel.InvokeUpdate(updateStatus).Ok?
    ensures forall e :: e in UpdateViewModel.InvokeUpdate(updateStatus).value.events ==>
      DispatchUpdateEvent(e).Ok?
    ensures forall e :: e in UpdateViewModel.InvokeUpdate(updateStatus).value.events && e.StartUpdateEvent? ==>
      (DispatchUpdateEvent(e).value.updateType == IMMEDIATE <==>
       UpdateViewModel.ShouldLaunchImmediateUpdate(e.updateInfo))
  {
  }
}

=== FILE: navigation.dfy ===
/**
 * `CustomMonitorDynamicNavigationFragment` (both copies of the dynamic
 * navigation sample): four buttons that navigate to four destinations, and a
 * monitor that relabels the clicked button while its module installs, until
 * the library reports a terminal status. Navigation itself and the
 * library's notion of "terminal" are inputs.
 */
module DynamicNavigation {
  import opened Wrappers
  import opened SplitInstall

  datatype NavButton = Feature | FeatureActivity | NestedGraph | IncludedGraph

  datatype Destination = FeatureFragmentDest | FeatureActivityDest | NestedGraphDest | IncludedGraphDest

  /** The `mapOf(...)` the click listeners are installed from. */
  function DestinationOf(b: NavButton): (d: Destination)
    ensures ButtonFor(d) == b
  {
    match b
    case Feature => FeatureFragmentDest
    case FeatureActivity => FeatureActivityDest
    case NestedGraph => NestedGraphDest
    case IncludedGraph => IncludedGraphDest
  }

  /** The button that leads to `d`. */
  function ButtonFor(d: Destination): NavButton {
    match d
    case FeatureFragmentDest => Feature
    case FeatureActivityDest => FeatureActivity
    case NestedGraphDest => NestedGraph
    case IncludedGraphDest => IncludedGraph
  }

  /** Buttons and destinations are in one-to-one correspondence. */
  lemma DestinationsAreOneToOne(b: NavButton, d: Destination)
    ensures ButtonFor(DestinationOf(b)) == b
    ensures DestinationOf(ButtonFor(d)) == d
    ensures DestinationOf(b) == d <==> b == ButtonFor(d)
  {
  }

  /** A click navigates to the button's destination; the monitor is observed only if an install is required. */
  datatype Click = Click(destination: Destination, observing: bool)

  function OnButtonClick(b: NavButton, installRequired: bool): (c: Click)
    ensures c.destination == DestinationOf(b)
    ensures c.observing <==> installRequired
  {
    Click(DestinationOf(b), installRequired)
  }

  /** The string resources the button text is set to. */
  datatype ButtonText = Launch | InstallationFailed | InstallingText

  function TextFor(status: int): (t: ButtonText)
    ensures t == Launch <==> status == INSTALLED
    ensures t == InstallationFailed <==> status == FAILED
    ensures t == InstallingText <==> status != INSTALLED && status != FAILED
  {
    if status == INSTALLED then Launch else if status == FAILED then InstallationFailed else InstallingText
  }

  /** The button's text after the observer has seen some states, and whether it is still attached. */
  datatype Observation = Observation(text: Option<ButtonText>, attached: bool)

  /** The observer: relabel on every state it sees, and detach on the first terminal one. */
  function Observe(text: Option<ButtonText>, states: seq<SessionState>): (o: Observation)
    ensures o.attached <==> forall j :: 0 <= j < |states| ==> !states[j].hasTerminalStatus
    ensures |states| == 0 ==> o.text == text
    ensures |states| > 0 ==> exists j :: 0 <= j < |states| && o.text == Some(TextFor(states[j].status))
    decreases |states|
  {
    if |states| == 0 then Observation(text, true)
    else
      var t := Some(TextFor(states[0].status));
      if states[0].hasTerminalStatus then Observation(t, false) else Observe(t, states[1..])
  }

  /** The first terminal state fixes the text for good: whatever follows it is never seen. */
  lemma {:induction false} FirstTerminalStateIsFinal(text: Option<ButtonText>, states: seq<SessionState>, k: nat)
    requires k < |states| && states[k].hasTerminalStatus
    requires forall j :: 0 <= j < k ==> !states[j].hasTerminalStatus
    ensures Observe(text, states) == Observation(Some(TextFor(states[k].status)), false)
    decreases k
  {
    if k > 0 {
      assert !states[0].hasTerminalStatus;
      FirstTerminalStateIsFinal(Some(TextFor(states[0].status)), states[1..], k - 1);
    }
  }

  /** Without a terminal state the observer stays attached and shows the label of the latest state. */
  lemma {:induction false} ObservingWithoutTerminalState(text: Option<ButtonText>, states: seq<SessionState>)
    requires forall j :: 0 <= j < |states| ==> !states[j].hasTerminalStatus
    ensures Observe(text, states) ==
      Observation(if |states| == 0 then text else Some(TextFor(states[|states| - 1].status)), true)
    decreases |states|
  {
    if |states| > 0 {
      assert !states[0].hasTerminalStatus;
      ObservingWithoutTerminalState(Some(TextFor(states[0].status)), states[1..]);
    }
  }

  /** What a click leaves on screen: the text as it was when no install was required. */
  function ClickAndObserve(b: NavButton, installRequired: bool, states: seq<SessionState>): (o: Observation)
    ensures !installRequired ==> o == Observation(None, false)
    ensures installRequired ==> o == Observe(None, states)
  {
    if OnButtonClick(b, installRequired).observing then Observe(None, states) else Observation(None, false)
  }
}

=== FILE: palette.dfy ===
/**
 * The swatch list of the PlayCoreKtx picture feature (`PaletteFragment` and
 * its `PaletteAdapter`): the `#rrggbb` label of each swatch, the click that
 * makes a swatch the app's background colour, and the gate that launches the
 * camera only until a picture result has been handled.
 */
module Palette {
  import opened Wrappers
  import opened KotlinNumbers
  import ColorViewModel
  import ReviewViewModel

  const HEX_DIGITS: string := "0123456789abcdef"
  const INDEX_OUT_OF_BOUNDS: string := "StringIndexOutOfBoundsException"

  // ---------------------------------------------------------------- hexadecimal text

  function Pow16(k: nat): (p: nat)
    ensures p >= 1
  {
    if k == 0 then 1 else 16 * Pow16(k - 1)
  }

  function Digit(d: nat): char
    requires d < 16
  {
    HEX_DIGITS[d]
  }

  /** The value of a lower-case hex digit. */
  function DigitValue(c: char): nat {
    if '0' <= c <= '9' then c as int - '0' as int
    else if 'a' <= c <= 'f' then c as int - 'a' as int + 10
    else 0
  }

  /** Lower-case hex digits, at least one, without a leading zero unless the text is "0". */
  predicate IsCanonicalHex(s: string) {
    && |s| >= 1
    && (forall i :: 0 <= i < |s| ==> s[i] in HEX_DIGITS)
    && (|s| > 1 ==> s[0] != '0')
  }

  /** `n` in lower-case hex without leading zeros, "0" for zero. */
  function ToHexNat(n: nat): (s: string)
    ensures IsCanonicalHex(s)
    ensures n > 0 ==> s[0] != '0'
    decreases n
  {
    if n < 16 then
      assert n > 0 ==> Digit(n) != '0' by {
        if n > 0 { assert Digit(n) == HEX_DIGITS[n] && HEX_DIGITS[0] == '0'; }
      }
      [Digit(n)]
    else
      var high := ToHexNat(n / 16);
      var s := high + [Digit(n % 16)];
      assert forall i :: 0 <= i < |high| ==> s[i] == high[i];
      s
  }

  /** The low `width` hex digits of `n`, zero-padded. */
  function FixedHex(n: nat, width: nat): (s: string)
    ensures |s| == width
    decreases width
  {
    if width == 0 then [] else FixedHex(n / 16, width - 1) + [Digit(n % 16)]
  }

  /** The value of a hex text. */
  function HexValue(s: string): nat
    decreases |s|
  {
    if |s| == 0 then 0 else 16 * HexValue(s[..|s| - 1]) + DigitValue(s[|s| - 1])
  }

  lemma DigitRoundTrip(d: nat)
    requires d < 16
    ensures DigitValue(Digit(d)) == d
  {
  }

  /** Reading the hex text back gives the number. */
  lemma {:induction false} HexRoundTrip(n: nat)
    ensures HexValue(ToHexNat(n)) == n
    decreases n
  {
    DigitRoundTrip(n % 16);
    if n >= 16 {
      HexRoundTrip(n / 16);
      var s := ToHexNat(n);
      assert s[..|s| - 1] == ToHexNat(n / 16);
    }
  }

  /** Reading `width` padded digits back gives `n` when it fits. */
  lemma {:induction false} FixedHexRoundTrip(n: nat, width: nat)
    requires n < Pow16(width)
    ensures HexValue(FixedHex(n, width)) == n
    decreases width
  {
    if width > 0 {
      DigitRoundTrip(n % 16);
      FixedHexRoundTrip(n / 16, width - 1);
      var s := FixedHex(n, width);
      assert s[..|s| - 1] == FixedHex(n / 16, width - 1);
    }
  }

  /** Division by 16 of `q * 16 + r`. */
  lemma DivMod16(m: nat, q: nat, r: nat)
    requires m == q * 16 + r && r < 16
    ensures m / 16 == q && m % 16 == r
  {
  }

  /** The arithmetic step of `HexSplit`: peeling the last digit off `a * 16^k + b`. */
  lemma PeelDigit(a: nat, b: nat, k: nat)
    requires a > 0 && k > 0 && b < Pow16(k)
    ensures var m := a * Pow16(k) + b;
      m >= 16 && m / 16 == a * Pow16(k - 1) + b / 16 && m % 16 == b % 16
      && b / 16 < Pow16(k - 1)
  {
    var p := Pow16(k - 1);
    var x := a * p;
    assert Pow16(k) == 16 * p;
    assert a * Pow16(k) == 16 * x by {
      assert a * (16 * p) == 16 * (a * p);
    }
    assert x >= 1 by {
      assert a * p >= 1 * p;
    }
    var q := b / 16;
    var r := b % 16;
    assert b == q * 16 + r;
    assert q < p;
    DivMod16(16 * x + b, x + q, r);
  }

  /** A number with high part `a` and `k` low digits `b` prints as `a`'s digits followed by `b` padded to `k`. */
  lemma {:induction false} HexSplit(a: nat, b: nat, k: nat)
    requires a > 0 && b < Pow16(k)
    ensures ToHexNat(a * Pow16(k) + b) == ToHexNat(a) + FixedHex(b, k)
    decreases k
  {
    if k > 0 {
      PeelDigit(a, b, k);
      HexSplit(a, b / 16, k - 1);
      var m := a * Pow16(k) + b;
      calc {
        ToHexNat(m);
        ToHexNat(m / 16) + [Digit(m % 16)];
        ToHexNat(a * Pow16(k - 1) + b / 16) + [Digit(b % 16)];
        ToHexNat(a) + FixedHex(b / 16, k - 1) + [Digit(b % 16)];
        ToHexNat(a) + FixedHex(b, k);
      }
    } else {
      assert a * Pow16(k) + b == a;
    }
  }

  /** Every hex digit is the digit of its own value. */
  lemma DigitOfValue(c: char)
    requires c in HEX_DIGITS
    ensures DigitValue(c) < 16 && Digit(DigitValue(c)) == c
  {
    var d :| 0 <= d < 16 && HEX_DIGITS[d] == c;
    DigitRoundTrip(d);
  }

  /** A text of hex digits that starts with a non-zero digit has a positive value. */
  lemma {:induction false} LeadingDigitMakesPositive(s: string)
    requires |s| >= 1 && (forall i :: 0 <= i < |s| ==> s[i] in HEX_DIGITS) && s[0] != '0'
    ensures HexValue(s) >= 1
    decreases |s|
  {
    if |s| == 1 {
      DigitOfValue(s[0]);
      assert s[..0] == [];
    } else {
      var p := s[..|s| - 1];
      assert p[0] == s[0];
      assert forall i :: 0 <= i < |p| ==> p[i] == s[i];
      LeadingDigitMakesPositive(p);
    }
  }

  /** There is one canonical hex text per number: a canonical text is the printing of its own value. */
  lemma {:induction false} CanonicalHexIsUnique(s: string)
    requires IsCanonicalHex(s)
    ensures s == ToHexNat(HexValue(s))
    decreases |s|
  {
    var last := s[|s| - 1];
    DigitOfValue(last);
    var p := s[..|s| - 1];
    if |s| == 1 {
      assert p == [];
      assert HexValue(s) == DigitValue(last);
    } else {
      assert p[0] == s[0];
      assert forall i :: 0 <= i < |p| ==> p[i] == s[i];
      LeadingDigitMakesPositive(p);
      CanonicalHexIsUnique(p);
      var n := HexValue(s);
      assert n == HexValue(p) * 16 + DigitValue(last);
      DivMod16(n, HexValue(p), DigitValue(last));
      assert s == p + [last];
    }
  }

  /** `Integer.toHexString`: the 32-bit two's-complement pattern as unsigned hex. */
  function ToHexString(rgb: int): (s: string)
    requires IsInt(rgb)
    ensures 1 <= |s| <= 8
    ensures IsCanonicalHex(s)
    ensures HexValue(s) == rgb % 0x1_0000_0000
  {
    var u := rgb % 0x1_0000_0000;
    HexRoundTrip(u);
    HexLength(u);
    ToHexNat(u)
  }

  lemma {:induction false} HexLength(n: nat)
    requires n < 0x1_0000_0000
    ensures |ToHexNat(n)| <= 8
  {
    if n >= 16 {
      HexLengthBound(n, 8);
    }
  }

  lemma {:induction false} HexLengthBound(n: nat, k: nat)
    requires n < Pow16(k) && k >= 1
    ensures |ToHexNat(n)| <= k
    decreases k
  {
    if n >= 16 {
      assert k != 1 by {
        assert Pow16(1) == 16;
      }
      assert n / 16 < Pow16(k - 1);
      HexLengthBound(n / 16, k - 1);
    }
  }

  /** The unsigned pattern of an `Int`: itself when non-negative, shifted by 2^32 otherwise. */
  lemma UnsignedPattern(rgb: int)
    requires IsInt(rgb)
    ensures rgb >= 0 ==> rgb % 0x1_0000_0000 == rgb
    ensures rgb < 0 ==> rgb % 0x1_0000_0000 == rgb + 0x1_0000_0000
  {
  }

  /** The contract of `ToHexString` leaves no freedom: only one text is canonical hex of the pattern. */
  lemma HexStringIsDetermined(rgb: int, s: string)
    requires IsInt(rgb) && IsCanonicalHex(s) && HexValue(s) == rgb % 0x1_0000_0000
    ensures s == ToHexString(rgb)
  {
    CanonicalHexIsUnique(s);
  }

  /** The hex text is a single digit exactly for the colours 0 to 15. */
  lemma ShortHexIffSmall(rgb: int)
    requires IsInt(rgb)
    ensures |ToHexString(rgb)| < 2 <==> 0 <= rgb < 16
  {
    UnsignedPattern(rgb);
    var u := rgb % 0x1_0000_0000;
    if u >= 16 {
      assert |ToHexNat(u)| == |ToHexNat(u / 16)| + 1;
    }
  }

  /** The swatch text: `"#"` and the hex string without its first two characters. */
  function SwatchLabel(rgb: int): (r: Result<string, string>)
    requires IsInt(rgb)
    ensures r.Err? <==> 0 <= rgb < 16
    ensures r.Err? ==> r.error == INDEX_OUT_OF_BOUNDS
    ensures r.Ok? ==> |r.value| >= 1 && r.value[0] == '#'
    ensures r.Ok? ==> r.value == "#" + ToHexString(rgb)[2..]
  {
    var hex := ToHexString(rgb);
    ShortHexIffSmall(rgb);
    if |hex| < 2 then Err(INDEX_OUT_OF_BOUNDS) else Ok("#" + hex[2..])
  }

  /** An opaque colour: alpha 0xFF. */
  predicate IsOpaque(rgb: int) {
    rgb % 0x1_0000_0000 >= 0xFF00_0000
  }

  lemma Pow16Six()
    ensures Pow16(6) == 0x100_0000
  {
  }

  lemma HexOfFF()
    ensures ToHexNat(0xFF) == "ff"
  {
    assert ToHexNat(0xF) == "f";
  }

  /** The unsigned pattern of an opaque colour prints as `ff` and six padded digits. */
  lemma OpaqueHex(u: nat)
    requires 0xFF00_0000 <= u < 0x1_0000_0000
    ensures ToHexNat(u) == "ff" + FixedHex(u - 0xFF00_0000, 6)
  {
    Pow16Six();
    HexOfFF();
    HexSplit(0xFF, u - 0xFF00_0000, 6);
  }

  /** The low 24 bits of a colour whose unsigned pattern has alpha 0xFF. */
  lemma OpaqueLowBits(rgb: int)
    requires IsInt(rgb) && IsOpaque(rgb)
    ensures rgb % 0x1_0000_0000 - 0xFF00_0000 == rgb % 0x100_0000
  {
    UnsignedPattern(rgb);
    var low := rgb + 0x100_0000;
    assert 0 <= low < 0x100_0000;
    ModOfShifted(rgb, 0x100_0000);
  }

  lemma ModOfShifted(x: int, m: int)
    requires m > 0 && 0 <= x + m < m
    ensures x % m == x + m
  {
    assert x == -1 * m + (x + m);
  }

  /** The swatch label of a colour whose unsigned pattern prints as `hex`. */
  lemma LabelFromHex(rgb: int, digits: string)
    requires IsInt(rgb) && ToHexString(rgb) == "ff" + digits
    ensures SwatchLabel(rgb) == Ok("#" + digits)
  {
    var hex := ToHexString(rgb);
    assert hex[2..] == digits;
  }

  /**
   * For an opaque colour the label is `#` and exactly six digits, and those
   * digits read back as the colour's red, green and blue bytes.
   */
  lemma OpaqueLabelIsRgb(rgb: int)
    requires IsInt(rgb) && IsOpaque(rgb)
    ensures var low := rgb % 0x100_0000;
      && SwatchLabel(rgb) == Ok("#" + FixedHex(low, 6))
      && HexValue(FixedHex(low, 6)) == low
  {
    var u := rgb % 0x1_0000_0000;
    OpaqueLowBits(rgb);
    var low := rgb % 0x100_0000;
    OpaqueHex(u);
    LabelFromHex(rgb, FixedHex(low, 6));
    Pow16Six();
    FixedHexRoundTrip(low, 6);
  }

  // ---------------------------------------------------------------- adapter

  /** A `Palette.Swatch`: its colour and the text colour readable on it. */
  datatype Swatch = Swatch(rgb: int, bodyTextColor: int)

  /** The adapter's `items`; `getItemCount` is its length. */
  datatype Adapter = Adapter(items: seq<Swatch>)

  function NewAdapter(): (a: Adapter)
    ensures |a.items| == 0
  {
    Adapter([])
  }

  predicate ValidSwatch(s: Swatch) {
    IsInt(s.rgb) && IsInt(s.bodyTextColor)
  }

  /** One bound row: its colours, its text, and the colour a click on it reports. */
  datatype Row = Row(background: int, textColor: int, text: string, clickColor: int)

  /** `onBindViewHolder` for a position below the item count. */
  function BindViewHolder(a: Adapter, position: int): (r: Result<Row, string>)
    requires 0 <= position < |a.items| && ValidSwatch(a.items[position])
    ensures r.Ok? <==> SwatchLabel(a.items[position].rgb).Ok?
    ensures r.Ok? ==>
      && r.value.clickColor == a.items[position].rgb
      && r.value.background == a.items[position].rgb
      && r.value.textColor == a.items[position].bodyTextColor
      && r.value.text == SwatchLabel(a.items[position].rgb).value
  {
    var swatch := a.items[position];
    match SwatchLabel(swatch.rgb)
    case Err(e) => Err(e)
    case Ok(text) => Ok(Row(swatch.rgb, swatch.bodyTextColor, text, swatch.rgb))
  }

  datatype Navigation = Stay | PopBackStack

  /** The `onColorSelected` callback: the colour becomes the background, and the list closes. */
  function OnColorSelected(colors: ColorViewModel.ColorState, color: int): (r: (ColorViewModel.ColorState, Navigation))
    ensures r.0.backgroundColor == color && r.1 == PopBackStack
    ensures r.0.lightsOn == colors.lightsOn
    ensures r.0.colorWasPicked <==> colors.colorWasPicked || color != colors.backgroundColor
  {
    (ColorViewModel.SetBackgroundColor(colors, color), PopBackStack)
  }

  /**
   * Clicking a row sets the background to that swatch's colour, and counts as
   * a pick exactly when the colour differs from the current background.
   */
  lemma ClickingSwatchPicksItsColor(a: Adapter, position: int, colors: ColorViewModel.ColorState)
    requires 0 <= position < |a.items| && ValidSwatch(a.items[position])
    requires BindViewHolder(a, position).Ok? && !colors.colorWasPicked
    ensures var after := OnColorSelected(colors, BindViewHolder(a, position).value.clickColor).0;
      after.backgroundColor == a.items[position].rgb
      && (after.colorWasPicked <==> a.items[position].rgb != colors.backgroundColor)
  {
  }

  // ---------------------------------------------------------------- picture result gate

  /** What the fragment asks for. */
  datatype PictureEffect = PopBack | RequestPalette(bitmap: int) | LaunchCamera

  datatype Screen = Screen(resultHandled: bool, review: ReviewViewModel.ReviewState)

  /** The `TakePicturePreview` result callback: no picture closes the screen, a picture is analysed. */
  function OnPictureResult(s: Screen, bitmap: Option<int>): (r: (Screen, PictureEffect))
    ensures r.0 == s.(resultHandled := true)
    ensures bitmap.None? <==> r.1 == PopBack
    ensures bitmap.Some? ==> r.1 == RequestPalette(bitmap.value)
  {
    (s.(resultHandled := true), if bitmap.None? then PopBack else RequestPalette(bitmap.value))
  }

  /** `onResume`: pre-warm the review every time; open the camera only while no result has been handled. */
  function OnResume(s: Screen, request: ReviewViewModel.Deferred): (r: (Screen, seq<PictureEffect>))
    ensures r.0 == s.(review := ReviewViewModel.PreWarmReview(s.review, request))
    ensures r.1 == if s.resultHandled then [] else [LaunchCamera]
  {
    (s.(review := ReviewViewModel.PreWarmReview(s.review, request)), if s.resultHandled then [] else [LaunchCamera])
  }

  /**
   * The two observers of the swatch list: the adapter takes the new list as
   * its items, and an empty list (no palette could be made) asks for a new
   * picture.
   */
  function OnSwatches(a: Adapter, swatches: seq<Swatch>): (r: (Adapter, seq<PictureEffect>))
    ensures r.0.items == swatches
    ensures r.1 == [] <==> |swatches| > 0
    ensures r.1 != [] ==> r.1 == [LaunchCamera]
  {
    (Adapter(swatches), if |swatches| == 0 then [LaunchCamera] else [])
  }

  /** Once any picture result has come back, resuming never opens the camera again. */
  lemma CameraNotRelaunchedAfterResult(s: Screen, bitmap: Option<int>, requests: seq<ReviewViewModel.Deferred>)
    ensures var handled := OnPictureResult(s, bitmap).0;
      forall request :: request in requests ==> OnResume(handled, request).1 == []
  {
  }

  /**
   * An empty palette asks for a new picture whatever the handled flag says:
   * after a result, resuming stays quiet, but the empty answer to the
   * picture's palette request still opens the camera.
   */
  lemma EmptyPaletteRetakesPicture(s: Screen, picture: int, a: Adapter, request: ReviewViewModel.Deferred)
    ensures var (handled, effect) := OnPictureResult(s, Some(picture));
      && effect == RequestPalette(picture)
      && OnResume(handled, request).1 == []
      && OnSwatches(a, []).1 == [LaunchCamera]
      && OnSwatches(a, []).0.items == []
  {
  }
}

=== FILE: review_view_model.dfy ===
/**
 * `ReviewViewModel`: an in-app review request is pre-warmed at most once per
 * process, handed out only when it has completed, and never started again
 * after the user has been asked.
 */
module ReviewViewModel {
  import opened Wrappers

  /** The opaque `ReviewInfo` the review library returns. */
  datatype ReviewInfo = ReviewInfo(token: int)

  /**
   * A `Deferred<ReviewInfo>` as the view model observes it. A request that
   * failed counts as cancelled, as `isCancelled` reports for failed jobs.
   */
  datatype Deferred = Active | Completed(info: ReviewInfo) | Cancelled

  datatype ReviewState = ReviewState(alreadyAskedForReview: bool, reviewInfo: Option<Deferred>)

  /** A fresh view model: not asked yet, no request held. */
  function Initial(): (s: ReviewState)
    ensures !s.alreadyAskedForReview && s.reviewInfo.None?
  {
    ReviewState(false, None)
  }

  /** `preWarmReview`; `request` is the deferred that `async { requestReview() }` would create. */
  function PreWarmReview(s: ReviewState, request: Deferred): (t: ReviewState)
    ensures !s.alreadyAskedForReview && s.reviewInfo.None? ==> t == s.(reviewInfo := Some(request))
    ensures s.alreadyAskedForReview || s.reviewInfo.Some? ==> t == s
  {
    if !s.alreadyAskedForReview && s.reviewInfo.None? then s.(reviewInfo := Some(request)) else s
  }

  /** Whether `preWarmReview` starts a request in state `s`. */
  predicate StartsRequest(s: ReviewState) {
    !s.alreadyAskedForReview && s.reviewInfo.None?
  }

  datatype Obtained = Obtained(info: Option<ReviewInfo>, state: ReviewState)

  /** `obtainReviewInfo`: hands out a completed, uncancelled request and forgets it; otherwise null. */
  function ObtainReviewInfo(s: ReviewState): (o: Obtained)
    ensures o.info.Some? <==> s.reviewInfo.Some? && s.reviewInfo.value.Completed?
    ensures o.info.Some? ==> o.info.value == s.reviewInfo.value.info && o.state == s.(reviewInfo := None)
    ensures o.info.None? ==> o.state == s
  {
    match s.reviewInfo
    case Some(Completed(info)) => Obtained(Some(info), s.(reviewInfo := None))
    case _ => Obtained(None, s)
  }

  /** `notifyAskedForReview`: sets the flag and nothing else. */
  function NotifyAskedForReview(s: ReviewState): (t: ReviewState)
    ensures t.alreadyAskedForReview
    ensures t.reviewInfo == s.reviewInfo
  {
    s.(alreadyAskedForReview := true)
  }

  /** The review library finishing the held request with `outcome`. */
  function Settle(s: ReviewState, outcome: Deferred): (t: ReviewState)
    ensures s.reviewInfo == Some(Active) ==> t == s.(reviewInfo := Some(outcome))
    ensures s.reviewInfo != Some(Active) ==> t == s
  {
    if s.reviewInfo == Some(Active) then s.(reviewInfo := Some(outcome)) else s
  }

  /** A second `preWarmReview` while one request is held changes nothing. */
  lemma PreWarmIsIdempotent(s: ReviewState, first: Deferred, second: Deferred)
    ensures PreWarmReview(PreWarmReview(s, first), second) == PreWarmReview(s, first)
  {
  }

  /** Right after a successful `obtainReviewInfo`, the next one returns null. */
  lemma ObtainHandsOutOnce(s: ReviewState)
    requires ObtainReviewInfo(s).info.Some?
    ensures ObtainReviewInfo(ObtainReviewInfo(s).state).info.None?
  {
  }

  lemma NotifyIsIdempotent(s: ReviewState)
    ensures NotifyAskedForReview(NotifyAskedForReview(s)) == NotifyAskedForReview(s)
  {
  }

  /** Everything that can happen to the view model, in order. */
  datatype ReviewOp = PreWarm(request: Deferred) | Obtain | Notify | LibrarySettles(outcome: Deferred)

  /** The state after `ops`, the number of requests started and the infos handed out. */
  datatype Trace = Trace(state: ReviewState, started: nat, handedOut: seq<ReviewInfo>)

  function Run(s: ReviewState, ops: seq<ReviewOp>): Trace
    decreases |ops|
  {
    if |ops| == 0 then Trace(s, 0, [])
    else
      match ops[0]
      case PreWarm(request) =>
        var rest := Run(PreWarmReview(s, request), ops[1..]);
        rest.(started := rest.started + if StartsRequest(s) then 1 else 0)
      case Obtain =>
        var o := ObtainReviewInfo(s);
        var rest := Run(o.state, ops[1..]);
        rest.(handedOut := (if o.info.Some? then [o.info.value] else []) + rest.handedOut)
      case Notify => Run(NotifyAskedForReview(s), ops[1..])
      case LibrarySettles(outcome) => Run(Settle(s, outcome), ops[1..])
  }

  /** Once the user has been asked, no sequence of calls starts another review request. */
  lemma {:induction false} AskedNeverStartsRequest(s: ReviewState, ops: seq<ReviewOp>)
    requires s.alreadyAskedForReview
    ensures Run(s, ops).started == 0
    ensures Run(s, ops).state.alreadyAskedForReview
    decreases |ops|
  {
    if |ops| > 0 {
      match ops[0]
      case PreWarm(request) => AskedNeverStartsRequest(PreWarmReview(s, request), ops[1..]);
      case Obtain => AskedNeverStartsRequest(ObtainReviewInfo(s).state, ops[1..]);
      case Notify => AskedNeverStartsRequest(NotifyAskedForReview(s), ops[1..]);
      case LibrarySettles(outcome) => AskedNeverStartsRequest(Settle(s, outcome), ops[1..]);
    }
  }

  /**
   * A held request that failed or was cancelled is never cleared: no later
   * call starts a new one or hands out any info.
   */
  lemma {:induction false} CancelledRequestIsNeverRetried(s: ReviewState, ops: seq<ReviewOp>)
    requires s.reviewInfo == Some(Cancelled)
    ensures Run(s, ops).started == 0
    ensures Run(s, ops).handedOut == []
    ensures Run(s, ops).state.reviewInfo == Some(Cancelled)
    decreases |ops|
  {
    if |ops| > 0 {
      match ops[0]
      case PreWarm(request) => CancelledRequestIsNeverRetried(PreWarmReview(s, request), ops[1..]);
      case Obtain => CancelledRequestIsNeverRetried(ObtainReviewInfo(s).state, ops[1..]);
      case Notify => CancelledRequestIsNeverRetried(NotifyAskedForReview(s), ops[1..]);
      case LibrarySettles(outcome) => CancelledRequestIsNeverRetried(Settle(s, outcome), ops[1..]);
    }
  }
}

=== FILE: split_install.dfy ===
/**
 * The inputs the split-install library hands to the samples: raw session
 * status codes and session-state records. The library itself is not modelled;
 * its reports are plain values here.
 */
module SplitInstall {

  /** `SplitInstallSessionStatus` codes, as the library defines them. */
  const UNKNOWN: int := 0
  const PENDING: int := 1
  const DOWNLOADING: int := 2
  const DOWNLOADED: int := 3
  const INSTALLING: int := 4
  const INSTALLED: int := 5
  const FAILED: int := 6
  const CANCELED: int := 7
  const REQUIRES_USER_CONFIRMATION: int := 8
  const CANCELING: int := 9

  /**
   * One `SplitInstallSessionState` report. `hasTerminalStatus` is the
   * library's own verdict and is taken as given.
   */
  datatype SessionState = SessionState(
    sessionId: int,
    status: int,
    errorCode: int,
    moduleNames: seq<string>,
    languages: seq<string>,
    bytesDownloaded: int,
    totalBytesToDownload: int,
    hasTerminalStatus: bool)
}

=== FILE: teapot.dfy ===
/**
 * The asset-pack teapot of the native Play Asset Delivery sample: the
 * texture table and pack arithmetic of `TexturedTeapotRender`, its per-frame
 * button dispatch, and the one-slot button mailbox of `TeapotNativeActivity`
 * that the UI thread writes and the render loop reads and resets.
 */
module TeapotRender {
  import opened Wrappers

  const INSTALL_TIME_PACK: string := "install_time_pack"
  const ON_DEMAND_PACK: string := "on_demand_pack"
  const FAST_FOLLOW_PACK: string := "fast_follow_pack"

  /** The table the constructor fills: slot 0 is a scratch slot, slots 1..9 the textures of the three packs. */
  const TEXTURES: seq<string> := [
    "Textures/1.jpeg", "Textures/1.jpeg", "Textures/2.jpeg", "Textures/3.jpeg",
    "/Textures/4.jpeg", "/Textures/5.jpeg", "/Textures/6.jpeg",
    "/Textures/7.jpeg", "/Textures/8.jpeg", "/Textures/9.jpeg"]

  datatype Renderer = Renderer(
    textureIndex: int,
    maxIndex: int,
    renderPack: string,
    renderTextures: seq<string>,
    renderInfo: string)

  /** The invariant every public operation keeps: a cycling index within a ten-slot table. */
  predicate Valid(r: Renderer) {
    r.maxIndex == 3 && 1 <= r.textureIndex <= r.maxIndex && |r.renderTextures| == 10
  }

  /** The constructor. */
  function NewRenderer(): (r: Renderer)
    ensures Valid(r)
    ensures r.textureIndex == 1 && r.renderPack == INSTALL_TIME_PACK && r.renderTextures == TEXTURES
  {
    Renderer(1, 3, INSTALL_TIME_PACK, TEXTURES, "")
  }

  /** How far into the table a pack's three textures start, less one. */
  function PackOffset(pack: string): (offset: int)
    ensures offset == 3 <==> pack == ON_DEMAND_PACK
    ensures offset == 6 <==> pack == FAST_FOLLOW_PACK
    ensures offset == 0 <==> pack != ON_DEMAND_PACK && pack != FAST_FOLLOW_PACK
  {
    if pack == ON_DEMAND_PACK then 3 else if pack == FAST_FOLLOW_PACK then 6 else 0
  }

  /** Textures of the install-time pack ship inside the APK; the other two packs are read from their own location. */
  predicate IsUnderApk(pack: string) {
    pack != ON_DEMAND_PACK && pack != FAST_FOLLOW_PACK
  }

  /** `Init`'s effect: the updated renderer and the arguments of `Texture::Create`. */
  datatype Loaded = Loaded(renderer: Renderer, textureName: string, pack: string, isUnderApk: bool)

  function Init(r: Renderer): (l: Loaded)
    requires Valid(r)
    ensures Valid(l.renderer)
    ensures var index := r.textureIndex + PackOffset(r.renderPack);
      1 <= index <= 9 && l.textureName == r.renderTextures[index]
    ensures l.renderer.renderTextures == r.renderTextures[0 := l.textureName]
    ensures l.renderer.textureIndex == if r.textureIndex == r.maxIndex then 1 else r.textureIndex + 1
    ensures l.renderer.renderInfo == "Texture::" + r.renderPack + "/" + l.textureName
    ensures l.renderer.renderPack == r.renderPack && l.pack == r.renderPack
    ensures l.isUnderApk <==> IsUnderApk(r.renderPack)
  {
    var index := r.textureIndex + PackOffset(r.renderPack);
    var textures := r.renderTextures[0 := r.renderTextures[index]];
    var next := if r.textureIndex + 1 > r.maxIndex then 1 else r.textureIndex + 1;
    var name := textures[0];
    Loaded(
      r.(renderTextures := textures, textureIndex := next, renderInfo := "Texture::" + r.renderPack + "/" + name),
      name, r.renderPack, IsUnderApk(r.renderPack))
  }

  /** The texture index cycles with period three. */
  lemma InitCyclesEveryThreeCalls(r: Renderer)
    requires Valid(r)
    ensures Init(Init(Init(r).renderer).renderer).renderer.textureIndex == r.textureIndex
  {
  }

  /**
   * Slot 0 is the only slot `Init` writes, so from the constructor on the
   * chosen texture is always entry `textureIndex + offset` of the original table.
   */
  lemma InitChoosesFromOriginalTable(r: Renderer)
    requires Valid(r) && r.renderTextures[1..] == TEXTURES[1..]
    ensures Init(r).renderer.renderTextures[1..] == TEXTURES[1..]
    ensures Init(r).textureName == TEXTURES[r.textureIndex + PackOffset(r.renderPack)]
  {
    var index := r.textureIndex + PackOffset(r.renderPack);
    assert r.renderTextures[index] == r.renderTextures[1..][index - 1];
  }

  /** A fresh renderer in each pack shows that pack's first texture. */
  lemma FirstTextureOfEachPack()
    ensures Init(NewRenderer()).textureName == "Textures/1.jpeg"
    ensures Init(NewRenderer().(renderPack := ON_DEMAND_PACK)).textureName == "/Textures/4.jpeg"
    ensures Init(NewRenderer().(renderPack := FAST_FOLLOW_PACK)).textureName == "/Textures/7.jpeg"
  {
  }

  /** What one button code makes the native side do. */
  datatype PackAction =
    | NoAction
    | SelectAssetPack(pack: string)
    | RequestInfo
    | RequestDownload          // followed by printing the download state
    | PauseDownload
    | ResumeDownload
    | PrintLocation
    | ShowCellularDataConfirmation
    | WrongButtonCode          // only a warning is logged

  /** The `switch (buttonCode)` of `UpdateButton`. */
  function Dispatch(code: int): (a: PackAction)
    ensures a.NoAction? <==> code == 0
    ensures a.WrongButtonCode? <==> code < 0 || code > 9
    ensures a.SelectAssetPack? <==> 1 <= code <= 3
    ensures code == 1 ==> a == SelectAssetPack(INSTALL_TIME_PACK)
    ensures code == 2 ==> a == SelectAssetPack(ON_DEMAND_PACK)
    ensures code == 3 ==> a == SelectAssetPack(FAST_FOLLOW_PACK)
    ensures code == 4 ==> a == RequestInfo
    ensures code == 5 ==> a == RequestDownload
    ensures code == 6 ==> a == PauseDownload
    ensures code == 7 ==> a == ResumeDownload
    ensures code == 8 ==> a == PrintLocation
    ensures code == 9 ==> a == ShowCellularDataConfirmation
  {
    if code == 0 then NoAction
    else if code == 1 then SelectAssetPack(INSTALL_TIME_PACK)
    else if code == 2 then SelectAssetPack(ON_DEMAND_PACK)
    else if code == 3 then SelectAssetPack(FAST_FOLLOW_PACK)
    else if code == 4 then RequestInfo
    else if code == 5 then RequestDownload
    else if code == 6 then PauseDownload
    else if code == 7 then ResumeDownload
    else if code == 8 then PrintLocation
    else if code == 9 then ShowCellularDataConfirmation
    else WrongButtonCode
  }

  /** No two button codes trigger the same action, so every code names exactly one behaviour. */
  lemma DispatchIsOneToOne(c1: int, c2: int)
    requires 0 <= c1 <= 9 && 0 <= c2 <= 9
    ensures Dispatch(c1) == Dispatch(c2) <==> c1 == c2
  {
  }

  /** The renderer together with the asset-pack selection of the native helper (initially none). */
  datatype Frame = Frame(renderer: Renderer, selected: Option<string>, action: PackAction)

  /**
   * `UpdateButton` after the button code has been read: dispatch, then switch
   * the render pack to the selected one if its download is complete or it is
   * the install-time pack. `completed` holds the packs whose download state
   * is COMPLETED at that moment. With no pack selected yet the render pack is
   * left as it is.
   */
  function UpdateButton(r: Renderer, selected: Option<string>, code: int, completed: set<string>): (f: Frame)
    ensures f.action == Dispatch(code)
    ensures f.selected == if Dispatch(code).SelectAssetPack? then Some(Dispatch(code).pack) else selected
    ensures f.renderer.renderPack ==
      if f.selected.Some? && (f.selected.value in completed || f.selected.value == INSTALL_TIME_PACK)
      then f.selected.value else r.renderPack
    ensures f.renderer.(renderPack := r.renderPack) == r
  {
    var action := Dispatch(code);
    var sel := if action.SelectAssetPack? then Some(action.pack) else selected;
    var pack := if sel.Some? && (sel.value in completed || sel.value == INSTALL_TIME_PACK) then sel.value else r.renderPack;
    Frame(r.(renderPack := pack), sel, action)
  }

  predicate IsKnownPack(pack: string) {
    pack == INSTALL_TIME_PACK || pack == ON_DEMAND_PACK || pack == FAST_FOLLOW_PACK
  }

  /** The render pack is always one of the three packs, and only a downloaded or install-time pack becomes it. */
  lemma RenderPackStaysKnown(r: Renderer, selected: Option<string>, code: int, completed: set<string>)
    requires IsKnownPack(r.renderPack)
    requires selected.Some? ==> IsKnownPack(selected.value)
    ensures var f := UpdateButton(r, selected, code, completed);
      IsKnownPack(f.renderer.renderPack)
      && (f.selected.Some? ==> IsKnownPack(f.selected.value))
      && (f.renderer.renderPack != r.renderPack ==>
            f.renderer.renderPack in completed || f.renderer.renderPack == INSTALL_TIME_PACK)
  {
  }
}

module TeapotActivity {
  import opened Wrappers
  import TeapotRender

  /** The `buttonCode` field: the last click not yet read by the render loop. */
  datatype Mailbox = Mailbox(buttonCode: int)

  function InitialMailbox(): (m: Mailbox)
    ensures m.buttonCode == 0
  {
    Mailbox(0)
  }

  /** The nine on-screen buttons, in the order of their handlers. */
  datatype Button = Pack1 | Pack2 | Pack3 | RequestInfo | Request | Pause | Resume | PrintLocation | ShowCellular

  /** The code each `onClick*Btn` handler writes. */
  function CodeOf(b: Button): (code: int)
    ensures 1 <= code <= 9
  {
    match b
    case Pack1 => 1
    case Pack2 => 2
    case Pack3 => 3
    case RequestInfo => 4
    case Request => 5
    case Pause => 6
    case Resume => 7
    case PrintLocation => 8
    case ShowCellular => 9
  }

  /** Each button makes the native side do what its label says. */
  lemma ButtonsDispatchTheirActions()
    ensures TeapotRender.Dispatch(CodeOf(Pack1)) == TeapotRender.SelectAssetPack(TeapotRender.INSTALL_TIME_PACK)
    ensures TeapotRender.Dispatch(CodeOf(Pack2)) == TeapotRender.SelectAssetPack(TeapotRender.ON_DEMAND_PACK)
    ensures TeapotRender.Dispatch(CodeOf(Pack3)) == TeapotRender.SelectAssetPack(TeapotRender.FAST_FOLLOW_PACK)
    ensures TeapotRender.Dispatch(CodeOf(RequestInfo)) == TeapotRender.RequestInfo
    ensures TeapotRender.Dispatch(CodeOf(Request)) == TeapotRender.RequestDownload
    ensures TeapotRender.Dispatch(CodeOf(Pause)) == TeapotRender.PauseDownload
    ensures TeapotRender.Dispatch(CodeOf(Resume)) == TeapotRender.ResumeDownload
    ensures TeapotRender.Dispatch(CodeOf(PrintLocation)) == TeapotRender.PrintLocation
    ensures TeapotRender.Dispatch(CodeOf(ShowCellular)) == TeapotRender.ShowCellularDataConfirmation
  {
  }

  function OnClick(m: Mailbox, b: Button): (n: Mailbox)
    ensures n.buttonCode == CodeOf(b)
  {
    Mailbox(CodeOf(b))
  }

  datatype Read = Read(code: int, mailbox: Mailbox)

  /** `updateButtons`: hand out the pending code and reset it. */
  function UpdateButtons(m: Mailbox): (r: Read)
    ensures r.code == m.buttonCode && r.mailbox.buttonCode == 0
  {
    Read(m.buttonCode, Mailbox(0))
  }

  /** Reading twice with no click in between yields nothing the second time. */
  lemma SecondReadIsZero(m: Mailbox)
    ensures UpdateButtons(UpdateButtons(m).mailbox).code == 0
  {
  }

  /** Each handler writes its own code, and the native dispatch handles every one of them. */
  lemma HandlerCodesAreDistinctAndHandled(a: Button, b: Button)
    ensures CodeOf(a) == CodeOf(b) ==> a == b
    ensures !TeapotRender.Dispatch(CodeOf(a)).NoAction? && !TeapotRender.Dispatch(CodeOf(a)).WrongButtonCode?
  {
  }

  function ClickAll(m: Mailbox, clicks: seq<Button>): Mailbox
    decreases |clicks|
  {
    if |clicks| == 0 then m else ClickAll(OnClick(m, clicks[0]), clicks[1..])
  }

  /** Clicks between two reads overwrite one another: only the last is seen. */
  lemma {:induction false} LastClickWins(m: Mailbox, clicks: seq<Button>)
    requires |clicks| > 0
    ensures UpdateButtons(ClickAll(m, clicks)).code == CodeOf(clicks[|clicks| - 1])
    decreases |clicks|
  {
    if |clicks| > 1 {
      LastClickWins(OnClick(m, clicks[0]), clicks[1..]);
    }
  }

  /** One render frame: read the mailbox, then let the renderer act on the code. */
  function RenderFrame(m: Mailbox, r: TeapotRender.Renderer, selected: Option<string>, completed: set<string>)
    : (result: (Mailbox, TeapotRender.Frame))
    ensures result.0.buttonCode == 0
    ensures result.1.action == TeapotRender.Dispatch(m.buttonCode)
    ensures result.1 == TeapotRender.UpdateButton(r, selected, m.buttonCode, completed)
    ensures result.1.renderer.(renderPack := r.renderPack) == r
  {
    var read := UpdateButtons(m);
    (read.mailbox, TeapotRender.UpdateButton(r, selected, read.code, completed))
  }

  /**
   * A click is acted on by exactly one frame: the next one; the frame after
   * that does nothing. This holds when clicks and frames do not interleave:
   * the read and the reset are not atomic, so a click landing between them
   * is lost.
   */
  lemma ClickIsHandledOnce(m: Mailbox, b: Button, r: TeapotRender.Renderer,
                           selected: Option<string>, completed: set<string>)
    ensures var (m1, f1) := RenderFrame(OnClick(m, b), r, selected, completed);
      var (_, f2) := RenderFrame(m1, f1.renderer, f1.selected, completed);
      f1.action == TeapotRender.Dispatch(CodeOf(b)) && f2.action == TeapotRender.NoAction
  {
  }
}

=== FILE: update_view_model.dfy ===
/**
 * The two `UpdateViewModel` variants of the PlayCoreKtx sample: what a click
 * on the update button does for each `AppUpdateResult`, and what happens when
 * the update flow itself fails.
 */
module UpdateViewModel {
  import opened Wrappers
  import opened AppUpdate
  import opened UiEvents

  const NO_UPDATE_TEXT: string := "No update available"
  const IN_PROGRESS_TEXT: string := "Update already in progress"
  const INFO_NOT_AVAILABLE_TEXT: string := "Update info not available"
  /** The exception `invokeUpdate` throws for an update it cannot start. */
  const ILLEGAL_STATE: string := "IllegalStateException"

  /** Immediate updates: allowed by Play, and either stale for more than 30 days or of priority above 4. */
  function ShouldLaunchImmediateUpdate(info: AppUpdateInfo): (b: bool)
    ensures b ==> info.isImmediateUpdateAllowed
    ensures b ==> info.clientVersionStalenessDays.GetOr(0) > 30 || info.updatePriority > 4
    ensures info.isImmediateUpdateAllowed && info.updatePriority > 4 ==> b
    ensures info.isImmediateUpdateAllowed && info.clientVersionStalenessDays.GetOr(0) > 30 ==> b
  {
    info.isImmediateUpdateAllowed
    && (info.clientVersionStalenessDays.GetOr(0) > 30 || info.updatePriority > 4)
  }

  /** An unknown staleness counts as zero days. */
  lemma MissingStalenessCountsAsZero(info: AppUpdateInfo)
    ensures ShouldLaunchImmediateUpdate(info.(clientVersionStalenessDays := None))
        == ShouldLaunchImmediateUpdate(info.(clientVersionStalenessDays := Some(0)))
  {
  }

  /** What `invokeUpdate` did: the events it sent and whether it completed a downloaded update. */
  datatype UpdateEffect = UpdateEffect(events: seq<Event>, completeUpdate: bool)

  /**
   * `invokeUpdate` of the `state` variant. An `Available` update that allows
   * neither an immediate nor a flexible flow throws `IllegalStateException`.
   */
  function InvokeUpdate(updateStatus: Option<AppUpdateResult>): (r: Result<UpdateEffect, string>)
    ensures updateStatus.None? ==> r == Ok(UpdateEffect([], false))
    ensures updateStatus == Some(NotAvailable) ==> r == Ok(UpdateEffect([ToastEvent(NO_UPDATE_TEXT)], false))
    ensures updateStatus.Some? && updateStatus.value.InProgress? ==>
      r == Ok(UpdateEffect([ToastEvent(IN_PROGRESS_TEXT)], false))
    ensures updateStatus == Some(Downloaded) ==> r == Ok(UpdateEffect([], true))
    ensures r.Err? <==>
      updateStatus.Some? && updateStatus.value.Available?
      && !ShouldLaunchImmediateUpdate(updateStatus.value.updateInfo)
      && !updateStatus.value.updateInfo.isFlexibleUpdateAllowed
    ensures updateStatus.Some? && updateStatus.value.Available? && r.Ok? ==>
      var info := updateStatus.value.updateInfo;
      r.value == UpdateEffect([StartUpdateEvent(info, ShouldLaunchImmediateUpdate(info))], false)
    ensures r.Ok? ==> |r.value.events| <= 1
  {
    match updateStatus
    case None => Ok(UpdateEffect([], false))
    case Some(NotAvailable) => Ok(UpdateEffect([ToastEvent(NO_UPDATE_TEXT)], false))
    case Some(Available(info)) =>
      if ShouldLaunchImmediateUpdate(info) then Ok(UpdateEffect([StartUpdateEvent(info, true)], false))
      else if info.isFlexibleUpdateAllowed then Ok(UpdateEffect([StartUpdateEvent(info, false)], false))
      else Err(ILLEGAL_STATE)
    case Some(InProgress(_)) => Ok(UpdateEffect([ToastEvent(IN_PROGRESS_TEXT)], false))
    case Some(Downloaded) => Ok(UpdateEffect([], true))
  }

  /** An update event is immediate only if immediate updates are allowed at all. */
  lemma StartUpdateImmediateOnlyIfAllowed(updateStatus: Option<AppUpdateResult>)
    requires InvokeUpdate(updateStatus).Ok?
    ensures forall e :: e in InvokeUpdate(updateStatus).value.events && e.StartUpdateEvent? && e.immediate ==>
      e.updateInfo.isImmediateUpdateAllowed
  {
  }

  /**
   * `updateStatus` with its `catch`: each result delivered replaces the
   * current one, and an upstream failure, which ends the flow, adds one toast
   * and no result. The `state` variant sends that toast as a `ToastEvent`,
   * the older one sets it.
   */
  datatype FlowOutcome = FlowOutcome(latest: Option<AppUpdateResult>, toasts: seq<string>)

  /** Deliver `results` in order, each becoming the `LiveData` value. */
  function Deliver(o: FlowOutcome, results: seq<AppUpdateResult>): (r: FlowOutcome)
    ensures r.toasts == o.toasts
    ensures r.latest == if |results| == 0 then o.latest else Some(results[|results| - 1])
    decreases |results|
  {
    if |results| == 0 then o else Deliver(o.(latest := Some(results[0])), results[1..])
  }

  function CollectUpdateFlow(results: seq<AppUpdateResult>, upstreamFailed: bool): (o: FlowOutcome)
    ensures o.toasts == (if upstreamFailed then [INFO_NOT_AVAILABLE_TEXT] else [])
    ensures o.latest.Some? <==> |results| > 0
    ensures o.latest.Some? ==> o.latest.value == results[|results| - 1]
  {
    var delivered := Deliver(FlowOutcome(None, []), results);
    if upstreamFailed then delivered.(toasts := delivered.toasts + [INFO_NOT_AVAILABLE_TEXT]) else delivered
  }

  /**
   * When the update check fails before delivering anything, the user sees the
   * one "Update info not available" toast and a click on the button then does
   * nothing, in either variant.
   */
  lemma FailureBeforeAnyResult()
    ensures var o := CollectUpdateFlow([], true);
      && o.toasts == [INFO_NOT_AVAILABLE_TEXT]
      && InvokeUpdate(o.latest) == Ok(UpdateEffect([], false))
      && LegacyInvokeUpdate(o.latest) == LegacyEffect(None, false, None)
  {
  }

  /** A failure after some results keeps the last one, so a click acts on it as if the flow had not failed. */
  lemma FailureKeepsLatestResult(results: seq<AppUpdateResult>)
    requires |results| > 0
    ensures CollectUpdateFlow(results, true).latest == CollectUpdateFlow(results, false).latest
    ensures InvokeUpdate(CollectUpdateFlow(results, true).latest) == InvokeUpdate(Some(results[|results| - 1]))
  {
  }

  /** The branch the older variant's `Available` case takes; every branch body is an empty TODO. */
  datatype LegacyBranch = StaleImmediateTodo | PriorityImmediateTodo | FlexibleTodo | NoBranch

  /** The older variant's condition for either immediate branch: a 7-day staleness or priority above 4. */
  predicate LegacyWantsImmediate(info: AppUpdateInfo) {
    info.isImmediateUpdateAllowed && (info.clientVersionStalenessDays.GetOr(0) > 7 || info.updatePriority > 4)
  }

  /** The `if`/`else if` chain of the `Available` case: the first branch whose condition holds. */
  function LegacyBranchFor(info: AppUpdateInfo): (b: LegacyBranch)
    ensures (b == StaleImmediateTodo || b == PriorityImmediateTodo) <==> LegacyWantsImmediate(info)
    ensures b == StaleImmediateTodo ==> info.clientVersionStalenessDays.GetOr(0) > 7
    ensures b == PriorityImmediateTodo ==> info.updatePriority > 4 && info.clientVersionStalenessDays.GetOr(0) <= 7
    ensures b == FlexibleTodo <==> info.isFlexibleUpdateAllowed && !LegacyWantsImmediate(info)
    ensures b == NoBranch <==> !info.isFlexibleUpdateAllowed && !LegacyWantsImmediate(info)
  {
    if info.clientVersionStalenessDays.GetOr(0) > 7 && info.isImmediateUpdateAllowed then StaleImmediateTodo
    else if info.updatePriority > 4 && info.isImmediateUpdateAllowed then PriorityImmediateTodo
    else if info.isFlexibleUpdateAllowed then FlexibleTodo
    else NoBranch
  }

  /** What the older `invokeUpdate` did: the toast it set (if any), completion, and the branch taken. */
  datatype LegacyEffect = LegacyEffect(toast: Option<string>, completeUpdate: bool, branch: Option<LegacyBranch>)

  /** `invokeUpdate` of the older variant. */
  function LegacyInvokeUpdate(updateStatus: Option<AppUpdateResult>): (e: LegacyEffect)
    ensures updateStatus.None? ==> e == LegacyEffect(None, false, None)
    ensures e.toast.Some? <==> updateStatus == Some(NotAvailable) || (updateStatus.Some? && updateStatus.value.InProgress?)
    ensures updateStatus == Some(NotAvailable) ==> e.toast == Some(NO_UPDATE_TEXT)
    ensures updateStatus.Some? && updateStatus.value.InProgress? ==> e.toast == Some(IN_PROGRESS_TEXT)
    ensures e.completeUpdate <==> updateStatus == Some(Downloaded)
    ensures e.branch.Some? <==> updateStatus.Some? && updateStatus.value.Available?
  {
    match updateStatus
    case None => LegacyEffect(None, false, None)
    case Some(NotAvailable) => LegacyEffect(Some(NO_UPDATE_TEXT), false, None)
    case Some(Available(info)) => LegacyEffect(None, false, Some(LegacyBranchFor(info)))
    case Some(InProgress(_)) => LegacyEffect(Some(IN_PROGRESS_TEXT), false, None)
    case Some(Downloaded) => LegacyEffect(None, true, None)
  }

  /** Whenever the newer variant launches an immediate update, the older one is in an immediate branch. */
  lemma LegacyImmediateCoversImmediate(info: AppUpdateInfo)
    requires ShouldLaunchImmediateUpdate(info)
    ensures LegacyBranchFor(info) == StaleImmediateTodo || LegacyBranchFor(info) == PriorityImmediateTodo
  {
  }

  /** The older variant's staleness threshold is 7 days, not 30: ten stale days differ between them. */
  lemma LegacyStalenessThresholdIsLower()
    ensures var info := AppUpdateInfo(true, true, Some(10), 0);
      LegacyBranchFor(info) == StaleImmediateTodo && !ShouldLaunchImmediateUpdate(info)
  {
  }
}

=== FILE: wrappers.dfy ===
/** Option and Result: the model's stand-ins for Kotlin nullable values and thrown exceptions. */
module Wrappers {

  /** A Kotlin `T?`: `None` is `null`. */
  datatype Option<+T> = None | Some(value: T) {

    /** Kotlin's `this ?: default`. */
    function GetOr(default: T): T {
      match this
      case Some(v) => v
      case None => default
    }
  }

  /** The outcome of a call that either returns a value or throws. */
  datatype Result<+T, +E> = Ok(value: T) | Err(error: E)
}
